=== FILE: README.md ===
# Networked first-person physics controllers, modelled in Dafny

This project models the control logic of six Unity components of a small networked
first-person game:

- **PlayerMovement.** The rigidbody locomotion motor. It has four states (Grounded, Air, Slide,
  Crawl). Each physics tick runs ground classification, a hover spring that holds the body at
  ride height, a per-state move that includes jump gating with a buffer and a coyote window,
  and the capsule height blend.
- **PlayerBodyInteractor.** The client-side ownership-lease map. The player's trigger volume
  claims server-owned physics objects it touches. After contact ends there is a grace period,
  then a sweep returns the objects.
- **RigidbodyController.** A second ride controller. It has the same lease map, here on
  collisions and with a fixed grace period `OwnedTime`: the single-precision literal `0.2f`
  widened to double, 13421773/2^26 = 0.20000000298… s. It also has velocity damping, a ride spring
  with a reaction force on the body below, and a movement force weighted by how well the
  velocity agrees with the input.
- **PlayerInteractor.** Grab, hold, drop and throw of light, unowned bodies through a soft
  configurable joint.
- **LookPhysicsState.** The previous and current look snapshot taken on physics ticks, and the
  interpolation factor between them.
- **SimpleCharacterMotor.** A kinematic capsule motor. It covers the capsule geometry, the
  vertical-velocity rule, the bounded slide loop and gated push requests to rigidbodies.

## How it is modelled

Every component is a module of immutable records and pure step functions:

- `player_movement.dfy`
- `player_body_interactor.dfy`. This module holds the lease-map core. `rigidbody_controller.dfy`
  reuses it.
- `rigidbody_controller.dfy`
- `player_interactor.dfy`
- `look_physics_state.dfy`
- `simple_character_motor.dfy`

Helper modules:

- `num.dfy`: Unity's scalar helpers (`Mathf.Lerp`, `Clamp01`, `Approximately`) written out on
  reals.
- `vec.dfy`: vector arithmetic.
- `wrappers.dfy`: `Option`.

Physics queries become oracle arguments of the step functions: sphere casts, rays, capsule
casts, `CheckCapsule`, `Vector3.Angle` and point velocities. Float functions that Unity does not
define in closed form are also parameters: `Mathf.Sqrt`, `Mathf.Exp`, `SmoothDampAngle`,
`AnimationCurve.Evaluate`, and the frame transforms of `InverseTransformPoint`.

Normalization is an oracle (`Vec.FloatOps`) that is constrained by `Vec.Sound`. Its result
is zero exactly when the length of the input is at most 0.00001. Otherwise it is a unit vector
pointing the same way as the input: a positive multiple of it gives the input back. It maps a
unit vector to itself, and the 3D version keeps a zero y component zero. `Vec.UnitySound`
shows that Unity's own definition (the vector divided by its length) meets these constraints.
Only the real-number rounding of that division is left free.

Calls into the physics engine are recorded as requests, in issue order, and are not executed:

- `AddForce` with its force mode;
- impulses and force at a point;
- interpolation and gravity toggles;
- ownership grants and revocations.

Unity applies `AddForce` only at the next integration step. So within a tick, velocity reads
see only direct assignments, such as the jump's vertical clamp and the damping lerp.

## Model

| member | source | states |
|---|---|---|
| PlayerMovement.SwitchState | Assets/Scripts/Player/PlayerMovement.cs:249-254 | Switching to the current state changes nothing and raises no event. Otherwise the state becomes the target and exactly one event, carrying the new state, is appended. Forces are never touched. |
| PlayerMovement.EventChainAppend | Assets/Scripts/Player/PlayerMovement.cs:249-254 | Appending a real state change to an event chain gives a chain that ends in the new state. |
| PlayerMovement.SwitchStateChains | Assets/Scripts/Player/PlayerMovement.cs:249-254 | If the events raised so far form a chain of genuine changes from the starting state to the current state, this stays true after any switch. |
| PlayerMovement.SwitchStateIdempotent | Assets/Scripts/Player/PlayerMovement.cs:249-254 | Switching twice to the same state is the same as switching once. |
| PlayerMovement.SetMoveInput | Assets/Scripts/Player/PlayerMovement.cs:71 | The stored input always lies in the unit disk. An input already inside the disk is stored unchanged. A longer input is stored as the unit vector pointing its way: a positive multiple of it gives the input back. Nothing else in the motor changes. |
| PlayerMovement.SetMoveInputIdempotent | Assets/Scripts/Player/PlayerMovement.cs:71 | Storing the stored input again leaves the motor as it is. |
| PlayerMovement.SetJump | Assets/Scripts/Player/PlayerMovement.cs:72-76 | The press flag is recorded. The press time is taken from the clock only on a press, so a release keeps the earlier press time. |
| PlayerMovement.SetCrouch | Assets/Scripts/Player/PlayerMovement.cs:77 | Only the crouch flag changes. |
| PlayerMovement.SetHeight | Assets/Scripts/Player/PlayerMovement.cs:265-274 | A non-forced call to an approximately equal height changes nothing. Otherwise the capsule gets the new height with its center at (0, h/2, 0), and the pivot moves up by half the height change, so the bottom of the capsule is at the pivot. For a capsule already centred this way, the bottom moves by half the height change and the center by the whole change. The pivot minus half the height is kept. |
| PlayerMovement.CrouchLowersBottomAndCenter | Assets/Scripts/Player/PlayerMovement.cs:265-274 | Crouching a centred 1.8 m capsule to 1.0 m lowers its bottom by 0.4 and its center by 0.8. |
| PlayerMovement.SetHeightIdempotent | Assets/Scripts/Player/PlayerMovement.cs:265-274 | A non-forced repeat of a height change does nothing more. |
| PlayerMovement.SetHeightRoundTrip | Assets/Scripts/Player/PlayerMovement.cs:265-274 | Forcing a new height and then forcing the old one back restores the motor exactly, when its center was at half height. |
| PlayerMovement.ApplyImmediateConfigChanges | Assets/Scripts/Player/PlayerMovement.cs:63-69 | The capsule takes the crawl height in Crawl or Slide and the stand height otherwise, centred on half its height, with the pivot moved by half the change. The state and the config are unchanged. |
| PlayerMovement.ApplyImmediateConfigChangesIdempotent | Assets/Scripts/Player/PlayerMovement.cs:63-69 | Reapplying the config a second time changes nothing. |
| PlayerMovement.SetConfig | Assets/Scripts/Player/PlayerMovement.cs:54-61 | A missing config, or the config already in use, changes nothing. Otherwise the new config is installed and the target height of the current state is applied at once. |
| PlayerMovement.SetConfigIdempotent | Assets/Scripts/Player/PlayerMovement.cs:54-61 | Installing the same config twice is the same as installing it once. |
| PlayerMovement.SetConfigThenApply | Assets/Scripts/Player/PlayerMovement.cs:54-68 | Right after a new config is installed, applying it again changes nothing. |
| PlayerMovement.UpdateHeight | Assets/Scripts/Player/PlayerMovement.cs:256-261 | The new height lies between the current height and the state's target height, and never moves away from the target. The pivot minus half the height is kept. |
| PlayerMovement.UpdateHeightAtTarget | Assets/Scripts/Player/PlayerMovement.cs:256-261 | At the target height, the blend leaves the motor unchanged. |
| PlayerMovement.FirstWalkable | Assets/Scripts/Player/PlayerMovement.cs:123-134 | No hit is found exactly when every hit is steeper than the slope limit. A found hit is the first walkable one in the buffer. |
| PlayerMovement.BufferedHits | Assets/Scripts/Player/PlayerMovement.cs:34 | At most two hits are seen, and they are a prefix of the cast's results. |
| PlayerMovement.UpdateGround | Assets/Scripts/Player/PlayerMovement.cs:114-135 | The body is grounded exactly when a buffered hit is within the slope limit. When grounded, the last-grounded time becomes the current time and the normal is that of the first walkable hit. Otherwise the normal is up and the last-grounded time is kept. No other field changes. |
| PlayerMovement.SpringAccel | Assets/Scripts/Player/PlayerMovement.cs:150-167 | The spring acceleration never exceeds the configured maximum in either direction. |
| PlayerMovement.SpringAccelAtRest | Assets/Scripts/Player/PlayerMovement.cs:150-167 | With no velocity relative to the ground along the normal, the acceleration is the clamped product of the ride-height error and the stiffness. |
| PlayerMovement.HoverSpring | Assets/Scripts/Player/PlayerMovement.cs:143-174 | There is no force on a ray miss or inside the dead zone. Otherwise the body gets the clamped acceleration along the normal. The ground body gets a second force exactly when it exists and is not kinematic. The spring never issues a jump impulse. |
| PlayerMovement.HoverReactionOpposite | Assets/Scripts/Player/PlayerMovement.cs:169-173 | The reaction on the ground body is exactly opposite to the force on the player. |
| PlayerMovement.DivScale | Assets/Scripts/Player/PlayerMovement.cs:231 | Dividing the velocity change by the tick length and then integrating over the tick recovers the change. |
| PlayerMovement.AccelerateToward | Assets/Scripts/Player/PlayerMovement.cs:225-233 | The requested acceleration is horizontal. When the capped target is farther than accel·dt from the planar velocity, the velocity change of one step is exactly accel·dt long. For a positive accel it points toward the target: scaling it by its projection on the gap gives the gap scaled by (accel·dt)². |
| PlayerMovement.AccelerateTowardBounded | Assets/Scripts/Player/PlayerMovement.cs:225-233 | The velocity change it causes over one tick is at most accel·dt long. |
| PlayerMovement.AccelerateTowardReaches | Assets/Scripts/Player/PlayerMovement.cs:225-233 | When the capped target velocity is within reach in one tick, the planar velocity lands exactly on it. |
| PlayerMovement.ClampKeepsLevel | Assets/Scripts/Player/PlayerMovement.cs:228 | Capping a horizontal vector's length keeps it horizontal. |
| PlayerMovement.PlanarFriction | Assets/Scripts/Player/PlayerMovement.cs:235-239 | Friction is the planar velocity reversed and scaled by the strength. |
| PlayerMovement.PlanarFrictionOpposes | Assets/Scripts/Player/PlayerMovement.cs:235-239 | With a non-negative strength, friction never points along the motion. |
| PlayerMovement.WishOnPlaneFacts | Assets/Scripts/Player/PlayerMovement.cs:241-247 | The stick is turned into the body's frame and projected on the plane. When that projection is longer than 0.00001, the wish is the unit vector along it; otherwise the wish is zero. On the up plane the wish is horizontal. |
| PlayerMovement.HasJumpConcat | Assets/Scripts/Player/PlayerMovement.cs:220 | A force list holds a jump impulse exactly when one of its parts does. |
| PlayerMovement.AddForce | Assets/Scripts/Player/PlayerMovement.cs:169 | A force is appended and nothing else changes. The list holds a jump exactly when it did before or the new force is a velocity change. |
| PlayerMovement.GroundMove | Assets/Scripts/Player/PlayerMovement.cs:176-181 | The ground move adds an acceleration and a friction force, leaves the motor and the events alone, and issues no jump. |
| PlayerMovement.AirMove | Assets/Scripts/Player/PlayerMovement.cs:183-187 | The air move adds one acceleration, leaves the motor and the events alone, and issues no jump. |
| PlayerMovement.SlideMove | Assets/Scripts/Player/PlayerMovement.cs:189-198 | The capsule is set to the slide height. Exactly two accelerations are appended and the earlier forces are kept. The first is friction: for a non-negative friction it points against the velocity along the ground. Both forces lie in the ground plane when the normal is not degenerate, so gravity only pulls along the slope. The state becomes Crawl exactly when the speed is below 1.2 times the crawl speed. No jump is issued. |
| PlayerMovement.CrawlMove | Assets/Scripts/Player/PlayerMovement.cs:200-206 | The capsule is set to the crawl height. No state change and no jump happen. |
| PlayerMovement.TryJump | Assets/Scripts/Player/PlayerMovement.cs:208-223 | Nothing happens unless the press is inside the buffer window and the ground contact inside the coyote window. When the jump fires, the press is consumed, a falling velocity is zeroed, one vertical velocity change of the jump speed is issued and the state becomes Air. |
| PlayerMovement.JumpWindowCloses | Assets/Scripts/Player/PlayerMovement.cs:210-212 | The jump gate only closes as time passes: open at some time, it was open at every earlier time. |
| PlayerMovement.JumpConsumed | Assets/Scripts/Player/PlayerMovement.cs:214 | After a jump fires, the same press cannot fire again at any later time. |
| PlayerMovement.StateStep | Assets/Scripts/Player/PlayerMovement.cs:82-109 | A jump is issued exactly when a Grounded motor's jump is ready, and only then is the press consumed. The config, the last-grounded time and the pivot minus half the height are kept. |
| PlayerMovement.FixedUpdate | Assets/Scripts/Player/PlayerMovement.cs:79-112 | A tick issues a jump impulse exactly when the motor was Grounded and the jump is ready after ground classification. The press is consumed exactly then. The last-grounded time is the one ground classification set. The config and the pivot minus half the height are kept. |
| PlayerMovement.TryJumpChains | Assets/Scripts/Player/PlayerMovement.cs:208-223 | A jump keeps the tick's events a chain of genuine state changes. |
| PlayerMovement.SlideMoveChains | Assets/Scripts/Player/PlayerMovement.cs:189-198 | The slide move keeps the tick's events a chain of genuine state changes. |
| PlayerMovement.GroundedStepChains | Assets/Scripts/Player/PlayerMovement.cs:84-92 | A Grounded tick raises a chain of genuine state changes that ends in the final state. |
| PlayerMovement.AirStepChains | Assets/Scripts/Player/PlayerMovement.cs:94-97 | An Air tick raises a chain of genuine state changes that ends in the final state. |
| PlayerMovement.SlideStepChains | Assets/Scripts/Player/PlayerMovement.cs:99-102 | A Slide tick raises a chain of genuine state changes that ends in the final state. |
| PlayerMovement.CrawlStepChains | Assets/Scripts/Player/PlayerMovement.cs:104-108 | A Crawl tick raises a chain of genuine state changes that ends in the final state. |
| PlayerMovement.FixedUpdateEventChain | Assets/Scripts/Player/PlayerMovement.cs:79-112 | Every tick's state events are genuine changes leading from the old state to the new one. |
| PlayerMovement.StateStepFollowsTable | Assets/Scripts/Player/PlayerMovement.cs:84-108 | On any frame, the state switch of the state step agrees with the same transition table, read off the motor at the start of the step and the velocity after a fired jump. |
| PlayerMovement.FixedUpdateFollowsTable | Assets/Scripts/Player/PlayerMovement.cs:84-108 | The state after a tick is given by an independent transition table, including the override order. From Grounded the order is: airborne, then slide when crouching fast, then crawl when crouching, then Air after a jump. From Air the state is Grounded exactly when on ground. From Slide: release gives Grounded or Air, otherwise Crawl when slow. From Crawl: airborne, otherwise stand up when released and there is room. |
| PlayerMovement.NextStateEntries | Assets/Scripts/Player/PlayerMovement.cs:84-108 | In the transition table, Air only lands in Grounded, Slide is entered only from Grounded, Crawl is never entered from Air, off ground Grounded and Crawl go to Air, and a slide with crouch held stays Slide or Crawl whatever the ground. |
| PlayerMovement.CanStandUpProbe | Assets/Scripts/Player/PlayerMovement.cs:276-281 | There is room to stand exactly when a sphere of 0.95 times the radius, swept up from half the crawl height above the pivot, hits nothing over the extra height standing needs plus 0.05. |
| PlayerMovement.JumpFiresWindows | Assets/Scripts/Player/PlayerMovement.cs:84-88 | A tick jumps only from Grounded, with the press inside the buffer window and the body on ground or inside the coyote window. |
| PlayerMovement.AwakeAsWritten | Assets/Scripts/Player/PlayerMovement.cs:45-51 | Start-up as written: stand height, state Air with one event, no forces, and the press time left at 0. |
| PlayerMovement.Awake | Assets/Scripts/Player/PlayerMovement.cs:45-51 | Corrected start-up: the same, except that no press is recorded. The pivot minus half the height is that of the spawned body. |
| PlayerMovement.ApplyUnpressed | Assets/Scripts/Player/PlayerMovement.cs:72-76 | With no press recorded, a command other than a press keeps it so and issues no jump. |
| PlayerMovement.UnpressedRunNeverJumps | Assets/Scripts/Player/PlayerMovement.cs:208-223 | A motor with no recorded press never jumps in any sequence of ticks and inputs that contains no press. |
| PlayerMovement.AwakeNeverJumpsUnpressed | Assets/Scripts/Player/PlayerMovement.cs:45-51 | After the corrected start-up, no run without a press ever jumps. |
| PlayerMovement.FlatWorldGrounds | Assets/Scripts/Player/PlayerMovement.cs:114-135 | On flat ground, ground classification always grounds the body and stamps the time. |
| PlayerMovement.FlatWorldLands | Assets/Scripts/Player/PlayerMovement.cs:94-97 | An Air motor over flat ground lands in one tick. Its press time is untouched. |
| PlayerMovement.FlatWorldJumps | Assets/Scripts/Player/PlayerMovement.cs:84-92 | A Grounded motor over flat ground jumps when its recorded press is inside the buffer window. |
| PlayerMovement.RunCons | Assets/Scripts/Player/PlayerMovement.cs:79-112 | The forces of a run are those of its first command followed by those of the rest. |
| PlayerMovement.RunOne | Assets/Scripts/Player/PlayerMovement.cs:79-112 | A one-command run issues that command's forces. |
| PlayerMovement.RunTwoSteps | Assets/Scripts/Player/PlayerMovement.cs:79-112 | Two ticks issue the first tick's forces, then those of the second tick on the resulting motor. |
| PlayerMovement.AirBodyJumpsOnSecondTick | Assets/Scripts/Player/PlayerMovement.cs:84-97 | A body in the air over flat ground lands on the first tick. It jumps on the second tick if its recorded press is still inside the buffer window then. |
| PlayerMovement.AwakeAsWrittenJumpsUnpressed | Assets/Scripts/Player/PlayerMovement.cs:31 | As written, a body started over flat ground jumps within the buffer window of time 0 although the run contains no press. |
| PlayerBodyInteractor.Target | Assets/Scripts/Player/PlayerBodyInteractor.cs:24-31 | A contact is considered exactly when its layer bit is in the mask and it carries a spawned network object. |
| PlayerBodyInteractor.OnTriggerEnter | Assets/Scripts/Player/PlayerBodyInteractor.cs:22-53 | Contacts outside the mask change nothing. An untracked, server-owned object is granted to this player and tracked as (now, in contact). An untracked object owned by someone else is ignored. A tracked object is refreshed with no new grant. Every other entry is kept, and a new key always comes with its grant. |
| PlayerBodyInteractor.OnTriggerExit | Assets/Scripts/Player/PlayerBodyInteractor.cs:55-73 | Only a tracked target changes: it becomes (now, out of contact). Keys are kept and no request is issued. |
| PlayerBodyInteractor.Sweep | Assets/Scripts/Player/PlayerBodyInteractor.cs:75-94 | Exactly the entries out of contact for strictly longer than the grace period are removed, in one revocation request. The remaining entries are unchanged, and entries in contact always remain. |
| PlayerBodyInteractor.ExpiredStays | Assets/Scripts/Player/PlayerBodyInteractor.cs:82 | An expired entry stays expired at every later time, and an entry in contact never expires. |
| PlayerBodyInteractor.SweepIdempotent | Assets/Scripts/Player/PlayerBodyInteractor.cs:75-94 | A second sweep at the same time removes nothing and requests nothing. |
| PlayerBodyInteractor.ProcessOwnershipMap | Assets/Scripts/Player/PlayerBodyInteractor.cs:75-94 | The loop's kept map is the sweep's result. Its removal list holds exactly the expired keys, each once. |
| PlayerBodyInteractor.HoldingAfterAppend | Assets/Scripts/Player/PlayerBodyInteractor.cs:33-43 | A grant in the request log makes this player hold an object, and a revocation makes it let go. |
| PlayerBodyInteractor.StepConsistent | Assets/Scripts/Player/PlayerBodyInteractor.cs:22-99 | Every event keeps the map's keys equal to the objects the request log says this player holds. |
| PlayerBodyInteractor.RunConsistent | Assets/Scripts/Player/PlayerBodyInteractor.cs:22-99 | In any sequence of enters, exits and ticks, every tracked key was granted by the enter branch and not yet revoked. |
| PlayerBodyInteractor.FreshConsistent | Assets/Scripts/Player/PlayerBodyInteractor.cs:17-20 | The empty map with an empty log is consistent. |
| PlayerBodyInteractor.InContactSurvivesSweeps | Assets/Scripts/Player/PlayerBodyInteractor.cs:82 | An entry in contact survives any number of sweeps unchanged. |
| RigidbodyController.OnCollisionEnter | Assets/Scripts/RigidbodyController.cs:79-106 | A collision follows the trigger rules: grant and track only an untracked, server-owned object; refresh a tracked one; otherwise change nothing. |
| RigidbodyController.OnCollisionExit | Assets/Scripts/RigidbodyController.cs:108-126 | Only a tracked object is marked out of contact at the current time. |
| RigidbodyController.SweepOwnership | Assets/Scripts/RigidbodyController.cs:128-147 | With the grace period `RigidbodyController.OwnedTime` (the value of `0.2f` widened to double, 0.20000000298… s), an entry stays exactly when it is in contact or was lost at most `OwnedTime` ago. There is a request exactly when an entry was removed, and it is one revocation naming exactly the removed keys. |
| RigidbodyController.GracePeriodExample | Assets/Scripts/RigidbodyController.cs:12 | Contact lost at 0.05 survives sweeps at 0.24 and 0.25 and is revoked at 0.26. |
| RigidbodyController.DampVelocity | Assets/Scripts/RigidbodyController.cs:158-161 | The result is the velocity scaled by 1 − damping·dt, with damping·dt clamped to [0, 1], so the speed never grows. A non-positive damping·dt leaves it unchanged, and damping·dt ≥ 1 stops the body. |
| RigidbodyController.AddRideForce | Assets/Scripts/RigidbodyController.cs:184-235 | There is no force on a miss. Otherwise the spring force acts along the ray. A hit rigidbody, kinematic or not, receives exactly the opposite force at the hit point. |
| RigidbodyController.RideSpringAtRest | Assets/Scripts/RigidbodyController.cs:202-209 | With no relative velocity along the ray, the spring is displacement times strength for any tick length. |
| RigidbodyController.RideSpringDeltaScalesDampingOnly | Assets/Scripts/RigidbodyController.cs:209 | Changing the tick length changes the force only through the damping term. |
| RigidbodyController.WeightInUnitInterval | Assets/Scripts/RigidbodyController.cs:175 | The (dot + 1)/2 weighting of two vectors of length at most one lies in [0, 1]. |
| RigidbodyController.ForceTimeInUnitInterval | Assets/Scripts/RigidbodyController.cs:171-175 | The intended weighting of the planar velocity against the input lies in [0, 1]. |
| RigidbodyController.ForceTimeNeutral | Assets/Scripts/RigidbodyController.cs:171-175 | The intended weighting is 1/2 when the body is still in the plane or there is no input. |
| RigidbodyController.ForceTimeAsWrittenInUnitInterval | Assets/Scripts/RigidbodyController.cs:171-175 | The weighting as written also lies in [0, 1]. |
| RigidbodyController.ForceTimeAsWrittenNeutral | Assets/Scripts/RigidbodyController.cs:171-175 | The weighting as written is also 1/2 when either vector is zero. |
| RigidbodyController.ForceTimeIgnoresForwardAxis | Assets/Scripts/RigidbodyController.cs:171-175 | Moving straight forward with the stick straight forward gives weight 1 as intended but 1/2 as written. |
| RigidbodyController.ForceTimeAligned | Assets/Scripts/RigidbodyController.cs:171-175 | The intended weighting is 1 whenever the planar velocity and the input normalize to the same non-zero direction. |
| RigidbodyController.AddMovementForce | Assets/Scripts/RigidbodyController.cs:169-182 | The movement force, with the weighting as the code computes it, is a horizontal acceleration. Its length is exactly acceleration·curve(weight)·delta when the stick is longer than 0.00001, and it is zero otherwise. |
| RigidbodyController.AddMovementForceIntended | Assets/Scripts/RigidbodyController.cs:169-182 | With the intended weighting, the movement force is also a horizontal acceleration. Its length is exactly acceleration·curve(weight)·delta when the stick is longer than 0.00001, and it is zero otherwise. |
| RigidbodyController.MovementForceVersionsAgree | Assets/Scripts/RigidbodyController.cs:169-182 | The two versions of the movement force are equal wherever the two weightings agree. |
| RigidbodyController.MovementForceBounded | Assets/Scripts/RigidbodyController.cs:169-182 | The movement acceleration is never longer than acceleration·curve(weight)·delta. |
| RigidbodyController.TickForces | Assets/Scripts/RigidbodyController.cs:62-63 | A tick requests one to three forces, none of them an ownership change. The ride forces on the damped velocity come first and the movement force last. |
| RigidbodyController.FixedUpdate | Assets/Scripts/RigidbodyController.cs:55-64 | A non-owner does nothing. An owner sweeps the lease map first (its revocations are issued first), then damps the velocity so that speed never grows, then requests the ride forces on the damped velocity, and finally the movement force on the damped velocity. |
| PlayerInteractor.Soft | Assets/Scripts/Player/PlayerInteractor.cs:127-139 | The linear limit is 0.01 with spring s and damper d. Every angular limit is 10, and the angular springs use s/2 and d. The anchors, the connected body and the motion locks are untouched. |
| PlayerInteractor.SoftOverrides | Assets/Scripts/Player/PlayerInteractor.cs:127-139 | Softening twice is the same as softening once with the second parameters. |
| PlayerInteractor.DropHeld | Assets/Scripts/Player/PlayerInteractor.cs:106-117 | Afterwards nothing is held and there is no joint. The joint is destroyed exactly when there was one. A held body gets its interpolation turned off. With nothing to drop, nothing happens. |
| PlayerInteractor.DropHeldIdempotent | Assets/Scripts/Player/PlayerInteractor.cs:106-117 | Dropping twice is the same as dropping once, and the second drop has no effects. |
| PlayerInteractor.Grab | Assets/Scripts/Player/PlayerInteractor.cs:79-104 | The target is held on a joint connected to it, with all six motions limited. The anchor is at the hold point and the connected anchor at the hit point. The spring and damper come from the hold config. The joint is softened: a linear limit of 0.01, angular limits of 10, and angular springs at half the hold spring. Softening it again with the hold config changes nothing. The body's interpolation and gravity are enabled. |
| PlayerInteractor.TryInteract | Assets/Scripts/Player/PlayerInteractor.cs:33-59 | While holding a body that is not ours, nothing changes. While holding our body, it is dropped and authority is returned. With nothing held, a grab (with an ownership request first) happens exactly on a hit on a body of at most 25 kg whose network object is unowned, and the holder is then what `Grab` makes of the hit point; this holds even when a joint is left over, which is then overwritten. Consistency and attachment are kept. |
| PlayerInteractor.TryInteractChangesOnlyWhenAllowed | Assets/Scripts/Player/PlayerInteractor.cs:33-59 | The holder changes if and only if it holds our body, or holds nothing and the ray hits a grabbable body. |
| PlayerInteractor.TryThrow | Assets/Scripts/Player/PlayerInteractor.cs:61-76 | With nothing held, nothing happens. Otherwise the body held at call time is dropped with its joint, then receives the throw impulse along the aim, and then authority is returned only if the body is ours. |
| PlayerInteractor.ThrowAfterDropIsNoOp | Assets/Scripts/Player/PlayerInteractor.cs:61-76 | Throwing right after a drop does nothing. |
| PlayerInteractor.FixedUpdate | Assets/Scripts/Player/PlayerInteractor.cs:119-125 | The anchor follows the hold point only when a joint, a held body and a camera all exist. Otherwise nothing changes. Consistency and attachment are kept. |
| PlayerInteractor.Reown | Assets/Scripts/Player/PlayerInteractor.cs:37 | A new owner reported for the held body's object becomes the held body's owner, which the next call reads. Any other report changes nothing. The joint is kept. |
| PlayerInteractor.ReownBack | Assets/Scripts/Player/PlayerInteractor.cs:37 | Reporting a new owner and then the old one restores the holder. |
| PlayerInteractor.LoseBody | Assets/Scripts/Player/PlayerInteractor.cs:35 | A destroyed held body reads as nothing held, and the joint is kept. The holder stays attached, and it is consistent exactly when there was no joint. |
| PlayerInteractor.Step | Assets/Scripts/Player/PlayerInteractor.cs:33-125 | Every call keeps the held body attached to its joint and keeps the client id. Every call except the loss of the held body keeps the holder consistent. Ticks and outside events make no calls. |
| PlayerInteractor.PlayConsistent | Assets/Scripts/Player/PlayerInteractor.cs:33-125 | Any sequence of interacts, throws, ticks and owner changes keeps the held body and the joint consistent. |
| PlayerInteractor.PlayAttached | Assets/Scripts/Player/PlayerInteractor.cs:33-125 | Any sequence of calls and outside events, including losing the held body, keeps a held body attached to a joint connected to it with all motions limited. |
| PlayerInteractor.GrabOwnRelease | Assets/Scripts/Player/PlayerInteractor.cs:20-59 | Grabbing an unowned object, receiving its ownership and interacting again leaves the holder empty. The first call made asks for the object and the last gives it back. |
| PlayerInteractor.GrabWithoutHandoverKeeps | Assets/Scripts/Player/PlayerInteractor.cs:33-59 | Without the ownership handover, the second interact does not release: the body stays held and only the three grab calls are made. |
| PlayerInteractor.GrabAfterLossLeaksJoint | Assets/Scripts/Player/PlayerInteractor.cs:35-57 | When the held body is destroyed and another body is grabbed, the holder is consistent again but the old joint is never destroyed. |
| LookPhysicsState.PushFixed | Assets/Scripts/Player/LookPhysicsState.cs:18-23 | The old current snapshot becomes the previous one. The pushed angles become current and the tick time is recorded. |
| LookPhysicsState.PushFixedForgetsPrev | Assets/Scripts/Player/LookPhysicsState.cs:18-23 | A push depends only on the current snapshot, not on the previous one or the old time. |
| LookPhysicsState.TwoPushes | Assets/Scripts/Player/LookPhysicsState.cs:18-23 | After two pushes, the snapshots are the two pushed pairs in order. |
| LookPhysicsState.GetAlpha | Assets/Scripts/Player/LookPhysicsState.cs:25-30 | Alpha lies in [0, 1]. It is 0 at or before the last push and 1 once a full fixed step has passed. In between, it is the elapsed fraction of the step. |
| LookPhysicsState.GetAlphaMonotone | Assets/Scripts/Player/LookPhysicsState.cs:25-30 | Alpha never decreases as the clock runs. |
| LookPhysicsState.AlphaZeroAtPush | Assets/Scripts/Player/LookPhysicsState.cs:18-30 | Alpha at the time of a push is 0. |
| SimpleCharacterMotor.Capsule | Assets/Scripts/SimpleCharacterMotor.cs:160-170 | The bottom sphere center is one radius above the position. The top one is at the effective height (at least two radii) minus one radius. The top is never below the bottom, and both share the position's x and z. |
| SimpleCharacterMotor.CapsuleSpan | Assets/Scripts/SimpleCharacterMotor.cs:160-170 | When the height covers both caps, the centers are height − 2·radius apart. |
| SimpleCharacterMotor.GroundProbeBelowCapsule | Assets/Scripts/SimpleCharacterMotor.cs:145-158 | The ground probe is the standing capsule moved down by the probe distance less 0.01, with the radius grown by the skin width. |
| SimpleCharacterMotor.AxesOrthonormal | Assets/Scripts/SimpleCharacterMotor.cs:58 | At any yaw with an exact sine and cosine, the transform's forward and right axes are perpendicular unit vectors. |
| SimpleCharacterMotor.WishDir | Assets/Scripts/SimpleCharacterMotor.cs:58-60 | The wish direction is horizontal and never longer than one. When the turned stick is longer than the minimum, it is the unit vector along it; otherwise it is the turned stick itself. |
| SimpleCharacterMotor.RawWishLength | Assets/Scripts/SimpleCharacterMotor.cs:58 | Before normalization, the stick turned into the transform's frame is exactly as long as the stick. |
| SimpleCharacterMotor.WishDirOfUnitStick | Assets/Scripts/SimpleCharacterMotor.cs:58-60 | A unit stick gives a unit wish direction at every yaw. |
| SimpleCharacterMotor.VerticalSpeed | Assets/Scripts/SimpleCharacterMotor.cs:65-67 | On ground while falling, the vertical speed restarts from −2 before gravity. Otherwise gravity·dt is added to it. |
| SimpleCharacterMotor.NextVelocity | Assets/Scripts/SimpleCharacterMotor.cs:58-69 | The horizontal velocity is the wish direction at the transform's yaw times the speed. The vertical velocity follows the vertical rule. |
| SimpleCharacterMotor.HorizontalVelocityForgotten | Assets/Scripts/SimpleCharacterMotor.cs:62-69 | The new velocity does not depend on the old horizontal velocity. |
| SimpleCharacterMotor.GroundedFallForgotten | Assets/Scripts/SimpleCharacterMotor.cs:65-67 | On ground, how fast the body was falling does not matter. |
| SimpleCharacterMotor.RawPushDir | Assets/Scripts/SimpleCharacterMotor.cs:194-200 | With push-along-ground on, the push direction never points up. |
| SimpleCharacterMotor.MassScale | Assets/Scripts/SimpleCharacterMotor.cs:205 | The mass scale lies in [0, 1]. It is 1 with no mass limit, and 1 for bodies within the limit. For a heavier body it is the limit divided by the mass, which is below 1. |
| SimpleCharacterMotor.TryPushRigidbody | Assets/Scripts/SimpleCharacterMotor.cs:186-215 | A push is requested exactly when the hit body exists and is not kinematic, the normal is not a floor, the direction is not degenerate, the horizontal speed reaches the minimum and the network object is spawned. The push goes to that object at the hit point, with a unit direction along the sweep direction (flattened when pushing along the ground), and impulse = power·horizontal speed·mass scale. |
| SimpleCharacterMotor.PushImpulseBounded | Assets/Scripts/SimpleCharacterMotor.cs:205-206 | The impulse never exceeds power·horizontal speed. |
| SimpleCharacterMotor.SlideVector | Assets/Scripts/SimpleCharacterMotor.cs:127-136 | After a non-floor hit, the leftover motion never points up. After a floor hit, it is the leftover projected on the floor. |
| SimpleCharacterMotor.Travel | Assets/Scripts/SimpleCharacterMotor.cs:123-124 | Travel toward a hit is never negative. It is the distance minus the skin width when that is non-negative. |
| SimpleCharacterMotor.SlideOnHit | Assets/Scripts/SimpleCharacterMotor.cs:120-136 | After a non-floor hit, the remaining motion never points up. |
| SimpleCharacterMotor.Slides | Assets/Scripts/SimpleCharacterMotor.cs:105-139 | The slide loop casts at most as often as it has iterations left, and issues at most one push per cast. With no iterations or a negligible move, it stays put. |
| SimpleCharacterMotor.MoveWithCapsule | Assets/Scripts/SimpleCharacterMotor.cs:100-143 | The loop computes the recursive sweep, with at most maxSlides + 1 casts. |
| SimpleCharacterMotor.FreeSweep | Assets/Scripts/SimpleCharacterMotor.cs:110-117 | If the first cast misses, the capsule ends at start + delta after one cast and with no pushes. |
| SimpleCharacterMotor.FixedUpdate | Assets/Scripts/SimpleCharacterMotor.cs:48-74 | A non-owner does nothing. An owner checks the ground, computes the velocity from the input and the vertical rule, and sweeps by velocity·dt. The sweep's end is the new position and its pushes are issued. |
| SimpleCharacterMotor.Update | Assets/Scripts/SimpleCharacterMotor.cs:76-96 | A non-owner does nothing. An owner adds look·angular speed to the yaw target, smooths toward it with no speed limit when the maximum yaw speed is not positive, and turns the transform to the smoothed yaw. Position and velocity are untouched. |
| SimpleCharacterMotor.UpdateTargetAccumulates | Assets/Scripts/SimpleCharacterMotor.cs:80 | Two frames with the same look input add it to the target twice. |

## Left out

- Physics queries and integration: the engine is not visible. Casts, rays, slope angles,
  `CheckCapsule` and point velocities are oracle arguments. Forces and impulses are recorded as
  requests and never integrated.
- Float rounding: all arithmetic is on reals. `Mathf.Sqrt`, `Mathf.Exp`, `SmoothDampAngle`,
  `AnimationCurve.Evaluate`, the normalization oracle and the joint frame transforms are
  parameters. `Vec.Sound` states what is assumed of normalization. The config defaults are
  used as exact decimals. The grace period is not: `RigidbodyController.OwnedTime` is the value
  of the literal `0.2f` widened to double, 13421773/2^26.
- Networking: RPC transport, FishNet/Netcode ownership propagation, and the server-side bodies
  of the live calls `GiveOwnership`, `ReturnToServerAuth`, `RemoveOwnership` and
  `TryPushRigidbodyServerRpc`. The models issue exactly these calls as requests. Each lease map
  is one client's local view, and concurrency between clients is not modelled.
- Dead code: `ChangeOwnershipServerRpc`, `DampVelocityServerRpc`, `ApplyForceServerRpc` and
  `AddForceAtPositionServerRpc` are commented out in `RigidbodyController.cs` (lines 149-156,
  163-167, 236-256), as are their call sites (lines 61, 177, 214, 218-231). The model issues
  none of them.
- Configurable joint dynamics: only the joint's configuration is modelled.
- `OnEnable`/`OnDisable` and the config's `OnChanged` event: subscription plumbing. The handler
  they attach is modelled as `PlayerMovement.ApplyImmediateConfigChanges`.
- PlayerMovement.SetConfig: config identity is reference equality in the code. Here it is an
  asset id field.
- PlayerMovement.GroundMove: the contract states the number of forces added and that none is
  a jump, not the forces themselves. Their properties are stated by
  `PlayerMovement.AccelerateTowardBounded`, `PlayerMovement.AccelerateTowardReaches` and
  `PlayerMovement.PlanarFrictionOpposes`.
- PlayerMovement.AirMove: likewise, only the count of forces and the absence of a jump are
  stated.
- PlayerMovement.CrawlMove: the contract states the motor and the absence of a jump, but not
  the crawl acceleration and friction it adds.
- PlayerMovement.StateStep: the per-state contract states the jump, the press consumption, the
  config, the last-grounded time and the pivot minus half the height. The resulting state is stated for the whole
  tick by `PlayerMovement.FixedUpdateFollowsTable`.
- PlayerMovement.AccelerateToward: `Vector3.ClampMagnitude` is modelled as the normalized
  vector times the limit. So a gap no longer than 0.00001 is clamped to zero, and the
  out-of-reach step is stated only for gaps longer than that. This matters only when accel·dt
  is below 0.00001.
- PlayerMovement.UpdateGround: `GetGroundVel` (`GetPointVelocity` of the hit body) is an
  oracle field of the hit, and `Vector3.Angle` is an oracle.
- PlayerMovement.FixedUpdate: `CanStandUp` casts from the body position at the start of the
  tick. Unity reads the transform, which is not moved by the in-tick velocity change. The cast
  itself is an oracle.
- PlayerMovement.UpdateHeight: the lerp factor `1 − e^(−r·dt)` comes from an `exp` oracle
  that is not constrained. `Num.Lerp` clamps the factor to [0, 1], as `Mathf.Lerp` does, so
  the height stays between the current and the target height whatever the oracle returns.
- PlayerMovement.Run: only the commands used by the lemmas are modelled (tick, move, crouch,
  jump). Start-up, the rigidbody's freeze and interpolation flags, and `SetConfig` are not part
  of the command set.
- PlayerInteractor: the hold distance, spring, damper, use distance and throw impulse are read
  from a config class that `MovementConfig.cs` does not declare. They are a separate
  hold-config record. A missing camera makes `TryInteract`/`TryThrow` fail at runtime in the
  code; here the camera is always given.
- PlayerInteractor.LoseBody: what the engine does with a joint whose connected body was
  destroyed is not modelled. The joint stays in the holder's joint field, and a later grab
  overwrites it without destroying it.
- PlayerInteractor.Reown: ownership changes arrive as an outside event. How and when the
  network delivers them is not modelled.
- RigidbodyController.FixedUpdate: the tick uses the movement weighting as written. The
  intended weighting is kept as a separate definition, `RigidbodyController.AddMovementForceIntended`.
- PlayerBodyInteractor.ProcessOwnershipMap: `Dictionary` enumeration order is unspecified. The
  removal list is stated as a set of keys, each once.
- `RigidbodyController.OnStartNetwork`: network set-up.
- SimpleCharacterMotor.Update: the transform's pitch and roll are taken as zero. The code keeps
  whatever pitch and roll the transform has and writes only the yaw. The sine and cosine of the
  yaw are an oracle, and the rotation the character spawns with is its starting yaw.
- SimpleCharacterMotor: gizmo drawing (`OnDrawGizmosSelected`, `DrawWireCapsule`) is
  presentation only.
- Other scripts of the repository are not part of this model: camera, input routing, session
  bootstrap, spawn and editor setup. They do not affect the logic above.

## Findings

| source | as written | input that shows it | evidently intended | confidence | as-written member | corrected member |
|---|---|---|---|---|---|---|
| Assets/Scripts/RigidbodyController.cs:171-175 | `Vector3.Dot` of the planar velocity, a `Vector2` (vx, vz) that is implicitly widened to (vx, vz, 0), with the move direction (mx, 0, my). Only the x components meet. | Velocity (0, 0, 1) with input (0, 1): the weight is 1/2 | The weight compares (vx, vz) with (mx, my) and is 1 for this input | not executed | RigidbodyController.ForceTimeIgnoresForwardAxis | RigidbodyController.ForceTimeAligned |
| Assets/Scripts/Player/PlayerMovement.cs:31 | The last jump press time starts at 0, and `Awake` does not reset it. A grounded body within the jump buffer of time 0 jumps without any press. | The default config (buffer 0.12) on flat ground, ticks at 0.02 and 0.04 with no press: the second tick jumps | No jump without a press. The press time starts at the "no press" value −999 that `TryJump` uses. | not executed | PlayerMovement.AwakeAsWrittenJumpsUnpressed | PlayerMovement.AwakeNeverJumpsUnpressed |

=== FILE: look_physics_state.dfy ===
/** LookPhysicsState: the look angles sampled on each physics tick, kept as the previous and the
    current snapshot so that the frames between two ticks can interpolate between them. */
module LookPhysicsState {
  import opened Num

  datatype Snapshot = Snapshot(yaw: real, pitch: real)

  datatype Look = Look(prev: Snapshot, curr: Snapshot, lastFixedTime: real)

  /** PushFixed: the current snapshot becomes the previous one, the pushed angles the current
      one, and the tick time is recorded. */
  function PushFixed(s: Look, yaw: real, pitch: real, now: real): (r: Look)
    ensures r.prev == s.curr
    ensures r.curr == Snapshot(yaw, pitch) && r.lastFixedTime == now
  {
    Look(s.curr, Snapshot(yaw, pitch), now)
  }

  /** Only the current snapshot survives a push: the state before it is forgotten except for its
      current snapshot. */
  lemma PushFixedForgetsPrev(s: Look, t: Look, yaw: real, pitch: real, now: real)
    requires s.curr == t.curr
    ensures PushFixed(s, yaw, pitch, now) == PushFixed(t, yaw, pitch, now)
  {
  }

  /** After two pushes the snapshots are exactly the two pushed pairs, in order, whatever the
      state before. */
  lemma TwoPushes(s: Look, yaw1: real, pitch1: real, t1: real, yaw2: real, pitch2: real, t2: real)
    ensures var r := PushFixed(PushFixed(s, yaw1, pitch1, t1), yaw2, pitch2, t2);
            r == Look(Snapshot(yaw1, pitch1), Snapshot(yaw2, pitch2), t2)
  {
  }

  /** GetAlpha: how far the clock has moved from the last tick toward the next one, as a
      fraction of the fixed step, clamped to [0, 1]. */
  function GetAlpha(s: Look, now: real, fixedDt: PosReal): (a: real)
    ensures 0.0 <= a <= 1.0
    ensures now <= s.lastFixedTime ==> a == 0.0
    ensures now - s.lastFixedTime >= fixedDt ==> a == 1.0
    ensures s.lastFixedTime <= now <= s.lastFixedTime + fixedDt ==> a * fixedDt == now - s.lastFixedTime
  {
    ElapsedFraction(now - s.lastFixedTime, fixedDt);
    Clamp01((now - s.lastFixedTime) / fixedDt)
  }

  lemma ElapsedFraction(x: real, d: PosReal)
    ensures x <= 0.0 ==> x / d <= 0.0
    ensures d <= x ==> 1.0 <= x / d
    ensures 0.0 <= x <= d ==> 0.0 <= x / d <= 1.0 && (x / d) * d == x
  {
    if x <= 0.0 {
      DivNonpos(x, d);
    } else if d <= x {
      DivAtLeastOne(x, d);
    } else {
      DivInUnit(x, d);
    }
    if x == d {
      DivInUnit(x, d);
    }
  }

  lemma DivNonpos(x: real, d: PosReal)
    requires x <= 0.0
    ensures x / d <= 0.0
  {
  }

  lemma DivInUnit(x: real, d: PosReal)
    requires 0.0 <= x <= d
    ensures 0.0 <= x / d <= 1.0 && (x / d) * d == x
  {
  }

  /** Alpha never decreases as the clock runs between two pushes. */
  lemma {:induction false} GetAlphaMonotone(s: Look, t1: real, t2: real, fixedDt: PosReal)
    requires t1 <= t2
    ensures GetAlpha(s, t1, fixedDt) <= GetAlpha(s, t2, fixedDt)
  {
    var x1 := (t1 - s.lastFixedTime) / fixedDt;
    var x2 := (t2 - s.lastFixedTime) / fixedDt;
    DivMono(t1 - s.lastFixedTime, t2 - s.lastFixedTime, fixedDt);
    Clamp01Mono(x1, x2);
  }

  lemma DivMono(a: real, b: real, d: PosReal)
    requires a <= b
    ensures a / d <= b / d
  {
    assert b / d - a / d == (b - a) / d;
  }

  lemma Clamp01Mono(a: real, b: real)
    requires a <= b
    ensures Clamp01(a) <= Clamp01(b)
  {
  }

  /** Right after a push, alpha is zero. */
  lemma AlphaZeroAtPush(s: Look, yaw: real, pitch: real, now: real, fixedDt: PosReal)
    ensures GetAlpha(PushFixed(s, yaw, pitch, now), now, fixedDt) == 0.0
  {
  }
}

=== FILE: num.dfy ===
/** Scalar helpers with the meaning UnityEngine.Mathf gives them, on unbounded reals
    (float rounding is not modelled). */
module Num {

  /** Positive reals: Time.fixedDeltaTime, a Rigidbody mass. The engine keeps both above zero. */
  type PosReal = r: real | r > 0.0 witness 1.0

  function Abs(x: real): real {
    if x < 0.0 then -x else x
  }

  function Max(a: real, b: real): real {
    if a > b then a else b
  }

  function Min(a: real, b: real): real {
    if a < b then a else b
  }

  /** Mathf.Clamp: the lower bound is checked first, so with `lo > hi` a value below `lo` gives `lo`. */
  function Clamp(x: real, lo: real, hi: real): (r: real)
    ensures lo <= hi ==> lo <= r <= hi
    ensures lo <= x <= hi ==> r == x
  {
    if x < lo then lo else if x > hi then hi else x
  }

  /** Mathf.Clamp01. */
  function Clamp01(x: real): (r: real)
    ensures 0.0 <= r <= 1.0
    ensures 0.0 <= x <= 1.0 ==> r == x
  {
    Clamp(x, 0.0, 1.0)
  }

  /** Mathf.Lerp and Vector3.Lerp clamp the blend factor to [0, 1]. */
  function Lerp(a: real, b: real, t: real): real {
    a + (b - a) * Clamp01(t)
  }

  /** The smallest positive single-precision value (Mathf.Epsilon). */
  const Epsilon: real := 1.401298e-45

  /** Mathf.Approximately: equal up to a relative error of 1e-6, or up to 8 Epsilon near zero. */
  predicate Approximately(a: real, b: real) {
    Abs(b - a) < Max(0.000001 * Max(Abs(a), Abs(b)), Epsilon * 8.0)
  }

  /** A blend never leaves the interval between its two ends, and it closes the gap to the second
      end by the clamped factor. */
  lemma LerpBetween(a: real, b: real, t: real)
    ensures Min(a, b) <= Lerp(a, b, t) <= Max(a, b)
    ensures Abs(Lerp(a, b, t) - b) == (1.0 - Clamp01(t)) * Abs(a - b)
  {
    var c := Clamp01(t);
    assert Lerp(a, b, t) - b == (a - b) * (1.0 - c);
    ScaleBetween(b - a, c);
    ScaleBetween(a - b, 1.0 - c);
  }

  lemma MulNonneg(a: real, b: real)
    requires 0.0 <= a && 0.0 <= b
    ensures 0.0 <= a * b
  {
  }

  lemma MulPos(a: real, b: real)
    requires 0.0 < a && 0.0 < b
    ensures 0.0 < a * b
  {
  }

  /** Dividing by a positive number no larger than the dividend gives at least one. */
  lemma DivAtLeastOne(x: real, d: PosReal)
    requires d <= x
    ensures 1.0 <= x / d
  {
  }

  lemma MulMono(a: real, b: real, c: real)
    requires a <= b && 0.0 <= c
    ensures a * c <= b * c
  {
  }

  /** Scaling by a factor in [0, 1] keeps a value between zero and itself. */
  lemma ScaleBetween(x: real, c: real)
    requires 0.0 <= c <= 1.0
    ensures x >= 0.0 ==> 0.0 <= x * c <= x
    ensures x <= 0.0 ==> x <= x * c <= 0.0
  {
    if x >= 0.0 {
      MulMono(c, 1.0, x);
      MulNonneg(x, c);
    } else {
      MulMono(c, 1.0, -x);
      MulNonneg(-x, c);
    }
  }

  lemma SquareMono(a: real, b: real)
    requires 0.0 <= a <= b
    ensures a * a <= b * b
  {
    MulMono(a, b, a);
    MulMono(a, b, b);
  }

  lemma ProductAtMostOne(p: real, q: real)
    requires 0.0 <= p <= 1.0 && 0.0 <= q <= 1.0
    ensures 0.0 <= p * q <= 1.0
  {
    ScaleBetween(p, q);
    MulNonneg(p, q);
  }

  lemma SquareAtMostOne(d: real)
    requires d * d <= 1.0
    ensures -1.0 <= d <= 1.0
  {
    if 1.0 < Abs(d) {
      MulMono(1.0, Abs(d), Abs(d));
    }
  }

  lemma ApproximatelyReflexive(a: real)
    ensures Approximately(a, a)
  {
  }
}

=== FILE: player_body_interactor.dfy ===
/** The ownership-lease map of PlayerBodyInteractor: one client's local record of the dynamic
    network objects it took ownership of on contact, each with the time of its last contact event
    and whether it is still touching. A periodic sweep gives back the objects that have been out of
    contact for longer than the grace period. RigidbodyController keeps a duplicate of this logic
    and reuses the functions here.

    Ownership transfer itself (FishNet's GiveOwnership / RemoveOwnership) is not modelled: each
    call is recorded as an emitted request. */
module PlayerBodyInteractor {
  import opened Wrappers

  type ObjId = nat

  /** GameObject.layer is always in 0..31. */
  type Layer = l: int | 0 <= l < 32

  /** CollisionTimestamp: time of the latest enter or exit event and whether contact persists. */
  datatype Stamp = Stamp(timestamp: real, inContact: bool)

  type Leases = map<ObjId, Stamp>

  /** FishNet reports an object nobody owns (the server holds authority) as owner ClientId -1. */
  const ServerOwned: int := -1

  /** The default `ownedTime` of PlayerBodyInteractor, in seconds. */
  const DefaultOwnedTime: real := 1.0

  /** A NetworkObject as the handler sees it at the moment of the event. */
  datatype NetObject = NetObject(id: ObjId, spawned: bool, ownerClientId: int)

  /** What the touching collider carries. `NoRigidbody`: the collider has no attached rigidbody,
      the handler dereferences null and is aborted before it changes anything. */
  datatype Carrier = NoRigidbody | NoNetworkObject | Networked(obj: NetObject)

  datatype Contact = Contact(layer: Layer, carrier: Carrier)

  /** Ownership requests emitted to the network layer. A sweep revokes a whole batch at once;
      the order in which the dictionary is enumerated is not modelled. */
  datatype Request = GiveOwnership(id: ObjId) | RemoveOwnership(ids: set<ObjId>)

  datatype Update = Update(leases: Leases, requests: seq<Request>)

  function LayerBit(layer: Layer): bv32 {
    (1 as bv32) << layer
  }

  /** `((1 << layer) & mask) != 0`: the contact's layer is one of the watched dynamic layers. */
  predicate Watched(c: Contact, mask: bv32) {
    LayerBit(c.layer) & mask != 0
  }

  /** The spawned network object an event acts on, if the handler gets that far. */
  function Target(c: Contact, mask: bv32): (r: Option<NetObject>)
    ensures r.Some? <==> Watched(c, mask) && c.carrier.Networked? && c.carrier.obj.spawned
    ensures r.Some? ==> r.value == c.carrier.obj
  {
    if Watched(c, mask) && c.carrier.Networked? && c.carrier.obj.spawned then Some(c.carrier.obj)
    else None
  }

  /** OnTriggerEnter. First contact wins: an untracked object is taken only while the server owns
      it; a tracked one has its stamp refreshed without a new grant. */
  function OnTriggerEnter(leases: Leases, c: Contact, mask: bv32, now: real): (u: Update)
    // events the handler ignores
    ensures Target(c, mask).None? ==> u == Update(leases, [])
    // nothing but the touched object's entry can change
    ensures forall k | k in leases && (Target(c, mask).None? || k != Target(c, mask).value.id) ::
              k in u.leases && u.leases[k] == leases[k]
    ensures Target(c, mask).Some? ==>
              var o := Target(c, mask).value;
              && (o.id !in leases && o.ownerClientId == ServerOwned ==>
                    u.leases == leases[o.id := Stamp(now, true)] && u.requests == [GiveOwnership(o.id)])
              && (o.id !in leases && o.ownerClientId != ServerOwned ==> u == Update(leases, []))
              && (o.id in leases ==> u.leases == leases[o.id := Stamp(now, true)] && u.requests == [])
    // a key appears only together with its grant
    ensures forall k | k in u.leases && k !in leases :: u.requests == [GiveOwnership(k)]
  {
    match Target(c, mask)
    case None => Update(leases, [])
    case Some(o) =>
      if o.id !in leases && o.ownerClientId == ServerOwned then
        Update(leases[o.id := Stamp(now, true)], [GiveOwnership(o.id)])
      else if o.id in leases then
        Update(leases[o.id := Stamp(now, true)], [])
      else
        Update(leases, [])
  }

  /** OnTriggerExit: a tracked object starts its grace countdown and keeps its entry; anything else
      is ignored. */
  function OnTriggerExit(leases: Leases, c: Contact, mask: bv32, now: real): (u: Update)
    ensures u.requests == []
    ensures u.leases.Keys == leases.Keys
    ensures forall k | k in leases && (Target(c, mask).None? || k != Target(c, mask).value.id) ::
              u.leases[k] == leases[k]
    ensures Target(c, mask).Some? && Target(c, mask).value.id in leases ==>
              u.leases[Target(c, mask).value.id] == Stamp(now, false)
  {
    match Target(c, mask)
    case Some(o) =>
      if o.id in leases then Update(leases[o.id := Stamp(now, false)], []) else Update(leases, [])
    case None => Update(leases, [])
  }

  /** An entry whose lease has run out: out of contact for strictly longer than the grace period. */
  predicate Expired(s: Stamp, now: real, grace: real) {
    !s.inContact && now - s.timestamp > grace
  }
  /** Expiry is permanent and contact protects: an expired stamp stays expired at every later
      time, and a stamp in contact never expires. */
  lemma ExpiredStays(s: Stamp, t1: real, t2: real, grace: real)
    requires t1 <= t2
    ensures Expired(s, t1, grace) ==> Expired(s, t2, grace)
    ensures s.inContact ==> !Expired(s, t2, grace)
  {
  }

  function ExpiredKeys(leases: Leases, now: real, grace: real): set<ObjId> {
    set k | k in leases && Expired(leases[k], now, grace)
  }

  /** ProcessOwnershipMap as a whole-map operation: drop exactly the expired entries and give
      their objects back. */
  function Sweep(leases: Leases, now: real, grace: real): (u: Update)
    ensures forall k :: k in u.leases <==> k in leases && !Expired(leases[k], now, grace)
    ensures forall k | k in u.leases :: u.leases[k] == leases[k]
    ensures forall k | k in leases && leases[k].inContact :: k in u.leases
    ensures u.requests == (if ExpiredKeys(leases, now, grace) == {} then []
                           else [RemoveOwnership(ExpiredKeys(leases, now, grace))])
  {
    var gone := ExpiredKeys(leases, now, grace);
    Update(map k | k in leases && k !in gone :: leases[k],
           if gone == {} then [] else [RemoveOwnership(gone)])
  }

  /** A second sweep at the same time finds nothing left to revoke. */
  lemma SweepIdempotent(leases: Leases, now: real, grace: real)
    ensures var once := Sweep(leases, now, grace);
            Sweep(once.leases, now, grace) == Update(once.leases, [])
  {
    var once := Sweep(leases, now, grace);
    assert ExpiredKeys(once.leases, now, grace) == {};
    var twice := Sweep(once.leases, now, grace);
    assert twice.leases == once.leases;
  }

  /** ProcessOwnershipMap as written: one pass over the dictionary collects the expired keys
      (requesting RemoveOwnership for each), a second pass removes them. */
  method ProcessOwnershipMap(leases: Leases, now: real, grace: real)
    returns (kept: Leases, removeList: seq<ObjId>)
    ensures kept == Sweep(leases, now, grace).leases
    ensures forall k :: k in removeList <==> k in ExpiredKeys(leases, now, grace)
    ensures forall i, j | 0 <= i < j < |removeList| :: removeList[i] != removeList[j]
  {
    removeList := [];
    var todo := leases.Keys;
    while todo != {}
      invariant todo <= leases.Keys
      invariant forall k :: k in removeList <==> k in leases && k !in todo && Expired(leases[k], now, grace)
      invariant forall i, j | 0 <= i < j < |removeList| :: removeList[i] != removeList[j]
      decreases todo
    {
      var k :| k in todo;
      if Expired(leases[k], now, grace) {
        removeList := removeList + [k];
      }
      todo := todo - {k};
    }
    kept := leases;
    var i := 0;
    while i < |removeList|
      invariant 0 <= i <= |removeList|
      invariant forall k :: k in kept <==> k in leases && k !in removeList[..i]
      invariant forall k | k in kept :: kept[k] == leases[k]
    {
      kept := kept - {removeList[i]};
      i := i + 1;
    }
    assert removeList[..i] == removeList;
  }

  /** Events reaching one client's PlayerBodyInteractor, each at its own time. */
  datatype Event = Enter(c: Contact, now: real) | Exit(c: Contact, now: real) | Tick(now: real)

  /** The lease map together with every ownership request it has emitted so far. */
  datatype Lessee = Lessee(leases: Leases, log: seq<Request>)

  function Step(st: Lessee, e: Event, mask: bv32, grace: real): Lessee {
    var u := match e
      case Enter(c, now) => OnTriggerEnter(st.leases, c, mask, now)
      case Exit(c, now) => OnTriggerExit(st.leases, c, mask, now)
      case Tick(now) => Sweep(st.leases, now, grace);
    Lessee(u.leases, st.log + u.requests)
  }

  function Run(st: Lessee, events: seq<Event>, mask: bv32, grace: real): Lessee
    decreases |events|
  {
    if events == [] then st else Run(Step(st, events[0], mask, grace), events[1..], mask, grace)
  }

  /** This client still holds `k` according to its own requests: the latest request naming `k`
      is a grant. */
  ghost predicate Holding(log: seq<Request>, k: ObjId)
    decreases |log|
  {
    if log == [] then false
    else match log[|log| - 1]
      case GiveOwnership(id) => id == k || Holding(log[..|log| - 1], k)
      case RemoveOwnership(ids) => k !in ids && Holding(log[..|log| - 1], k)
  }

  /** The map tracks exactly the objects this client was granted and has not given back. */
  ghost predicate Consistent(st: Lessee) {
    forall k: ObjId :: k in st.leases <==> Holding(st.log, k)
  }

  lemma {:induction false} HoldingAfterAppend(log: seq<Request>, r: Request, k: ObjId)
    ensures Holding(log + [r], k) ==
            match r
            case GiveOwnership(id) => id == k || Holding(log, k)
            case RemoveOwnership(ids) => k !in ids && Holding(log, k)
  {
    assert (log + [r])[..|log + [r]| - 1] == log;
  }

  lemma {:induction false} StepConsistent(st: Lessee, e: Event, mask: bv32, grace: real)
    requires Consistent(st)
    ensures Consistent(Step(st, e, mask, grace))
  {
    var st' := Step(st, e, mask, grace);
    match e
    case Enter(c, now) =>
      var u := OnTriggerEnter(st.leases, c, mask, now);
      if u.requests == [] {
        assert st'.log == st.log;
      } else {
        var id := u.requests[0].id;
        assert u.requests == [GiveOwnership(id)];
        forall k: ObjId ensures k in st'.leases <==> Holding(st'.log, k) {
          HoldingAfterAppend(st.log, GiveOwnership(id), k);
        }
      }
    case Exit(c, now) =>
      assert st'.log == st.log;
    case Tick(now) =>
      var gone := ExpiredKeys(st.leases, now, grace);
      if gone == {} {
        assert st'.log == st.log;
      } else {
        forall k: ObjId ensures k in st'.leases <==> Holding(st'.log, k) {
          HoldingAfterAppend(st.log, RemoveOwnership(gone), k);
        }
      }
  }

  /** Over any sequence of contact events and sweeps, every tracked object is one whose grant this
      client requested and has not yet revoked, and every such object is tracked. */
  lemma {:induction false} RunConsistent(st: Lessee, events: seq<Event>, mask: bv32, grace: real)
    requires Consistent(st)
    ensures Consistent(Run(st, events, mask, grace))
    decreases |events|
  {
    if events != [] {
      StepConsistent(st, events[0], mask, grace);
      RunConsistent(Step(st, events[0], mask, grace), events[1..], mask, grace);
    }
  }

  /** A fresh component starts consistent. */
  lemma FreshConsistent()
    ensures Consistent(Lessee(map[], []))
  {
  }

  /** Being touched keeps a lease alive: an entry whose latest event was an enter survives every
      sweep. */
  lemma {:induction false} InContactSurvivesSweeps(leases: Leases, k: ObjId, times: seq<real>, grace: real)
    requires k in leases && leases[k].inContact
    ensures k in SweepAll(leases, times, grace) && SweepAll(leases, times, grace)[k] == leases[k]
    decreases |times|
  {
    if times != [] {
      InContactSurvivesSweeps(Sweep(leases, times[0], grace).leases, k, times[1..], grace);
    }
  }

  function SweepAll(leases: Leases, times: seq<real>, grace: real): Leases
    decreases |times|
  {
    if times == [] then leases else SweepAll(Sweep(leases, times[0], grace).leases, times[1..], grace)
  }
}

=== FILE: player_interactor.dfy ===
/** PlayerInteractor: picking up, carrying and throwing light network objects. A grabbed body is
    tied to the player by a soft ConfigurableJoint whose player-side anchor follows a point in
    front of the camera. Ownership of the grabbed object is asked of the server on pickup and
    given back on release. The joint's dynamics are not modelled: the holder records the joint's
    settings, and every call into the engine or the network is recorded as an effect. */
module PlayerInteractor {
  import opened Wrappers
  import opened Vec

  /** The tunables the interactor reads from its config asset. */
  datatype HoldConfig = HoldConfig(
    useDistance: real, holdDistance: real, holdSpring: real, holdDamper: real, throwImpulse: real)

  /** FishNet reports an object nobody owns as owner ClientId -1. */
  const Unowned: int := -1

  /** The heaviest body that can be picked up. */
  const MaxCarryMass: real := 25.0

  /** A NetworkObject and the ClientId of its owner at the moment of the call. */
  datatype NetObj = NetObj(id: nat, ownerClientId: int)

  /** A rigidbody, with the NetworkObject it carries, if any. */
  datatype Body = Body(id: nat, mass: real, net: Option<NetObj>)

  /** The camera: its position and its forward direction. */
  datatype Cam = Cam(position: Vec3, forward: Vec3)

  /** What the interaction ray hit: the hit point and the rigidbody behind the collider. */
  datatype RayHit = RayHit(point: Vec3, body: Option<Body>)

  datatype Motion = Locked | Limited | Free

  datatype LimitSpring = LimitSpring(spring: real, damper: real)

  /** The settings of the holding ConfigurableJoint. */
  datatype Joint = Joint(
    connectedBody: nat,
    autoConfigureConnectedAnchor: bool,
    anchor: Vec3,
    connectedAnchor: Vec3,
    xMotion: Motion, yMotion: Motion, zMotion: Motion,
    angularXMotion: Motion, angularYMotion: Motion, angularZMotion: Motion,
    linearLimit: real, linearLimitSpring: LimitSpring,
    lowAngularXLimit: real, highAngularXLimit: real, angularYLimit: real, angularZLimit: real,
    angularXLimitSpring: LimitSpring, angularYZLimitSpring: LimitSpring)

  /** The interactor: the held body and the joint holding it, and the ClientId of the player's
      own connection. */
  datatype Holder = Holder(held: Option<Body>, joint: Option<Joint>, ownerClientId: int)

  /** Calls into the engine and server RPCs, in the order they are made. */
  datatype Effect =
    | GiveOwnership(obj: nat)
    | ReturnToServerAuth(obj: nat)
    | SetInterpolate(body: nat, on: bool)
    | EnableGravity(body: nat)
    | DestroyJoint
    | Impulse(body: nat, v: Vec3)

  datatype Outcome = Outcome(h: Holder, effects: seq<Effect>)

  /** Coordinate conversions of the engine: world to the player's local space, and world to a
      body's local space. */
  datatype Frames = Frames(toPlayer: Vec3 -> Vec3, toBody: (nat, Vec3) -> Vec3)

  /** The point the held body is pulled toward: HoldDistance in front of the camera. */
  function HoldPoint(cam: Cam, c: HoldConfig): Vec3 {
    Add(cam.position, Scale(cam.forward, c.holdDistance))
  }

  // ---------------------------------------------------------------------------------------
  // Soft joint

  /** Soft: a linear limit of 0.01 with spring `s` and damper `d`; angular limits of 10 degrees
      with half the spring and the same damper. */
  function Soft(j: Joint, s: real, d: real): (r: Joint)
    ensures r.linearLimit == 0.01 && r.linearLimitSpring == LimitSpring(s, d)
    ensures r.lowAngularXLimit == 10.0 && r.highAngularXLimit == 10.0
    ensures r.angularYLimit == 10.0 && r.angularZLimit == 10.0
    ensures r.angularXLimitSpring == LimitSpring(s * 0.5, d) && r.angularYZLimitSpring == r.angularXLimitSpring
    ensures r.connectedBody == j.connectedBody && r.anchor == j.anchor && r.connectedAnchor == j.connectedAnchor
    ensures Locks(r) == Locks(j)
  {
    var ang := 10.0;
    var aS := LimitSpring(s * 0.5, d);
    j.(linearLimit := 0.01, linearLimitSpring := LimitSpring(s, d),
       lowAngularXLimit := ang, highAngularXLimit := ang, angularYLimit := ang, angularZLimit := ang,
       angularXLimitSpring := aS, angularYZLimitSpring := aS)
  }

  /** The six motion settings of a joint. */
  function Locks(j: Joint): seq<Motion> {
    [j.xMotion, j.yMotion, j.zMotion, j.angularXMotion, j.angularYMotion, j.angularZMotion]
  }

  /** Softening twice is softening once with the later parameters. */
  lemma SoftOverrides(j: Joint, s1: real, d1: real, s2: real, d2: real)
    ensures Soft(Soft(j, s1, d1), s2, d2) == Soft(j, s2, d2)
  {
  }

  // ---------------------------------------------------------------------------------------
  // Holder invariant

  /** A holder either holds nothing and has no joint, or holds a body through a joint that is
      connected to that body with all six motions limited. */
  predicate Consistent(h: Holder) {
    match (h.held, h.joint)
    case (None, None) => true
    case (Some(b), Some(j)) => j.connectedBody == b.id && forall i | 0 <= i < 6 :: Locks(j)[i] == Limited
    case _ => false
  }

  /** The weaker invariant that survives the held body being destroyed: a held body is held
      through a joint connected to it with all six motions limited (a joint may outlive its
      body). */
  predicate Attached(h: Holder) {
    h.held.Some? ==>
      && h.joint.Some?
      && h.joint.value.connectedBody == h.held.value.id
      && forall i | 0 <= i < 6 :: Locks(h.joint.value)[i] == Limited
  }

  /** A consistent holder is attached. */
  lemma ConsistentAttached(h: Holder)
    requires Consistent(h)
    ensures Attached(h)
  {
  }

  // ---------------------------------------------------------------------------------------
  // Drop, grab

  /** DropHeld: destroy the joint if there is one, turn interpolation off on the held body if
      there is one, and hold nothing. */
  function DropHeld(h: Holder): (r: Outcome)
    ensures r.h == h.(held := None, joint := None) && Consistent(r.h)
    ensures (DestroyJoint in r.effects) <==> h.joint.Some?
    ensures h.held.Some? ==> SetInterpolate(h.held.value.id, false) in r.effects
    ensures h.held.None? && h.joint.None? ==> r.effects == []
  {
    var e1 := if h.joint.Some? then [DestroyJoint] else [];
    var e2 := if h.held.Some? then [SetInterpolate(h.held.value.id, false)] else [];
    Outcome(h.(held := None, joint := None), e1 + e2)
  }

  /** Dropping twice is dropping once: the second drop changes nothing and calls nothing. */
  lemma DropHeldIdempotent(h: Holder)
    ensures DropHeld(DropHeld(h).h) == Outcome(DropHeld(h).h, [])
  {
  }

  /** Grab: hold the target; a new joint connects it with the player-side anchor at the hold
      point and the body-side anchor at the hit point, all six motions limited, softened with
      the hold spring and damper. The body's interpolation and gravity are switched on. */
  function Grab(h: Holder, target: Body, hitPoint: Vec3, cam: Cam, c: HoldConfig, fr: Frames): (r: Outcome)
    ensures r.h.held == Some(target) && Consistent(r.h) && r.h.ownerClientId == h.ownerClientId
    ensures var j := r.h.joint.value;
            && j.anchor == fr.toPlayer(HoldPoint(cam, c))
            && j.connectedAnchor == fr.toBody(target.id, hitPoint)
            && !j.autoConfigureConnectedAnchor
            && j.linearLimitSpring == LimitSpring(c.holdSpring, c.holdDamper)
    ensures var j := r.h.joint.value;
            && j.linearLimit == 0.01
            && j.lowAngularXLimit == 10.0 && j.highAngularXLimit == 10.0
            && j.angularYLimit == 10.0 && j.angularZLimit == 10.0
            && j.angularXLimitSpring == LimitSpring(c.holdSpring * 0.5, c.holdDamper)
            && j.angularYZLimitSpring == j.angularXLimitSpring
    ensures Soft(r.h.joint.value, c.holdSpring, c.holdDamper) == r.h.joint.value
    ensures r.effects == [SetInterpolate(target.id, true), EnableGravity(target.id)]
  {
    var l := LimitSpring(0.0, 0.0);
    var made := Joint(target.id, false, fr.toPlayer(HoldPoint(cam, c)), fr.toBody(target.id, hitPoint),
      Limited, Limited, Limited, Limited, Limited, Limited,
      0.0, l, 0.0, 0.0, 0.0, 0.0, l, l);
    var j := Soft(made, c.holdSpring, c.holdDamper);
    Outcome(h.(held := Some(target), joint := Some(j)), [SetInterpolate(target.id, true), EnableGravity(target.id)])
  }

  // ---------------------------------------------------------------------------------------
  // Interact, throw

  /** Whether a ray hit may be picked up: a rigidbody of at most 25 kg carrying a NetworkObject
      nobody owns. */
  predicate Grabbable(hit: RayHit) {
    && hit.body.Some?
    && hit.body.value.mass <= MaxCarryMass
    && hit.body.value.net.Some?
    && hit.body.value.net.value.ownerClientId == Unowned
  }

  /** Whether the held body is ours to release: it carries a NetworkObject owned by this
      player's connection. */
  predicate OwnedByUs(h: Holder, b: Body) {
    b.net.Some? && b.net.value.ownerClientId == h.ownerClientId
  }

  /** TryInteract. While holding: release the body and give its authority back if it is ours,
      otherwise do nothing. With nothing held: grab what the ray (UseDistance long) hit if it is
      grabbable, after asking the server for its ownership; otherwise do nothing. `held` is the
      held body as seen at the call, with its current owner. Grabbing does not look at the
      joint field: a joint left over from a body that was destroyed is overwritten, not
      destroyed. */
  function TryInteract(h: Holder, ray: Option<RayHit>, cam: Cam, c: HoldConfig, fr: Frames): (r: Outcome)
    ensures r.h.ownerClientId == h.ownerClientId
    ensures Consistent(h) ==> Consistent(r.h)
    ensures Attached(h) ==> Attached(r.h)
    ensures h.held.Some? && !OwnedByUs(h, h.held.value) ==> r == Outcome(h, [])
    ensures h.held.Some? && OwnedByUs(h, h.held.value) ==>
              && r.h.held.None? && r.h.joint.None?
              && r.effects == DropHeld(h).effects + [ReturnToServerAuth(h.held.value.net.value.id)]
    ensures h.held.None? && (ray.None? || !Grabbable(ray.value)) ==> r == Outcome(h, [])
    ensures h.held.None? && ray.Some? && Grabbable(ray.value) ==>
              var b := ray.value.body.value;
              && r.h.held == Some(b) && Consistent(r.h)
              && r.h == Grab(h, b, ray.value.point, cam, c, fr).h
              && r.effects == [GiveOwnership(b.net.value.id), SetInterpolate(b.id, true), EnableGravity(b.id)]
  {
    match h.held
    case Some(b) =>
      if !OwnedByUs(h, b) then Outcome(h, [])
      else
        var d := DropHeld(h);
        Outcome(d.h, d.effects + [ReturnToServerAuth(b.net.value.id)])
    case None =>
      match ray
      case None => Outcome(h, [])
      case Some(hit) =>
        if !Grabbable(hit) then Outcome(h, [])
        else
          var b := hit.body.value;
          var g := Grab(h, b, hit.point, cam, c, fr);
          Outcome(g.h, [GiveOwnership(b.net.value.id)] + g.effects)
  }

  /** The holder changes only by grabbing a grabbable hit when empty, or by releasing a body of
      ours. */
  lemma TryInteractChangesOnlyWhenAllowed(h: Holder, ray: Option<RayHit>, cam: Cam, c: HoldConfig, fr: Frames)
    requires Consistent(h)
    ensures TryInteract(h, ray, cam, c, fr).h != h <==>
              if h.held.Some? then OwnedByUs(h, h.held.value)
              else ray.Some? && Grabbable(ray.value)
  {
  }

  /** TryThrow: nothing without a held body. Otherwise the body held at the call is remembered,
      the hold is dropped, and only then is the throw impulse (ThrowImpulse along the camera's
      forward, as a velocity change) applied to the remembered body; its authority is given back
      if it is ours. */
  function TryThrow(h: Holder, cam: Cam, c: HoldConfig): (r: Outcome)
    ensures r.h.held.None? && r.h.ownerClientId == h.ownerClientId
    ensures Consistent(h) ==> Consistent(r.h)
    ensures h.held.None? ==> r == Outcome(h, [])
    ensures h.held.Some? ==>
              var b := h.held.value;
              var drop := DropHeld(h).effects;
              var impulse := Impulse(b.id, Scale(cam.forward, c.throwImpulse));
              && r.h.joint.None?
              && (OwnedByUs(h, b) ==> r.effects == drop + [impulse, ReturnToServerAuth(b.net.value.id)])
              && (!OwnedByUs(h, b) ==> r.effects == drop + [impulse])
  {
    match h.held
    case None => Outcome(h, [])
    case Some(heldBody) =>
      var dir := cam.forward;
      var d := DropHeld(h);
      var thrown := d.effects + [Impulse(heldBody.id, Scale(dir, c.throwImpulse))];
      if OwnedByUs(h, heldBody) then Outcome(d.h, thrown + [ReturnToServerAuth(heldBody.net.value.id)])
      else Outcome(d.h, thrown)
  }

  /** Throwing after a drop does nothing: the impulse needs a body held at the call. */
  lemma ThrowAfterDropIsNoOp(h: Holder, cam: Cam, c: HoldConfig)
    ensures TryThrow(DropHeld(h).h, cam, c) == Outcome(DropHeld(h).h, [])
  {
  }

  // ---------------------------------------------------------------------------------------
  // Tick

  /** FixedUpdate: with a joint, a held body and a camera, move the player-side anchor to the
      current hold point; otherwise nothing. */
  function FixedUpdate(h: Holder, cam: Option<Cam>, c: HoldConfig, fr: Frames): (r: Holder)
    ensures h.joint.None? || h.held.None? || cam.None? ==> r == h
    ensures h.joint.Some? && h.held.Some? && cam.Some? ==>
              r == h.(joint := Some(h.joint.value.(anchor := fr.toPlayer(HoldPoint(cam.value, c)))))
    ensures Consistent(h) ==> Consistent(r)
    ensures Attached(h) ==> Attached(r)
  {
    if h.joint.None? || h.held.None? || cam.None? then h
    else
      var j := h.joint.value.(anchor := fr.toPlayer(HoldPoint(cam.value, c)));
      assert Locks(j) == Locks(h.joint.value);
      h.(joint := Some(j))
  }

  // ---------------------------------------------------------------------------------------
  // Events from outside

  /** The network reports a new owner for object `obj`. The component reads the owner of the
      held body afresh at every call, so the held body's owner follows; nothing else changes. */
  function Reown(h: Holder, obj: nat, owner: int): (r: Holder)
    ensures r.joint == h.joint && r.ownerClientId == h.ownerClientId
    ensures r.held.None? <==> h.held.None?
    ensures h.held.Some? ==> r.held.value.id == h.held.value.id && r.held.value.mass == h.held.value.mass
    ensures HoldsObject(h, obj) ==> r.held.value.net == Some(NetObj(obj, owner))
    ensures !HoldsObject(h, obj) ==> r == h
    ensures Consistent(h) ==> Consistent(r)
    ensures Attached(h) ==> Attached(r)
  {
    if HoldsObject(h, obj) then
      var b := h.held.value;
      h.(held := Some(b.(net := Some(NetObj(obj, owner)))))
    else h
  }

  /** Whether the held body carries the NetworkObject `obj`. */
  predicate HoldsObject(h: Holder, obj: nat) {
    h.held.Some? && h.held.value.net.Some? && h.held.value.net.value.id == obj
  }

  /** Giving the held object to another owner and back restores the holder. */
  lemma {:induction false} ReownBack(h: Holder, obj: nat, owner: int)
    requires HoldsObject(h, obj)
    ensures Reown(Reown(h, obj, owner), obj, h.held.value.net.value.ownerClientId) == h
  {
    var r := Reown(h, obj, owner);
    assert HoldsObject(r, obj);
    var b := h.held.value;
    assert b.net == Some(NetObj(obj, b.net.value.ownerClientId));
  }

  /** The held body is destroyed elsewhere. The engine then compares the held reference equal
      to null, so the component sees nothing held; the joint field still refers to the joint
      component, which nothing destroys. */
  function LoseBody(h: Holder): (r: Holder)
    ensures r.held.None? && r.joint == h.joint && r.ownerClientId == h.ownerClientId
    ensures Attached(r)
    ensures Consistent(r) <==> h.joint.None?
  {
    h.(held := None)
  }

  // ---------------------------------------------------------------------------------------
  // Sequences of calls

  /** Calls a player can make on the interactor, and the two outside events that change what it
      sees: a new owner of a networked object, and the held body being destroyed. */
  datatype Call =
    | Interact(ray: Option<RayHit>, eye: Cam)
    | Throw(aim: Cam)
    | Tick(view: Option<Cam>)
    | OwnerChanged(obj: nat, owner: int)
    | BodyLost

  /** One call and the effects it makes. */
  function Step(h: Holder, call: Call, c: HoldConfig, fr: Frames): (r: Outcome)
    ensures r.h.ownerClientId == h.ownerClientId
    ensures Attached(h) ==> Attached(r.h)
    ensures Consistent(h) && !call.BodyLost? ==> Consistent(r.h)
    ensures call.Tick? || call.OwnerChanged? || call.BodyLost? ==> r.effects == []
  {
    match call
    case Interact(ray, cam) => TryInteract(h, ray, cam, c, fr)
    case Throw(cam) => TryThrow(h, cam, c)
    case Tick(cam) => Outcome(FixedUpdate(h, cam, c, fr), [])
    case OwnerChanged(obj, owner) => Outcome(Reown(h, obj, owner), [])
    case BodyLost => Outcome(LoseBody(h), [])
  }

  /** A sequence of calls: the final holder and every effect, in order. */
  function Play(h: Holder, calls: seq<Call>, c: HoldConfig, fr: Frames): (r: Outcome)
    decreases |calls|
  {
    if |calls| == 0 then Outcome(h, [])
    else
      var s := Step(h, calls[0], c, fr);
      var rest := Play(s.h, calls[1..], c, fr);
      Outcome(rest.h, s.effects + rest.effects)
  }

  /** Whatever happens, a held body is always held through a joint connected to it with all six
      motions limited. */
  lemma {:induction false} PlayAttached(h: Holder, calls: seq<Call>, c: HoldConfig, fr: Frames)
    requires Attached(h)
    ensures Attached(Play(h, calls, c, fr).h)
    decreases |calls|
  {
    if |calls| > 0 {
      PlayAttached(Step(h, calls[0], c, fr).h, calls[1..], c, fr);
    }
  }

  /** As long as no held body is destroyed, every sequence of calls keeps the holder
      consistent: a body is held exactly when a joint exists, and the joint holds that body. */
  lemma {:induction false} PlayConsistent(h: Holder, calls: seq<Call>, c: HoldConfig, fr: Frames)
    requires Consistent(h)
    requires forall i | 0 <= i < |calls| :: !calls[i].BodyLost?
    ensures Consistent(Play(h, calls, c, fr).h)
    decreases |calls|
  {
    if |calls| > 0 {
      PlayConsistent(Step(h, calls[0], c, fr).h, calls[1..], c, fr);
    }
  }

  /** The lease round trip: grab an unowned object (asking for its ownership), the server hands
      it over, interact again. The holder ends empty, having asked for the object first and given
      it back last. */
  lemma GrabOwnRelease(h: Holder, hit: RayHit, cam1: Cam, ray2: Option<RayHit>, cam2: Cam,
                       c: HoldConfig, fr: Frames)
    requires h.held.None? && Grabbable(hit)
    ensures var n := hit.body.value.net.value.id;
            var r := Play(h, [Interact(Some(hit), cam1), OwnerChanged(n, h.ownerClientId), Interact(ray2, cam2)], c, fr);
            && r.h == h.(held := None, joint := None)
            && r.effects[0] == GiveOwnership(n)
            && r.effects[|r.effects| - 1] == ReturnToServerAuth(n)
  {
    var n := hit.body.value.net.value.id;
    var calls := [Interact(Some(hit), cam1), OwnerChanged(n, h.ownerClientId), Interact(ray2, cam2)];
    var s1 := Step(h, calls[0], c, fr);
    assert s1.h.held == Some(hit.body.value) && s1.effects[0] == GiveOwnership(n);
    var s2 := Step(s1.h, calls[1], c, fr);
    assert OwnedByUs(s2.h, s2.h.held.value);
    var s3 := Step(s2.h, calls[2], c, fr);
    assert s3.effects[|s3.effects| - 1] == ReturnToServerAuth(n);
    assert calls[1..][1..][1..] == [];
    assert Play(s2.h, calls[1..][1..], c, fr) == Outcome(s3.h, s3.effects + []);
  }

  /** Without the ownership handover the second interact cannot release: the object is still
      nobody's, so the holder keeps it and nothing is called. */
  lemma GrabWithoutHandoverKeeps(h: Holder, hit: RayHit, cam1: Cam, ray2: Option<RayHit>, cam2: Cam,
                                 c: HoldConfig, fr: Frames)
    requires h.held.None? && Grabbable(hit) && h.ownerClientId != Unowned
    ensures var r := Play(h, [Interact(Some(hit), cam1), Interact(ray2, cam2)], c, fr);
            r.h.held == Some(hit.body.value) && |r.effects| == 3
  {
    var calls := [Interact(Some(hit), cam1), Interact(ray2, cam2)];
    var s1 := Step(h, calls[0], c, fr);
    assert !OwnedByUs(s1.h, s1.h.held.value);
    var s2 := Step(s1.h, calls[1], c, fr);
    assert s2 == Outcome(s1.h, []);
    assert calls[1..][1..] == [];
    assert Play(s1.h, calls[1..], c, fr) == Outcome(s2.h, s2.effects + []);
  }

  /** When the held body is destroyed and another one is grabbed, the old joint is overwritten
      without a DestroyJoint: the component leaks it. */
  lemma GrabAfterLossLeaksJoint(h: Holder, hit: RayHit, cam: Cam, c: HoldConfig, fr: Frames)
    requires Consistent(h) && h.held.Some? && Grabbable(hit)
    ensures var r := Play(h, [BodyLost, Interact(Some(hit), cam)], c, fr);
            && Consistent(r.h) && h.joint.Some? && r.h.held == hit.body
            && DestroyJoint !in r.effects
  {
    var calls := [BodyLost, Interact(Some(hit), cam)];
    var s1 := Step(h, calls[0], c, fr);
    assert s1.h.joint == h.joint && s1.h.held.None? && s1.effects == [];
    var s2 := Step(s1.h, calls[1], c, fr);
    assert calls[1..][1..] == [];
    assert Play(s1.h, calls[1..], c, fr) == Outcome(s2.h, s2.effects + []);
  }
}

=== FILE: player_movement.dfy ===
/** PlayerMovement: the rigidbody locomotion motor of the player. Every physics tick it
    classifies the ground under the body, holds the body at its ride height with a spring, runs
    the move and the transitions of its state (Grounded, Air, Slide, Crawl), and blends the
    capsule height toward the height of the state. Physics queries and float maths come in
    through `World`; forces are recorded as requests, because Unity applies them only in the
    physics step after the tick. */
module PlayerMovement {
  import opened Wrappers
  import opened Num
  import opened Vec

  /** The MovementConfig asset; `assetId` stands for its object identity. */
  datatype MovementConfig = MovementConfig(
    assetId: nat,
    moveSpeed: real, accel: real, maxGroundSpeed: real,
    airAccel: real, maxAirSpeed: real,
    jumpHeight: real, coyoteTime: real, jumpBuffer: real,
    slideMinSpeed: real, slideFriction: real,
    crawlSpeed: real, standHeight: real, crawlHeight: real, heightLerpSpeed: real,
    rideHeight: real, springK: real, hoverTolerance: real, maxSpringAcceleration: real,
    groundCheckRadius: real, maxSlopeAngle: real)

  /** The serialized defaults of a fresh MovementConfig asset. */
  function DefaultConfig(assetId: nat): MovementConfig {
    MovementConfig(assetId,
      6.0, 30.0, 7.0,
      8.0, 5.0,
      1.2, 0.12, 0.12,
      8.0, 1.5,
      2.5, 1.8, 1.0, 12.0,
      0.9, 1200.0, 0.01, 60.0,
      0.25, 50.0)
  }

  datatype MotorState = Grounded | Air | Slide | Crawl

  /** The CapsuleCollider: its height, its center and its radius. */
  datatype Capsule = Capsule(height: real, center: Vec3, radius: real)

  /** The Rigidbody as the motor sees it. Between ticks the physics engine moves it; that
      integration is not part of the model. */
  datatype Body = Body(position: Vec3, velocity: Vec3)

  datatype Motor = Motor(
    config: MovementConfig,
    state: MotorState,
    body: Body,
    capsule: Capsule,
    moveInput: Vec2,
    jumpPressed: bool,
    crouchHeld: bool,
    lastGrounded: real,
    lastJumpPressed: real,
    groundNormal: Vec3,
    isGrounded: bool)

  /** The value `_lastJumpPressed` is reset to when a jump consumes the press. */
  const NoJumpPress: real := -999.0

  /** A force request. `Accel` and `VelocityChange` go to the own body (ForceMode.Acceleration
      and ForceMode.VelocityChange); `AccelAtPoint` goes to the ground body `body`. */
  datatype Force =
    | Accel(v: Vec3)
    | VelocityChange(v: Vec3)
    | AccelAtPoint(body: nat, v: Vec3, point: Vec3)

  /** A hit of the ground sphere cast. */
  datatype GroundHit = GroundHit(normal: Vec3)

  /** The rigidbody under the body, with its velocity at the hit point. */
  datatype GroundBody = GroundBody(id: nat, pointVelocity: Vec3, isKinematic: bool)

  /** A hit of the hover ray. */
  datatype SpringHit = SpringHit(distance: real, normal: Vec3, point: Vec3, body: Option<GroundBody>)

  /** What one tick learns from the engine: the clock, gravity, the body's facing, the physics
      queries (sphere cast by radius and distance, ray by distance, upward capsule cast by
      origin, radius and distance), Vector3.Angle to the up axis, and the float operations. */
  datatype World = World(
    now: real,
    dt: PosReal,
    gravity: Vec3,
    forward: Vec3,
    right: Vec3,
    sphereCast: (real, real) -> seq<GroundHit>,
    ray: real -> Option<SpringHit>,
    capsuleCastUp: (Vec3, real, real) -> bool,
    angleToUp: Vec3 -> real,
    f: FloatOps)

  /** The motor in the middle of a tick, with the forces requested and the state-change events
      raised so far. */
  datatype Frame = Frame(m: Motor, forces: seq<Force>, events: seq<MotorState>)

  // ---------------------------------------------------------------------------------------
  // State switching

  /** SwitchState: a switch to the current state does nothing; any other switch changes the
      state and raises exactly one OnStateChanged event carrying the new state. */
  function SwitchState(fr: Frame, s: MotorState): (r: Frame)
    ensures r.m.state == s
    ensures r.forces == fr.forces
    ensures fr.m.state == s ==> r == fr
    ensures fr.m.state != s ==> r.events == fr.events + [s] && r.m == fr.m.(state := s)
  {
    if fr.m.state == s then fr
    else Frame(fr.m.(state := s), fr.forces, fr.events + [s])
  }

  /** A well-formed event history from state `s0` to state `s1`: every event is a change away
      from the state before it, and the last event is the final state. */
  predicate EventChain(s0: MotorState, events: seq<MotorState>, s1: MotorState)
    decreases |events|
  {
    if |events| == 0 then s0 == s1
    else events[0] != s0 && EventChain(events[0], events[1..], s1)
  }

  lemma {:induction false} EventChainAppend(s0: MotorState, events: seq<MotorState>, s1: MotorState, s2: MotorState)
    requires EventChain(s0, events, s1)
    requires s1 != s2
    ensures EventChain(s0, events + [s2], s2)
    decreases |events|
  {
    if |events| == 0 {
      assert events + [s2] == [s2];
      assert EventChain(s2, [], s2);
    } else {
      EventChainAppend(events[0], events[1..], s1, s2);
      assert (events + [s2])[1..] == events[1..] + [s2];
    }
  }

  /** Switching extends a well-formed event history. */
  lemma SwitchStateChains(s0: MotorState, fr: Frame, s: MotorState)
    requires EventChain(s0, fr.events, fr.m.state)
    ensures EventChain(s0, SwitchState(fr, s).events, s)
  {
    if fr.m.state != s {
      EventChainAppend(s0, fr.events, fr.m.state, s);
    }
  }

  /** Switching twice to the same state is switching once. */
  lemma SwitchStateIdempotent(fr: Frame, s: MotorState)
    ensures SwitchState(SwitchState(fr, s), s) == SwitchState(fr, s)
  {
  }

  // ---------------------------------------------------------------------------------------
  // Input setters

  /** SetMoveInput: the stick is clamped to length 1. */
  function SetMoveInput(m: Motor, move: Vec2, f: FloatOps): (r: Motor)
    requires Sound(f)
    ensures r == m.(moveInput := r.moveInput)
    ensures Dot2(r.moveInput, r.moveInput) <= 1.0
    ensures Dot2(move, move) <= 1.0 ==> r.moveInput == move
    ensures Dot2(move, move) > 1.0 ==>
              && Dot2(r.moveInput, r.moveInput) == 1.0
              && 0.0 < Dot2(r.moveInput, move)
              && Vec2(r.moveInput.x * Dot2(r.moveInput, move), r.moveInput.y * Dot2(r.moveInput, move)) == move
  {
    var c := ClampMagnitude2(move, 1.0, f);
    if Dot2(move, move) > 1.0 then
      Normalize2Facts(f, move);
      m.(moveInput := c)
    else
      m.(moveInput := c)
  }

  /** Re-setting the stick to the value it holds changes nothing. */
  lemma SetMoveInputIdempotent(m: Motor, move: Vec2, f: FloatOps)
    requires Sound(f)
    ensures var m1 := SetMoveInput(m, move, f);
            SetMoveInput(m1, m1.moveInput, f) == m1
  {
  }

  /** SetJump: a press stamps the time; a release only clears the flag. */
  function SetJump(m: Motor, pressed: bool, now: real): (r: Motor)
    ensures r.jumpPressed == pressed
    ensures pressed ==> r.lastJumpPressed == now
    ensures !pressed ==> r.lastJumpPressed == m.lastJumpPressed
    ensures r == m.(jumpPressed := pressed, lastJumpPressed := r.lastJumpPressed)
  {
    if pressed then m.(lastJumpPressed := now, jumpPressed := pressed)
    else m.(jumpPressed := pressed)
  }

  function SetCrouch(m: Motor, held: bool): (r: Motor)
    ensures r.crouchHeld == held && r == m.(crouchHeld := held)
  {
    m.(crouchHeld := held)
  }

  // ---------------------------------------------------------------------------------------
  // Capsule height

  /** The pivot's height less half the capsule height. A resize moves the pivot by half the
      change in height, so this is the quantity resizing keeps; it is neither the capsule's
      bottom (`Bottom`) nor its centre (`CenterY`). */
  function PivotLessHalfHeight(m: Motor): real {
    m.body.position.y - m.capsule.height * 0.5
  }

  /** The capsule's local center is at half its height, as SetHeight leaves it. */
  predicate Centred(m: Motor) {
    m.capsule.center == Vec3(0.0, m.capsule.height * 0.5, 0.0)
  }

  /** The world height of the bottom of the capsule collider. */
  function Bottom(m: Motor): real {
    m.body.position.y + m.capsule.center.y - m.capsule.height * 0.5
  }

  /** The world height of the capsule's centre, where the engine puts the automatically computed
      centre of mass that the ground and spring rays start from. */
  function CenterY(m: Motor): real {
    m.body.position.y + m.capsule.center.y
  }

  /** SetHeight: unless forced, a height approximately equal to the current one is ignored;
      otherwise the capsule takes the height, its center moves to half of it, and the body moves
      up by half the change. With the center at half height the bottom of the capsule sits at
      the pivot, so a resize moves the bottom by half the change and the centre by the whole
      change: neither the feet nor the centre of mass stay where they were. */
  function SetHeight(m: Motor, height: real, force: bool): (r: Motor)
    ensures PivotLessHalfHeight(r) == PivotLessHalfHeight(m)
    ensures r == m.(capsule := r.capsule, body := m.body.(position := r.body.position))
    ensures !force && Approximately(m.capsule.height, height) ==> r == m
    ensures force || !Approximately(m.capsule.height, height) ==>
              && r.capsule == Capsule(height, Vec3(0.0, height * 0.5, 0.0), m.capsule.radius)
              && r.body.position == Add(m.body.position, Scale(Up, (height - m.capsule.height) * 0.5))
              && Centred(r) && Bottom(r) == r.body.position.y
    ensures (force || !Approximately(m.capsule.height, height)) && Centred(m) ==>
              && Bottom(r) == Bottom(m) + (height - m.capsule.height) * 0.5
              && CenterY(r) == CenterY(m) + (height - m.capsule.height)
  {
    if !force && Approximately(m.capsule.height, height) then m
    else
      var prev := m.capsule.height;
      var diff := (height - prev) * 0.5;
      m.(capsule := Capsule(height, Vec3(0.0, height * 0.5, 0.0), m.capsule.radius),
         body := m.body.(position := Add(m.body.position, Scale(Up, diff))))
  }

  /** Crouching from the default stand height 1.8 to the crawl height 1.0 lowers the bottom of a
      centred capsule by 0.4 and its centre by 0.8. */
  lemma CrouchLowersBottomAndCenter(m: Motor)
    requires Centred(m) && m.capsule.height == 1.8
    ensures Bottom(SetHeight(m, 1.0, true)) == Bottom(m) - 0.4
    ensures CenterY(SetHeight(m, 1.0, true)) == CenterY(m) - 0.8
  {
  }

  /** The height a state asks for: crawl height while crawling or sliding, stand height
      otherwise. */
  function TargetHeight(c: MovementConfig, s: MotorState): real {
    if s == Crawl || s == Slide then c.crawlHeight else c.standHeight
  }

  /** ApplyImmediateConfigChanges: force the height of the current state. */
  function ApplyImmediateConfigChanges(m: Motor): (r: Motor)
    ensures r.capsule.height == TargetHeight(m.config, m.state)
    ensures r.capsule.center == Vec3(0.0, r.capsule.height * 0.5, 0.0)
    ensures PivotLessHalfHeight(r) == PivotLessHalfHeight(m)
    ensures r.config == m.config && r.state == m.state
  {
    SetHeight(m, TargetHeight(m.config, m.state), true)
  }

  /** SetConfig: a missing config or the asset already in use changes nothing; another asset is
      taken and its height applied at once. */
  function SetConfig(m: Motor, newConfig: Option<MovementConfig>): (r: Motor)
    ensures newConfig.None? || newConfig.value.assetId == m.config.assetId ==> r == m
    ensures newConfig.Some? && newConfig.value.assetId != m.config.assetId ==>
              && r.config == newConfig.value
              && r.state == m.state
              && r.capsule.height == TargetHeight(newConfig.value, m.state)
  {
    match newConfig
    case None => m
    case Some(c) =>
      if c.assetId == m.config.assetId then m
      else ApplyImmediateConfigChanges(m.(config := c))
  }

  /** Installing a config twice is installing it once: the second call finds the asset already
      in use. */
  lemma SetConfigIdempotent(m: Motor, newConfig: Option<MovementConfig>)
    ensures SetConfig(SetConfig(m, newConfig), newConfig) == SetConfig(m, newConfig)
  {
  }

  /** A new asset is installed with its height applied: a later config change event for the
      same asset (ApplyImmediateConfigChanges) changes nothing more. */
  lemma SetConfigThenApply(m: Motor, c: MovementConfig)
    requires c.assetId != m.config.assetId
    ensures ApplyImmediateConfigChanges(SetConfig(m, Some(c))) == SetConfig(m, Some(c))
  {
  }

  /** UpdateHeight: the capsule blends toward the state's height by `1 - e^(-speed * dt)`. */
  function UpdateHeight(m: Motor, w: World): (r: Motor)
    ensures var h := m.capsule.height;
            var t := TargetHeight(m.config, m.state);
            && Min(h, t) <= r.capsule.height <= Max(h, t)
            && Abs(r.capsule.height - t) <= Abs(h - t)
    ensures PivotLessHalfHeight(r) == PivotLessHalfHeight(m)
    ensures r == m.(capsule := r.capsule, body := m.body.(position := r.body.position))
  {
    var target := TargetHeight(m.config, m.state);
    var lerp := 1.0 - w.f.exp(-m.config.heightLerpSpeed * w.dt);
    var h := Lerp(m.capsule.height, target, lerp);
    LerpBetween(m.capsule.height, target, lerp);
    ScaleBetween(Abs(m.capsule.height - target), 1.0 - Clamp01(lerp));
    SetHeight(m, h, false)
  }

  /** Setting the height just set, without forcing, changes nothing. */
  lemma SetHeightIdempotent(m: Motor, height: real, force: bool)
    ensures SetHeight(SetHeight(m, height, force), height, false) == SetHeight(m, height, force)
  {
    var m1 := SetHeight(m, height, force);
    if !(!force && Approximately(m.capsule.height, height)) {
      ApproximatelyReflexive(height);
    }
  }

  /** Forcing a new height and then forcing the old one back restores the motor, when the
      capsule was centred at half its height. */
  lemma SetHeightRoundTrip(m: Motor, height: real)
    requires m.capsule.center == Vec3(0.0, m.capsule.height * 0.5, 0.0)
    ensures SetHeight(SetHeight(m, height, true), m.capsule.height, true) == m
  {
  }

  /** Applying the config changes twice is applying them once. */
  lemma ApplyImmediateConfigChangesIdempotent(m: Motor)
    ensures ApplyImmediateConfigChanges(ApplyImmediateConfigChanges(m)) == ApplyImmediateConfigChanges(m)
  {
  }

  /** A capsule already at the height of its state is a fixed point of the blend. */
  lemma UpdateHeightAtTarget(m: Motor, w: World)
    requires m.capsule.height == TargetHeight(m.config, m.state)
    ensures UpdateHeight(m, w) == m
  {
    var t := TargetHeight(m.config, m.state);
    var lerp := 1.0 - w.f.exp(-m.config.heightLerpSpeed * w.dt);
    LerpBetween(t, t, lerp);
    ApproximatelyReflexive(t);
  }

  // ---------------------------------------------------------------------------------------
  // Ground classification

  /** The first hit whose slope is walkable. */
  function FirstWalkable(hits: seq<GroundHit>, maxSlope: real, angle: Vec3 -> real): (r: Option<GroundHit>)
    ensures r.None? <==> forall i | 0 <= i < |hits| :: angle(hits[i].normal) > maxSlope
    ensures r.Some? ==> exists i | 0 <= i < |hits| ::
              && hits[i] == r.value
              && angle(r.value.normal) <= maxSlope
              && forall j | 0 <= j < i :: angle(hits[j].normal) > maxSlope
  {
    if |hits| == 0 then None
    else if angle(hits[0].normal) <= maxSlope then Some(hits[0])
    else
      var rest := FirstWalkable(hits[1..], maxSlope, angle);
      if rest.Some? then
        var i :| 0 <= i < |hits[1..]| && hits[1..][i] == rest.value && angle(rest.value.normal) <= maxSlope
                 && forall j | 0 <= j < i :: angle(hits[1..][j].normal) > maxSlope;
        assert hits[i + 1] == rest.value;
        assert forall j | 0 <= j < i + 1 :: angle(hits[j].normal) > maxSlope by {
          forall j | 0 <= j < i + 1 ensures angle(hits[j].normal) > maxSlope {
            if j > 0 { assert hits[j] == hits[1..][j - 1]; }
          }
        }
        rest
      else
        assert forall i | 0 <= i < |hits| :: angle(hits[i].normal) > maxSlope by {
          forall i | 0 <= i < |hits| ensures angle(hits[i].normal) > maxSlope {
            if i > 0 { assert hits[i] == hits[1..][i - 1]; }
          }
        }
        rest
  }

  /** The sphere cast writes into a buffer of two hits, so at most the first two count. */
  const HitBufferSize: nat := 2

  function BufferedHits(hits: seq<GroundHit>): (r: seq<GroundHit>)
    ensures |r| <= HitBufferSize && r <= hits
    ensures |hits| <= HitBufferSize ==> r == hits
  {
    if |hits| <= HitBufferSize then hits else hits[..HitBufferSize]
  }

  /** UpdateGround: cast a sphere of GroundCheckRadius down over RideHeight + 0.6; the body is
      grounded on the first buffered hit no steeper than MaxSlopeAngle, whose normal becomes the
      ground normal, and then the grounded time is stamped. Otherwise the normal is up and the
      grounded time stays. */
  function UpdateGround(m: Motor, w: World): (r: Motor)
    ensures var hits := BufferedHits(w.sphereCast(m.config.groundCheckRadius, m.config.rideHeight + 0.6));
            && (r.isGrounded <==> exists i | 0 <= i < |hits| :: w.angleToUp(hits[i].normal) <= m.config.maxSlopeAngle)
            && (r.isGrounded ==> r.lastGrounded == w.now
                                 && r.groundNormal == FirstWalkable(hits, m.config.maxSlopeAngle, w.angleToUp).value.normal)
            && (!r.isGrounded ==> r.lastGrounded == m.lastGrounded && r.groundNormal == Up)
    ensures r == m.(isGrounded := r.isGrounded, groundNormal := r.groundNormal, lastGrounded := r.lastGrounded)
  {
    var hits := BufferedHits(w.sphereCast(m.config.groundCheckRadius, m.config.rideHeight + 0.6));
    match FirstWalkable(hits, m.config.maxSlopeAngle, w.angleToUp)
    case None => m.(isGrounded := false, groundNormal := Up)
    case Some(h) => m.(isGrounded := true, groundNormal := h.normal, lastGrounded := w.now)
  }

  // ---------------------------------------------------------------------------------------
  // Hover spring

  /** Mathf.Sqrt of the spring constant, floored at 1, doubled: the critical damping. */
  function CriticalDamping(k: real, f: FloatOps): real {
    2.0 * f.sqrt(Max(1.0, k))
  }

  /** The spring's acceleration along the hit normal: `error * k - relVelN * c`, clamped to
      [-MaxSpringAcceleration, MaxSpringAcceleration]. */
  function SpringAccel(c: MovementConfig, velocity: Vec3, hit: SpringHit, f: FloatOps): (a: real)
    ensures 0.0 <= c.maxSpringAcceleration ==> -c.maxSpringAcceleration <= a <= c.maxSpringAcceleration
  {
    var error := c.rideHeight - hit.distance;
    var groundVel := match hit.body case Some(b) => b.pointVelocity case None => Zero;
    var relVelN := Dot(Sub(velocity, groundVel), hit.normal);
    var raw := error * c.springK - relVelN * CriticalDamping(c.springK, f);
    Clamp(raw, -c.maxSpringAcceleration, c.maxSpringAcceleration)
  }

  /** With no velocity relative to the ground along the normal, the spring is Hooke's law,
      clamped. */
  lemma SpringAccelAtRest(c: MovementConfig, velocity: Vec3, hit: SpringHit, f: FloatOps)
    requires var groundVel := match hit.body case Some(b) => b.pointVelocity case None => Zero;
             Dot(Sub(velocity, groundVel), hit.normal) == 0.0
    ensures SpringAccel(c, velocity, hit, f)
              == Clamp((c.rideHeight - hit.distance) * c.springK, -c.maxSpringAcceleration, c.maxSpringAcceleration)
  {
  }

  /** Whether the spring acts on this hit: outside the dead zone around the ride height. */
  predicate SpringActs(c: MovementConfig, hit: SpringHit) {
    !(Abs(c.rideHeight - hit.distance) < c.hoverTolerance)
  }

  /** ApplyHoverSpring: a ray down over RideHeight + 1. No force on a miss or inside the dead
      zone; otherwise the spring acceleration along the hit normal, and the opposite acceleration
      at the hit point for a ground body that is present and not kinematic. */
  function HoverSpring(m: Motor, w: World): (r: seq<Force>)
    ensures !HasJump(r)
    ensures w.ray(m.config.rideHeight + 1.0).None? ==> r == []
    ensures w.ray(m.config.rideHeight + 1.0).Some? ==>
              var hit := w.ray(m.config.rideHeight + 1.0).value;
              var a := SpringAccel(m.config, m.body.velocity, hit, w.f);
              && (!SpringActs(m.config, hit) ==> r == [])
              && (SpringActs(m.config, hit) ==>
                    && 1 <= |r| <= 2
                    && r[0] == Accel(Scale(hit.normal, a))
                    && (|r| == 2 <==> hit.body.Some? && !hit.body.value.isKinematic)
                    && (|r| == 2 ==> r[1] == AccelAtPoint(hit.body.value.id, Scale(Neg(hit.normal), a), hit.point)))
  {
    match w.ray(m.config.rideHeight + 1.0)
    case None => []
    case Some(hit) =>
      if !SpringActs(m.config, hit) then []
      else
        var a := SpringAccel(m.config, m.body.velocity, hit, w.f);
        var own := Accel(Scale(hit.normal, a));
        match hit.body
        case Some(b) =>
          if !b.isKinematic then [own, AccelAtPoint(b.id, Scale(Neg(hit.normal), a), hit.point)] else [own]
        case None => [own]
  }

  /** The reaction on the ground body is exactly opposite to the acceleration of the own body. */
  lemma HoverReactionOpposite(m: Motor, w: World)
    requires |HoverSpring(m, w)| == 2
    ensures HoverSpring(m, w)[1].v == Neg(HoverSpring(m, w)[0].v)
  {
  }

  // ---------------------------------------------------------------------------------------
  // Moves

  /** Vector3 / float. */
  function Div(v: Vec3, d: real): Vec3
    requires d != 0.0
  {
    Vec3(v.x / d, v.y / d, v.z / d)
  }

  lemma DivScale(v: Vec3, d: real)
    requires d != 0.0
    ensures Scale(Div(v, d), d) == v
  {
  }

  /** The part of the velocity in the horizontal plane. */
  function Planar(v: Vec3): Vec3 {
    ProjectOnPlane(v, Up)
  }

  /** AccelerateToward: the acceleration that takes the planar velocity toward the planar target
      (clamped to `maxSpeed`), changing it by at most `accel * dt` in one step. */
  function AccelerateToward(v: Vec3, target: Vec3, accel: real, maxSpeed: real, dt: PosReal, f: FloatOps): (r: Vec3)
    requires Sound(f)
    ensures r.y == 0.0
    ensures var delta := Sub(ClampMagnitude(Vec3(target.x, 0.0, target.z), maxSpeed, f), Planar(v));
            var a := accel * dt;
            var step := Scale(r, dt);
            SqrMagnitude(delta) > a * a && SqrMagnitude(delta) > NormalizeEpsilon * NormalizeEpsilon ==>
              && SqrMagnitude(step) == a * a
              && (0.0 < accel ==> 0.0 < Dot(step, delta) && Scale(step, Dot(step, delta)) == Scale(delta, a * a))
  {
    var cur := Planar(v);
    var tgt := ClampMagnitude(Vec3(target.x, 0.0, target.z), maxSpeed, f);
    var delta := Sub(tgt, cur);
    var a := accel * dt;
    ProjectOnUpPlane(v);
    ClampKeepsLevel(Vec3(target.x, 0.0, target.z), maxSpeed, f);
    ClampKeepsLevel(delta, a, f);
    ClampStepFacts(delta, accel, dt, f);
    Div(ClampMagnitude(delta, a, f), dt)
  }

  /** One step of AccelerateToward out of reach: the velocity change is exactly `accel * dt`
      long and, for a positive `accel`, points the way of the gap it closes. */
  lemma ClampStepFacts(delta: Vec3, accel: real, dt: PosReal, f: FloatOps)
    requires Sound(f)
    ensures var a := accel * dt;
            var step := Scale(Div(ClampMagnitude(delta, a, f), dt), dt);
            SqrMagnitude(delta) > a * a && SqrMagnitude(delta) > NormalizeEpsilon * NormalizeEpsilon ==>
              && SqrMagnitude(step) == a * a
              && (0.0 < accel ==> 0.0 < Dot(step, delta) && Scale(step, Dot(step, delta)) == Scale(delta, a * a))
  {
    var a := accel * dt;
    var c := ClampMagnitude(delta, a, f);
    DivScale(c, dt);
    assert Scale(Div(c, dt), dt) == c;
    if SqrMagnitude(delta) > a * a && SqrMagnitude(delta) > NormalizeEpsilon * NormalizeEpsilon {
      ClampMagnitudeAbove(delta, a, f);
      if 0.0 < accel {
        MulPos(accel, dt);
      }
    }
  }

  lemma ClampKeepsLevel(v: Vec3, maxLength: real, f: FloatOps)
    requires Sound(f) && v.y == 0.0
    ensures ClampMagnitude(v, maxLength, f).y == 0.0
  {
    NormalizeFacts(f, v);
  }

  /** The velocity change of one step never exceeds `accel * dt`. */
  lemma AccelerateTowardBounded(v: Vec3, target: Vec3, accel: real, maxSpeed: real, dt: PosReal, f: FloatOps)
    requires Sound(f) && 0.0 <= accel
    ensures var a := accel * dt;
            SqrMagnitude(Scale(AccelerateToward(v, target, accel, maxSpeed, dt, f), dt)) <= a * a
  {
    var cur := Planar(v);
    var tgt := ClampMagnitude(Vec3(target.x, 0.0, target.z), maxSpeed, f);
    var delta := Sub(tgt, cur);
    MulNonneg(accel, dt);
    DivScale(ClampMagnitude(delta, accel * dt, f), dt);
    ClampMagnitudeBound(delta, accel * dt, f);
  }

  /** When the clamped target is within `accel * dt` of the planar velocity, one step lands on it
      exactly. */
  lemma AccelerateTowardReaches(v: Vec3, target: Vec3, accel: real, maxSpeed: real, dt: PosReal, f: FloatOps)
    requires Sound(f)
    requires var tgt := ClampMagnitude(Vec3(target.x, 0.0, target.z), maxSpeed, f);
             var a := accel * dt;
             SqrMagnitude(Sub(tgt, Planar(v))) <= a * a
    ensures Add(Planar(v), Scale(AccelerateToward(v, target, accel, maxSpeed, dt, f), dt))
              == ClampMagnitude(Vec3(target.x, 0.0, target.z), maxSpeed, f)
  {
    var cur := Planar(v);
    var tgt := ClampMagnitude(Vec3(target.x, 0.0, target.z), maxSpeed, f);
    var delta := Sub(tgt, cur);
    assert ClampMagnitude(delta, accel * dt, f) == delta;
    DivScale(delta, dt);
  }

  /** ApplyPlanarFriction: an acceleration against the planar velocity. */
  function PlanarFriction(v: Vec3, strength: real): (r: Vec3)
    ensures r == Scale(Vec3(-v.x, 0.0, -v.z), strength)
  {
    ProjectOnUpPlane(v);
    Scale(Neg(Planar(v)), strength)
  }

  /** Friction never accelerates: it points against the planar velocity. */
  lemma PlanarFrictionOpposes(v: Vec3, strength: real)
    requires 0.0 <= strength
    ensures Dot(PlanarFriction(v, strength), v) <= 0.0
  {
    SquareNonneg(v.x);
    SquareNonneg(v.z);
    assert Dot(PlanarFriction(v, strength), v) == -strength * (v.x * v.x + v.z * v.z);
    MulNonneg(strength, v.x * v.x + v.z * v.z);
  }

  /** GetWishOnPlane: the stick direction in the body's frame, projected on the plane and
      normalized. */
  function WishOnPlane(m: Motor, w: World, planeNormal: Vec3): Vec3 {
    var wish := Add(Scale(w.forward, m.moveInput.y), Scale(w.right, m.moveInput.x));
    w.f.normalize(ProjectOnPlane(wish, planeNormal))
  }

  /** The wish direction has length one or zero; in the air it is horizontal. */
  lemma WishOnPlaneFacts(m: Motor, w: World, planeNormal: Vec3)
    requires Sound(w.f)
    ensures UnitOrZero(WishOnPlane(m, w, planeNormal))
    ensures planeNormal == Up ==> WishOnPlane(m, w, planeNormal).y == 0.0
    ensures var d := ProjectOnPlane(Add(Scale(w.forward, m.moveInput.y), Scale(w.right, m.moveInput.x)), planeNormal);
            var n := WishOnPlane(m, w, planeNormal);
            && (SqrMagnitude(d) > NormalizeEpsilon * NormalizeEpsilon ==>
                  SqrMagnitude(n) == 1.0 && 0.0 < Dot(n, d) && Scale(n, Dot(n, d)) == d)
            && (SqrMagnitude(d) <= NormalizeEpsilon * NormalizeEpsilon ==> n == Zero)
  {
    var wish := Add(Scale(w.forward, m.moveInput.y), Scale(w.right, m.moveInput.x));
    NormalizeFacts(w.f, ProjectOnPlane(wish, planeNormal));
    ProjectOnUpPlane(wish);
  }

  /** Whether a list of requests holds a jump, the only velocity change the motor requests. */
  predicate HasJump(fs: seq<Force>) {
    exists i | 0 <= i < |fs| :: fs[i].VelocityChange?
  }

  lemma HasJumpConcat(a: seq<Force>, b: seq<Force>)
    ensures HasJump(a + b) <==> HasJump(a) || HasJump(b)
  {
    if HasJump(a) {
      var i :| 0 <= i < |a| && a[i].VelocityChange?;
      assert (a + b)[i] == a[i];
    }
    if HasJump(b) {
      var i :| 0 <= i < |b| && b[i].VelocityChange?;
      assert (a + b)[|a| + i] == b[i];
    }
    if HasJump(a + b) {
      var i :| 0 <= i < |a + b| && (a + b)[i].VelocityChange?;
      if i < |a| { assert a[i] == (a + b)[i]; } else { assert b[i - |a|] == (a + b)[i]; }
    }
  }

  function AddForce(fr: Frame, force: Force): (r: Frame)
    ensures r.m == fr.m && r.events == fr.events && r.forces == fr.forces + [force]
    ensures HasJump(r.forces) <==> HasJump(fr.forces) || force.VelocityChange?
  {
    HasJumpConcat(fr.forces, [force]);
    assert HasJump([force]) <==> force.VelocityChange? by {
      assert [force][0] == force;
    }
    fr.(forces := fr.forces + [force])
  }

  /** GroundMove: accelerate toward the wish on the ground plane at MoveSpeed, then planar
      friction 5. */
  function GroundMove(fr: Frame, w: World): (r: Frame)
    requires Sound(w.f)
    ensures r.m == fr.m && r.events == fr.events && |r.forces| == |fr.forces| + 2
    ensures HasJump(r.forces) == HasJump(fr.forces)
  {
    var c := fr.m.config;
    var v := fr.m.body.velocity;
    var wish := Scale(WishOnPlane(fr.m, w, fr.m.groundNormal), c.moveSpeed);
    var fr1 := AddForce(fr, Accel(AccelerateToward(v, wish, c.accel, c.maxGroundSpeed, w.dt, w.f)));
    AddForce(fr1, Accel(PlanarFriction(v, 5.0)))
  }

  /** AirMove: accelerate toward the horizontal wish at MaxAirSpeed; no friction. */
  function AirMove(fr: Frame, w: World): (r: Frame)
    requires Sound(w.f)
    ensures r.m == fr.m && r.events == fr.events && |r.forces| == |fr.forces| + 1
    ensures HasJump(r.forces) == HasJump(fr.forces)
  {
    var c := fr.m.config;
    var wish := Scale(WishOnPlane(fr.m, w, Up), c.maxAirSpeed);
    AddForce(fr, Accel(AccelerateToward(fr.m.body.velocity, wish, c.airAccel, c.maxAirSpeed, w.dt, w.f)))
  }

  /** The body's speed, Vector3.magnitude. */
  function Speed(v: Vec3, f: FloatOps): real {
    Magnitude(v, f)
  }

  /** The slide height: 70% of the way from standing to crawling. */
  function SlideHeight(c: MovementConfig): real {
    Lerp(c.standHeight, c.crawlHeight, 0.7)
  }

  /** The two slide forces: friction against the velocity along the ground, and gravity's
      share along the ground; both stay in the ground plane. */
  lemma SlideForcesFacts(v: Vec3, n: Vec3, gravity: Vec3, friction: real)
    ensures 0.0 <= friction ==> Dot(Scale(Neg(ProjectOnPlane(v, n)), friction), ProjectOnPlane(v, n)) <= 0.0
    ensures Epsilon <= Dot(n, n) ==>
              && Dot(Scale(Neg(ProjectOnPlane(v, n)), friction), n) == 0.0
              && Dot(ProjectOnPlane(gravity, n), n) == 0.0
  {
    var pv := ProjectOnPlane(v, n);
    if 0.0 <= friction {
      OpposedScaleAgainst(pv, friction);
    }
    if Epsilon <= Dot(n, n) {
      ProjectOnPlaneOrthogonal(v, n);
      ProjectOnPlaneOrthogonal(gravity, n);
      assert Dot(Scale(Neg(pv), friction), n) == -friction * Dot(pv, n);
    }
  }

  /** SlideMove: shrink to the slide height, decelerate along the ground plane, let gravity pull
      along it, and turn into a crawl below 1.2 times the crawl speed. */
  function SlideMove(fr: Frame, w: World): (r: Frame)
    ensures var m1 := SetHeight(fr.m, SlideHeight(fr.m.config), false);
            && r.m.capsule == m1.capsule && r.m.body == m1.body
            && (Speed(fr.m.body.velocity, w.f) < fr.m.config.crawlSpeed * 1.2 ==> r.m.state == Crawl)
            && (!(Speed(fr.m.body.velocity, w.f) < fr.m.config.crawlSpeed * 1.2) ==> r.m.state == fr.m.state)
    ensures r.m == fr.m.(capsule := r.m.capsule, body := r.m.body, state := r.m.state)
    ensures HasJump(r.forces) == HasJump(fr.forces)
    ensures |r.forces| == |fr.forces| + 2 && r.forces[..|fr.forces|] == fr.forces
    ensures r.forces[|fr.forces|].Accel? && r.forces[|fr.forces| + 1].Accel?
    ensures 0.0 <= fr.m.config.slideFriction ==>
              Dot(r.forces[|fr.forces|].v, ProjectOnPlane(fr.m.body.velocity, fr.m.groundNormal)) <= 0.0
    ensures Epsilon <= Dot(fr.m.groundNormal, fr.m.groundNormal) ==>
              && Dot(r.forces[|fr.forces|].v, fr.m.groundNormal) == 0.0
              && Dot(r.forces[|fr.forces| + 1].v, fr.m.groundNormal) == 0.0
  {
    var c := fr.m.config;
    var fr1 := fr.(m := SetHeight(fr.m, SlideHeight(c), false));
    var v := fr1.m.body.velocity;
    var n := fr1.m.groundNormal;
    var friction := Scale(Neg(ProjectOnPlane(v, n)), c.slideFriction);
    var pull := ProjectOnPlane(w.gravity, n);
    SlideForcesFacts(v, n, w.gravity, c.slideFriction);
    var fr2 := AddForce(fr1, Accel(friction));
    var fr3 := AddForce(fr2, Accel(pull));
    assert fr3.forces == fr.forces + [Accel(friction), Accel(pull)];
    if Speed(v, w.f) < c.crawlSpeed * 1.2 then SwitchState(fr3, Crawl) else fr3
  }

  /** CrawlMove: shrink to the crawl height, accelerate at 60% of Accel toward the wish at
      CrawlSpeed, then planar friction 6. */
  function CrawlMove(fr: Frame, w: World): (r: Frame)
    requires Sound(w.f)
    ensures var m1 := SetHeight(fr.m, fr.m.config.crawlHeight, false);
            r.m == m1 && r.events == fr.events
    ensures HasJump(r.forces) == HasJump(fr.forces)
  {
    var c := fr.m.config;
    var fr1 := fr.(m := SetHeight(fr.m, c.crawlHeight, false));
    var v := fr1.m.body.velocity;
    var wish := Scale(WishOnPlane(fr1.m, w, fr1.m.groundNormal), c.crawlSpeed);
    var fr2 := AddForce(fr1, Accel(AccelerateToward(v, wish, c.accel * 0.6, c.crawlSpeed, w.dt, w.f)));
    AddForce(fr2, Accel(PlanarFriction(v, 6.0)))
  }

  // ---------------------------------------------------------------------------------------
  // Jump

  /** The jump gate: a press inside the buffer window and ground inside the coyote window. */
  predicate JumpReady(m: Motor, now: real) {
    now - m.lastJumpPressed <= m.config.jumpBuffer && now - m.lastGrounded <= m.config.coyoteTime
  }
  /** The jump gate only closes as time passes: open at some time, it was open at every
      earlier time. */
  lemma JumpWindowCloses(m: Motor, t1: real, t2: real)
    requires t1 <= t2 && JumpReady(m, t2)
    ensures JumpReady(m, t1)
  {
  }

  /** The take-off speed that reaches JumpHeight under gravity: sqrt(2 |g.y| h). */
  function JumpSpeed(c: MovementConfig, w: World): real {
    w.f.sqrt(2.0 * Abs(w.gravity.y) * c.jumpHeight)
  }

  /** TryJump: when the gate is open, consume the press, stop any fall, request the take-off
      velocity change and switch to Air. Otherwise nothing. */
  function TryJump(fr: Frame, w: World): (r: Frame)
    ensures !JumpReady(fr.m, w.now) ==> r == fr
    ensures JumpReady(fr.m, w.now) ==>
              var v := fr.m.body.velocity;
              && r.m.lastJumpPressed == NoJumpPress
              && r.m.body.velocity == Vec3(v.x, Max(v.y, 0.0), v.z)
              && r.forces == fr.forces + [VelocityChange(Scale(Up, JumpSpeed(fr.m.config, w)))]
              && r.m.state == Air
              && r.m == fr.m.(lastJumpPressed := NoJumpPress, body := r.m.body, state := Air)
    ensures HasJump(r.forces) <==> HasJump(fr.forces) || JumpReady(fr.m, w.now)
    ensures r.m.body.position == fr.m.body.position
  {
    if !JumpReady(fr.m, w.now) then fr
    else
      var v := fr.m.body.velocity;
      var v1 := if v.y < 0.0 then v.(y := 0.0) else v;
      var m1 := fr.m.(lastJumpPressed := NoJumpPress, body := fr.m.body.(velocity := v1));
      var fr1 := AddForce(fr.(m := m1), VelocityChange(Scale(Up, JumpSpeed(fr.m.config, w))));
      SwitchState(fr1, Air)
  }

  /** A consumed press cannot fire again while the clock is past the buffer after -999. */
  lemma JumpConsumed(fr: Frame, w: World, later: real)
    requires JumpReady(fr.m, w.now)
    requires later - NoJumpPress > fr.m.config.jumpBuffer
    ensures !JumpReady(TryJump(fr, w).m, later)
  {
  }

  // ---------------------------------------------------------------------------------------
  // The tick

  /** The state-dependent part of FixedUpdate: the move of the state, then its transitions. */
  function StateStep(fr: Frame, w: World): (r: Frame)
    requires Sound(w.f)
    ensures var fired := fr.m.state == Grounded && JumpReady(fr.m, w.now);
            && (HasJump(r.forces) <==> HasJump(fr.forces) || fired)
            && r.m.lastJumpPressed == (if fired then NoJumpPress else fr.m.lastJumpPressed)
    ensures r.m.config == fr.m.config && r.m.lastGrounded == fr.m.lastGrounded
    ensures PivotLessHalfHeight(r.m) == PivotLessHalfHeight(fr.m)
  {
    var m := fr.m;
    match m.state
    case Grounded =>
      var fr1 := TryJump(GroundMove(fr, w), w);
      var fast := Speed(fr1.m.body.velocity, w.f) > m.config.slideMinSpeed;
      var fr2 := if m.crouchHeld && fast then SwitchState(fr1, Slide)
                 else if m.crouchHeld then SwitchState(fr1, Crawl)
                 else fr1;
      if !m.isGrounded then SwitchState(fr2, Air) else fr2
    case Air =>
      var fr1 := AirMove(fr, w);
      if m.isGrounded then SwitchState(fr1, Grounded) else fr1
    case Slide =>
      var fr1 := SlideMove(fr, w);
      if !m.crouchHeld then SwitchState(fr1, if m.isGrounded then Grounded else Air) else fr1
    case Crawl =>
      var fr1 := CrawlMove(fr, w);
      var canStand := CanStandUp(m, w);
      var fr2 := if !m.crouchHeld && canStand then SwitchState(fr1, if m.isGrounded then Grounded else Air) else fr1;
      if !m.isGrounded then SwitchState(fr2, Air) else fr2
  }

  /** CanStandUp: nothing above the crawling capsule over the extra height of standing plus
      0.05, cast with 95% of the radius. The cast starts from the position at the start of the
      tick: a position written to the rigidbody during the tick reaches the transform only in
      the physics step. */
  function CanStandUp(m: Motor, w: World): bool {
    var c := m.config;
    var p := Add(m.body.position, Scale(Up, c.crawlHeight * 0.5));
    !w.capsuleCastUp(p, m.capsule.radius * 0.95, (c.standHeight - c.crawlHeight) + 0.05)
  }
  /** The stand-up probe sweeps a sphere of 0.95 times the capsule radius up from half the
      crawl height above the pivot, to 0.05 beyond the extra height standing needs. */
  lemma CanStandUpProbe(m: Motor, w: World)
    ensures var start := Add(m.body.position, Scale(Up, m.config.crawlHeight * 0.5));
            var reach := (m.config.standHeight - m.config.crawlHeight) + 0.05;
            && start.y + reach == m.body.position.y + m.config.standHeight - m.config.crawlHeight * 0.5 + 0.05
            && start.x == m.body.position.x && start.z == m.body.position.z
            && (CanStandUp(m, w) <==> !w.capsuleCastUp(start, m.capsule.radius * 0.95, reach))
  {
  }

  /** The result of one FixedUpdate. */
  datatype Tick = Tick(m: Motor, forces: seq<Force>, events: seq<MotorState>)

  /** Whether the jump of a tick fires: the body was in Grounded and, after the ground check,
      the jump gate is open. */
  predicate JumpFires(m: Motor, w: World) {
    m.state == Grounded && JumpReady(UpdateGround(m, w), w.now)
  }
  /** A jump fires only from Grounded, with the press inside the buffer window of the tick's
      time and the body either on ground now or inside the coyote window of its last contact. */
  lemma JumpFiresWindows(m: Motor, w: World)
    requires JumpFires(m, w)
    ensures m.state == Grounded
    ensures w.now - m.lastJumpPressed <= m.config.jumpBuffer
    ensures UpdateGround(m, w).isGrounded || w.now - m.lastGrounded <= m.config.coyoteTime
  {
  }

  /** FixedUpdate: ground classification, hover spring, the state's move and transitions, then
      the height blend. A jump is requested exactly when it fires, and only then is the press
      consumed; the pivot less half the height is kept; the config and the grounded time survive
      the tick. */
  function FixedUpdate(m: Motor, w: World): (r: Tick)
    requires Sound(w.f)
    ensures HasJump(r.forces) <==> JumpFires(m, w)
    ensures r.m.lastJumpPressed == (if JumpFires(m, w) then NoJumpPress else m.lastJumpPressed)
    ensures r.m.lastGrounded == UpdateGround(m, w).lastGrounded
    ensures r.m.config == m.config
    ensures PivotLessHalfHeight(r.m) == PivotLessHalfHeight(m)
  {
    var m1 := UpdateGround(m, w);
    assert m1.state == m.state && m1.lastJumpPressed == m.lastJumpPressed;
    var fr := Frame(m1, HoverSpring(m1, w), []);
    var fr1 := StateStep(fr, w);
    assert HasJump(fr1.forces) <==> JumpFires(m, w);
    Tick(UpdateHeight(fr1.m, w), fr1.forces, fr1.events)
  }

  lemma TryJumpChains(s0: MotorState, fr: Frame, w: World)
    requires EventChain(s0, fr.events, fr.m.state)
    ensures EventChain(s0, TryJump(fr, w).events, TryJump(fr, w).m.state)
  {
    if JumpReady(fr.m, w.now) {
      var v := fr.m.body.velocity;
      var v1 := if v.y < 0.0 then v.(y := 0.0) else v;
      var m1 := fr.m.(lastJumpPressed := NoJumpPress, body := fr.m.body.(velocity := v1));
      var fr1 := AddForce(fr.(m := m1), VelocityChange(Scale(Up, JumpSpeed(fr.m.config, w))));
      SwitchStateChains(s0, fr1, Air);
    }
  }

  lemma SlideMoveChains(s0: MotorState, fr: Frame, w: World)
    requires EventChain(s0, fr.events, fr.m.state)
    ensures EventChain(s0, SlideMove(fr, w).events, SlideMove(fr, w).m.state)
  {
    var c := fr.m.config;
    var fr1 := fr.(m := SetHeight(fr.m, SlideHeight(c), false));
    var v := fr1.m.body.velocity;
    var n := fr1.m.groundNormal;
    var fr2 := AddForce(fr1, Accel(Scale(Neg(ProjectOnPlane(v, n)), c.slideFriction)));
    var fr3 := AddForce(fr2, Accel(ProjectOnPlane(w.gravity, n)));
    SwitchStateChains(s0, fr3, Crawl);
  }

  lemma GroundedStepChains(fr: Frame, w: World)
    requires Sound(w.f) && fr.m.state == Grounded && fr.events == []
    ensures EventChain(Grounded, StateStep(fr, w).events, StateStep(fr, w).m.state)
  {
    var m := fr.m;
    var fr0 := GroundMove(fr, w);
    TryJumpChains(Grounded, fr0, w);
    var fr1 := TryJump(fr0, w);
    var fast := Speed(fr1.m.body.velocity, w.f) > m.config.slideMinSpeed;
    SwitchStateChains(Grounded, fr1, Slide);
    SwitchStateChains(Grounded, fr1, Crawl);
    var fr2 := if m.crouchHeld && fast then SwitchState(fr1, Slide)
               else if m.crouchHeld then SwitchState(fr1, Crawl)
               else fr1;
    SwitchStateChains(Grounded, fr2, Air);
  }

  lemma AirStepChains(fr: Frame, w: World)
    requires Sound(w.f) && fr.m.state == Air && fr.events == []
    ensures EventChain(Air, StateStep(fr, w).events, StateStep(fr, w).m.state)
  {
    SwitchStateChains(Air, AirMove(fr, w), Grounded);
  }

  lemma SlideStepChains(fr: Frame, w: World)
    requires Sound(w.f) && fr.m.state == Slide && fr.events == []
    ensures EventChain(Slide, StateStep(fr, w).events, StateStep(fr, w).m.state)
  {
    SlideMoveChains(Slide, fr, w);
    SwitchStateChains(Slide, SlideMove(fr, w), if fr.m.isGrounded then Grounded else Air);
  }

  lemma CrawlStepChains(fr: Frame, w: World)
    requires Sound(w.f) && fr.m.state == Crawl && fr.events == []
    ensures EventChain(Crawl, StateStep(fr, w).events, StateStep(fr, w).m.state)
  {
    var m := fr.m;
    var fr1 := CrawlMove(fr, w);
    SwitchStateChains(Crawl, fr1, if m.isGrounded then Grounded else Air);
    var fr2 := if !m.crouchHeld && CanStandUp(m, w) then SwitchState(fr1, if m.isGrounded then Grounded else Air) else fr1;
    SwitchStateChains(Crawl, fr2, Air);
  }

  /** The events of a tick form a chain of real changes from the state before the tick to the
      state after it: none when the state ends where it began, each event differs from the state
      before it, and the last is the final state. */
  lemma FixedUpdateEventChain(m: Motor, w: World)
    requires Sound(w.f)
    ensures EventChain(m.state, FixedUpdate(m, w).events, FixedUpdate(m, w).m.state)
  {
    var g := UpdateGround(m, w);
    var fr := Frame(g, HoverSpring(g, w), []);
    match m.state
    case Grounded => GroundedStepChains(fr, w);
    case Air => AirStepChains(fr, w);
    case Slide => SlideStepChains(fr, w);
    case Crawl => CrawlStepChains(fr, w);
  }

  // ---------------------------------------------------------------------------------------
  // Reference transition table

  /** The state after a tick as a table, from the state at the start of the tick, the ground
      flag, the crouch key, whether the jump gate was open, whether the speed (after a jump's
      fall stop) exceeds SlideMinSpeed, whether the speed is under 1.2 CrawlSpeed, and whether
      there is room to stand. */
  function NextState(s: MotorState, grounded: bool, crouch: bool, jumped: bool, fast: bool, slow: bool,
                     canStand: bool): MotorState {
    match s
    case Grounded =>
      if !grounded then Air
      else if crouch && fast then Slide
      else if crouch then Crawl
      else if jumped then Air
      else Grounded
    case Air => if grounded then Grounded else Air
    case Slide =>
      if !crouch then (if grounded then Grounded else Air)
      else if slow then Crawl
      else Slide
    case Crawl =>
      if !grounded then Air
      else if !crouch && canStand then Grounded
      else Crawl
  }
  /** Where each state can be entered from: the air only lands in Grounded; Slide is entered
      only from Grounded (or kept); a body that is not on ground leaves Grounded and Crawl for
      Air, while a held slide ignores the ground. */
  lemma NextStateEntries(s: MotorState, grounded: bool, crouch: bool, jumped: bool, fast: bool,
                         slow: bool, canStand: bool)
    ensures var n := NextState(s, grounded, crouch, jumped, fast, slow, canStand);
            && (s == Air ==> n == (if grounded then Grounded else Air))
            && (n == Slide ==> s == Grounded || s == Slide)
            && (n == Crawl ==> s != Air)
            && (!grounded && (s == Grounded || s == Crawl) ==> n == Air)
            && (s == Slide && crouch ==> n == Slide || n == Crawl)
  {
  }

  /** The velocity the slide test of a Grounded tick sees: after a fired jump, falling is
      stopped. */
  function VelocityAfterJump(m: Motor, now: real): Vec3 {
    var v := m.body.velocity;
    if JumpReady(m, now) then Vec3(v.x, Max(v.y, 0.0), v.z) else v
  }

  /** One tick moves the state exactly as the table says. */
  lemma FixedUpdateFollowsTable(m: Motor, w: World)
    requires Sound(w.f)
    ensures var g := UpdateGround(m, w);
            FixedUpdate(m, w).m.state
              == NextState(m.state, g.isGrounded, m.crouchHeld, JumpReady(g, w.now),
                           Speed(VelocityAfterJump(g, w.now), w.f) > m.config.slideMinSpeed,
                           Speed(g.body.velocity, w.f) < m.config.crawlSpeed * 1.2,
                           CanStandUp(g, w))
  {
    var g := UpdateGround(m, w);
    StateStepFollowsTable(Frame(g, HoverSpring(g, w), []), w);
  }

  /** The state step of one tick, on any frame, moves the state as the table says. */
  lemma StateStepFollowsTable(fr: Frame, w: World)
    requires Sound(w.f)
    ensures var m := fr.m;
            StateStep(fr, w).m.state
              == NextState(m.state, m.isGrounded, m.crouchHeld, JumpReady(m, w.now),
                           Speed(VelocityAfterJump(m, w.now), w.f) > m.config.slideMinSpeed,
                           Speed(m.body.velocity, w.f) < m.config.crawlSpeed * 1.2,
                           CanStandUp(m, w))
  {
    match fr.m.state
    case Grounded =>
      var fr1 := TryJump(GroundMove(fr, w), w);
      assert fr1.m.body.velocity == VelocityAfterJump(fr.m, w.now);
    case Air =>
    case Slide =>
      var fr1 := SlideMove(fr, w);
      assert fr1.m.state == (if Speed(fr.m.body.velocity, w.f) < fr.m.config.crawlSpeed * 1.2 then Crawl else Slide);
    case Crawl =>
  }

  // ---------------------------------------------------------------------------------------
  // Start-up and command runs

  /** The fields before Awake: the first enum state (Grounded), no input, the ground normal up,
      and the clock stamps at their default of zero. */
  function Spawned(c: MovementConfig, body: Body, capsule: Capsule): Motor {
    Motor(c, Grounded, body, capsule, Zero2, false, false, 0.0, 0.0, Up, false)
  }

  /** Awake as written: force the stand height and switch to Air, leaving the press stamp at
      zero, which the jump gate reads as a press at time zero. */
  function AwakeAsWritten(c: MovementConfig, body: Body, capsule: Capsule): (r: Frame)
    ensures r.m.state == Air && r.events == [Air] && r.forces == []
    ensures r.m.capsule.height == c.standHeight && r.m.config == c
    ensures r.m.lastJumpPressed == 0.0
  {
    var m := SetHeight(Spawned(c, body, capsule), c.standHeight, true);
    SwitchState(Frame(m, [], []), Air)
  }

  /** Awake, with the press stamp starting at the value a consumed press leaves, so that no jump
      is buffered before the first press. */
  function Awake(c: MovementConfig, body: Body, capsule: Capsule): (r: Frame)
    ensures r.m.state == Air && r.events == [Air] && r.forces == []
    ensures r.m.capsule.height == c.standHeight
    ensures PivotLessHalfHeight(r.m) == PivotLessHalfHeight(Spawned(c, body, capsule))
    ensures r.m.lastJumpPressed == NoJumpPress
  {
    var m := SetHeight(Spawned(c, body, capsule), c.standHeight, true);
    SwitchState(Frame(m.(lastJumpPressed := NoJumpPress), [], []), Air)
  }

  /** What reaches the motor from outside: physics ticks and the input setters. */
  datatype Command =
    | Step(w: World)
    | Move(v: Vec2, f: FloatOps)
    | Crouch(held: bool)
    | Jump(pressed: bool, now: real)

  ghost predicate Admissible(c: Command) {
    match c
    case Step(w) => Sound(w.f)
    case Move(_, f) => Sound(f)
    case _ => true
  }

  /** One command: the motor after it, and the forces and events it produced. */
  function Apply(m: Motor, c: Command): (r: Tick)
    requires Admissible(c)
    ensures r.m.config == m.config
  {
    match c
    case Step(w) => FixedUpdate(m, w)
    case Move(v, f) => Tick(SetMoveInput(m, v, f), [], [])
    case Crouch(held) => Tick(SetCrouch(m, held), [], [])
    case Jump(pressed, now) => Tick(SetJump(m, pressed, now), [], [])
  }

  /** A run of commands: the final motor, with all forces and events in order. */
  function Run(m: Motor, cmds: seq<Command>): (r: Tick)
    requires forall i | 0 <= i < |cmds| :: Admissible(cmds[i])
    decreases |cmds|
  {
    if |cmds| == 0 then Tick(m, [], [])
    else
      var t := Apply(m, cmds[0]);
      var rest := Run(t.m, cmds[1..]);
      Tick(rest.m, t.forces + rest.forces, t.events + rest.events)
  }

  /** No jump press in a run, and every tick at a non-negative time. */
  predicate Unpressed(cmds: seq<Command>) {
    forall i | 0 <= i < |cmds| ::
      && !(cmds[i].Jump? && cmds[i].pressed)
      && (cmds[i].Step? ==> 0.0 <= cmds[i].w.now)
  }

  /** One command without a press keeps the consumed press stamp and requests no jump. */
  lemma ApplyUnpressed(m: Motor, c: Command)
    requires Admissible(c)
    requires m.lastJumpPressed == NoJumpPress && m.config.jumpBuffer < 999.0
    requires !(c.Jump? && c.pressed) && (c.Step? ==> 0.0 <= c.w.now)
    ensures Apply(m, c).m.lastJumpPressed == NoJumpPress && !HasJump(Apply(m, c).forces)
  {
    if c.Step? {
      assert UpdateGround(m, c.w).lastJumpPressed == NoJumpPress;
      assert !JumpFires(m, c.w);
    }
  }

  lemma UnpressedTail(cmds: seq<Command>)
    requires |cmds| > 0 && Unpressed(cmds)
    ensures Unpressed(cmds[1..])
  {
    forall i | 0 <= i < |cmds[1..]|
      ensures !(cmds[1..][i].Jump? && cmds[1..][i].pressed) && (cmds[1..][i].Step? ==> 0.0 <= cmds[1..][i].w.now)
    {
      assert cmds[1..][i] == cmds[i + 1];
    }
  }

  /** Once the press stamp holds the consumed value, a run without a press never jumps, as
      long as the buffer is shorter than 999 seconds. */
  lemma {:induction false} UnpressedRunNeverJumps(m: Motor, cmds: seq<Command>)
    requires forall i | 0 <= i < |cmds| :: Admissible(cmds[i])
    requires m.lastJumpPressed == NoJumpPress && m.config.jumpBuffer < 999.0
    requires Unpressed(cmds)
    ensures !HasJump(Run(m, cmds).forces)
    decreases |cmds|
  {
    if |cmds| > 0 {
      ApplyUnpressed(m, cmds[0]);
      var t := Apply(m, cmds[0]);
      assert forall i | 0 <= i < |cmds[1..]| :: Admissible(cmds[1..][i]) by {
        forall i | 0 <= i < |cmds[1..]| ensures Admissible(cmds[1..][i]) { assert cmds[1..][i] == cmds[i + 1]; }
      }
      UnpressedTail(cmds);
      UnpressedRunNeverJumps(t.m, cmds[1..]);
      HasJumpConcat(t.forces, Run(t.m, cmds[1..]).forces);
    }
  }

  /** With the corrected Awake, a player that never presses jump never jumps. */
  lemma AwakeNeverJumpsUnpressed(c: MovementConfig, body: Body, capsule: Capsule, cmds: seq<Command>)
    requires forall i | 0 <= i < |cmds| :: Admissible(cmds[i])
    requires c.jumpBuffer < 999.0 && Unpressed(cmds)
    ensures !HasJump(Run(Awake(c, body, capsule).m, cmds).forces)
  {
    UnpressedRunNeverJumps(Awake(c, body, capsule).m, cmds);
  }

  /** Flat ground under the ride height at time `now`, 50 Hz ticks, standard gravity. */
  function FlatWorld(now: real, f: FloatOps): World {
    World(now, 0.02, Vec3(0.0, -9.81, 0.0), Vec3(0.0, 0.0, 1.0), Vec3(1.0, 0.0, 0.0),
      (radius: real, dist: real) => [GroundHit(Up)],
      (dist: real) => Some(SpringHit(0.9, Up, Zero, None)),
      (origin: Vec3, radius: real, dist: real) => false,
      (n: Vec3) => 0.0,
      f)
  }

  lemma FlatWorldGrounds(m: Motor, now: real, f: FloatOps)
    requires m.config.maxSlopeAngle >= 0.0
    ensures UpdateGround(m, FlatWorld(now, f)).isGrounded
    ensures UpdateGround(m, FlatWorld(now, f)).lastGrounded == now
  {
    var w := FlatWorld(now, f);
    var hits := BufferedHits(w.sphereCast(m.config.groundCheckRadius, m.config.rideHeight + 0.6));
    assert hits == [GroundHit(Up)];
    assert w.angleToUp(hits[0].normal) == 0.0;
  }

  /** On flat ground a body in the air lands: the tick ends in Grounded with the grounded time
      stamped, and the press stamp untouched. */
  lemma FlatWorldLands(m: Motor, now: real, f: FloatOps)
    requires Sound(f) && m.state == Air && m.config.maxSlopeAngle >= 0.0
    ensures var t := FixedUpdate(m, FlatWorld(now, f));
            && t.m.state == Grounded && t.m.lastGrounded == now
            && t.m.lastJumpPressed == m.lastJumpPressed && t.m.config == m.config
  {
    FlatWorldGrounds(m, now, f);
    FixedUpdateFollowsTable(m, FlatWorld(now, f));
  }

  /** On flat ground a grounded body jumps whenever the press stamp is inside the buffer. */
  lemma FlatWorldJumps(m: Motor, now: real, f: FloatOps)
    requires Sound(f) && m.state == Grounded && m.config.maxSlopeAngle >= 0.0
    requires now - m.lastJumpPressed <= m.config.jumpBuffer && 0.0 <= m.config.coyoteTime
    ensures HasJump(FixedUpdate(m, FlatWorld(now, f)).forces)
  {
    FlatWorldGrounds(m, now, f);
    assert JumpFires(m, FlatWorld(now, f));
  }

  lemma RunCons(m: Motor, cmds: seq<Command>)
    requires |cmds| > 0 && forall i | 0 <= i < |cmds| :: Admissible(cmds[i])
    ensures Run(m, cmds).forces == Apply(m, cmds[0]).forces + Run(Apply(m, cmds[0]).m, cmds[1..]).forces
  {
  }

  lemma RunOne(m: Motor, c: Command)
    requires Admissible(c)
    ensures Run(m, [c]).forces == Apply(m, c).forces
  {
    assert [c][1..] == [];
    assert Apply(m, c).forces + [] == Apply(m, c).forces;
  }

  lemma RunTwoSteps(m: Motor, w1: World, w2: World)
    requires Sound(w1.f) && Sound(w2.f)
    ensures Run(m, [Step(w1), Step(w2)]).forces == FixedUpdate(m, w1).forces + FixedUpdate(FixedUpdate(m, w1).m, w2).forces
  {
    var cmds := [Step(w1), Step(w2)];
    RunCons(m, cmds);
    assert cmds[1..] == [Step(w2)];
    RunOne(Apply(m, Step(w1)).m, Step(w2));
  }

  /** A body in the air over flat ground whose press stamp is within the jump buffer of both
      ticks lands on the first tick and jumps on the second. */
  lemma AirBodyJumpsOnSecondTick(m: Motor, t1: real, t2: real, f: FloatOps)
    requires Sound(f) && m.state == Air
    requires 0.0 <= m.config.maxSlopeAngle && 0.0 <= m.config.coyoteTime
    requires t2 - m.lastJumpPressed <= m.config.jumpBuffer
    ensures HasJump(Run(m, [Step(FlatWorld(t1, f)), Step(FlatWorld(t2, f))]).forces)
  {
    FlatWorldLands(m, t1, f);
    var r1 := FixedUpdate(m, FlatWorld(t1, f));
    FlatWorldJumps(r1.m, t2, f);
    RunTwoSteps(m, FlatWorld(t1, f), FlatWorld(t2, f));
    HasJumpConcat(r1.forces, FixedUpdate(r1.m, FlatWorld(t2, f)).forces);
  }

  /** With Awake as written, a player standing on flat ground jumps on its second tick without
      ever pressing jump, when the second tick falls inside the jump buffer counted from time
      zero: the first tick lands it in Grounded, the second reads the zero press stamp as a
      press. */
  lemma AwakeAsWrittenJumpsUnpressed(c: MovementConfig, body: Body, capsule: Capsule, t1: real, t2: real, f: FloatOps)
    requires Sound(f)
    requires 0.0 <= t1 && 0.0 <= t2 <= c.jumpBuffer && 0.0 <= c.coyoteTime && 0.0 <= c.maxSlopeAngle
    ensures Unpressed([Step(FlatWorld(t1, f)), Step(FlatWorld(t2, f))])
    ensures HasJump(Run(AwakeAsWritten(c, body, capsule).m, [Step(FlatWorld(t1, f)), Step(FlatWorld(t2, f))]).forces)
  {
    TwoFlatTicksUnpressed(t1, t2, f);
    var m := AwakeAsWritten(c, body, capsule).m;
    assert m.state == Air && m.lastJumpPressed == 0.0 && m.config == c;
    AirBodyJumpsOnSecondTick(m, t1, t2, f);
  }

  lemma TwoFlatTicksUnpressed(t1: real, t2: real, f: FloatOps)
    requires 0.0 <= t1 && 0.0 <= t2
    ensures Unpressed([Step(FlatWorld(t1, f)), Step(FlatWorld(t2, f))])
  {
  }

  /** The default config meets the conditions above with ticks at 0.02 and 0.04 seconds, the
      first two ticks of a scene at the default 50 Hz. */
  lemma DefaultConfigAdmitsUnpressedJump(id: nat)
    ensures var c := DefaultConfig(id);
            0.04 <= c.jumpBuffer && 0.0 <= c.coyoteTime && 0.0 <= c.maxSlopeAngle
  {
  }
}

=== FILE: rigidbody_controller.dfy ===
/** RigidbodyController: the rigidbody-driven player of the networked prototype. Each physics
    tick, on the owning client only, it sweeps its ownership-lease map, damps its velocity, applies
    a ride spring toward the ground and a movement force weighted by how well the current velocity
    agrees with the input. The lease map is the one of PlayerBodyInteractor, fed by collision
    events instead of trigger events and with a fixed grace period. */
module RigidbodyController {
  import opened Wrappers
  import opened Num
  import opened Vec
  import Lease = PlayerBodyInteractor

  /** `const double OwnedTime = 0.2f`: the single-precision literal 0.2f widened to double, which
      is 13421773 / 2^26 = 0.20000000298..., not 0.2. */
  const OwnedTime: real := 13421773.0 / 67108864.0

  datatype Params = Params(
    forceAcceleration: real,   // `forceAxeleration`
    forceDamping: real,        // `forceDemping`
    rideHeight: real,
    rideSpringStrength: real,
    rideSpringDamper: real,
    dynamicMask: bv32)         // `dynamicRaycastLayer`

  /** The controller's own state: its rigidbody's velocity and its lease map. */
  datatype Rider = Rider(velocity: Vec3, leases: Lease.Leases)

  /** The rigidbody a ride ray hit, if it has one, with its velocity. */
  datatype HitBody = HitBody(id: nat, velocity: Vec3)

  /** Result of the downward ride raycast. */
  datatype RideHit = RideHit(distance: real, point: Vec3, body: Option<HitBody>)

  /** What one tick asks of the physics engine and of the network. Forces here use
      ForceMode.Force; the movement force uses ForceMode.Acceleration. */
  datatype Request =
    | Ownership(r: Lease.Request)
    | Force(v: Vec3)
    | ForceAtPoint(body: nat, v: Vec3, point: Vec3)
    | Acceleration(v: Vec3)

  /** Inputs of one FixedUpdate: the clock, the ride ray's result, the body's down direction in
      world space (transform.TransformDirection(DownDirection)), the move input, the damping
      curve and the engine's float operations. */
  datatype TickInput = TickInput(
    now: real,
    dt: PosReal,
    rideHit: Option<RideHit>,
    rayDir: Vec3,
    moveInput: Vec2,
    dampingCurve: real -> real,
    f: FloatOps)

  /** OnCollisionEnter: the trigger rules of PlayerBodyInteractor, on collisions. */
  function OnCollisionEnter(leases: Lease.Leases, c: Lease.Contact, mask: bv32, now: real): (u: Lease.Update)
    ensures Lease.Target(c, mask).None? ==> u == Lease.Update(leases, [])
    ensures Lease.Target(c, mask).Some? ==>
              var o := Lease.Target(c, mask).value;
              && (o.id !in leases && o.ownerClientId == Lease.ServerOwned ==>
                    u.leases == leases[o.id := Lease.Stamp(now, true)]
                    && u.requests == [Lease.GiveOwnership(o.id)])
              && (o.id !in leases && o.ownerClientId != Lease.ServerOwned ==> u == Lease.Update(leases, []))
              && (o.id in leases ==> u.leases == leases[o.id := Lease.Stamp(now, true)] && u.requests == [])
  {
    Lease.OnTriggerEnter(leases, c, mask, now)
  }

  /** OnCollisionExit: only a tracked object is marked out of contact. */
  function OnCollisionExit(leases: Lease.Leases, c: Lease.Contact, mask: bv32, now: real): (u: Lease.Update)
    ensures u.requests == [] && u.leases.Keys == leases.Keys
    ensures forall k | k in leases && (Lease.Target(c, mask).None? || k != Lease.Target(c, mask).value.id) ::
              u.leases[k] == leases[k]
    ensures Lease.Target(c, mask).Some? && Lease.Target(c, mask).value.id in leases ==>
              u.leases[Lease.Target(c, mask).value.id] == Lease.Stamp(now, false)
  {
    Lease.OnTriggerExit(leases, c, mask, now)
  }

  /** ProcessOwnershipMap with the fixed grace period: revoke (ReturnToServerAuth) and drop
      exactly the entries out of contact for more than OwnedTime. */
  function SweepOwnership(leases: Lease.Leases, now: real): (u: Lease.Update)
    ensures forall k :: k in u.leases <==>
              k in leases && (leases[k].inContact || now - leases[k].timestamp <= OwnedTime)
    ensures forall k | k in u.leases :: u.leases[k] == leases[k]
    ensures u.requests == [] <==> leases.Keys == u.leases.Keys
    ensures u.requests != [] ==> u.requests == [Lease.RemoveOwnership(leases.Keys - u.leases.Keys)]
  {
    var u := Lease.Sweep(leases, now, OwnedTime);
    assert Lease.ExpiredKeys(leases, now, OwnedTime) == leases.Keys - u.leases.Keys;
    u
  }

  /** The grace-period example: contact lost at t = 0.05, so the lease survives sweeps at 0.24 and
      at 0.25 (strict comparison) and is revoked by a sweep at 0.26. */
  lemma GracePeriodExample(k: nat)
    ensures var leases := map[k := Lease.Stamp(0.05, false)];
            && k in SweepOwnership(leases, 0.24).leases
            && k in SweepOwnership(leases, 0.25).leases
            && k !in SweepOwnership(leases, 0.26).leases
            && SweepOwnership(leases, 0.26).requests == [Lease.RemoveOwnership({k})]
  {
    var leases := map[k := Lease.Stamp(0.05, false)];
    assert Lease.ExpiredKeys(leases, 0.26, OwnedTime) == {k};
  }

  /** DampVelocity: `Vector3.Lerp(v, zero, forceDemping * dt)`, the factor clamped to [0, 1]. */
  function DampVelocity(v: Vec3, damping: real, dt: PosReal): (r: Vec3)
    ensures SqrMagnitude(r) <= SqrMagnitude(v)
    ensures damping * dt <= 0.0 ==> r == v
    ensures damping * dt >= 1.0 ==> r == Zero
    ensures exists f: real :: 0.0 <= f <= 1.0 && r == Scale(v, f)
    ensures r == Scale(v, 1.0 - Clamp01(damping * dt))
  {
    var t := Clamp01(damping * dt);
    var r := Vec3(Lerp(v.x, 0.0, t), Lerp(v.y, 0.0, t), Lerp(v.z, 0.0, t));
    assert r == Scale(v, 1.0 - t) by {
      assert Lerp(v.x, 0.0, t) == v.x * (1.0 - t);
      assert Lerp(v.y, 0.0, t) == v.y * (1.0 - t);
      assert Lerp(v.z, 0.0, t) == v.z * (1.0 - t);
    }
    ShrinkNoLonger(v, 1.0 - t);
    r
  }

  /** The spring force along the ray and, when the ray hit a rigidbody, the force it receives at
      the hit point. */
  datatype RideForces = RideForces(springForce: real, reaction: Option<Request>)

  /** The ride spring of AddRideForce: displacement `x = distance - rideHeight`, damping by the
      velocity along the ray relative to the hit body. */
  function RideSpring(p: Params, velocity: Vec3, hit: RideHit, rayDir: Vec3, delta: real): real {
    var otherVel := match hit.body case Some(b) => b.velocity case None => Zero;
    var relVel := Dot(rayDir, velocity) - Dot(rayDir, otherVel);
    var x := hit.distance - p.rideHeight;
    (x * p.rideSpringStrength) - (relVel * p.rideSpringDamper) * delta
  }

  /** AddRideForce: no force when the ray misses; otherwise the spring pushes the body along the
      ray and the hit body, kinematic or not, receives exactly the opposite force at the hit
      point. No clamp is applied. */
  function AddRideForce(p: Params, velocity: Vec3, hit: Option<RideHit>, rayDir: Vec3, delta: real): (r: seq<Request>)
    ensures hit.None? ==> r == []
    ensures forall i | 0 <= i < |r| :: r[i].Force? || r[i].ForceAtPoint?
    ensures hit.Some? ==> 1 <= |r| <= 2 && r[0].Force? && r[0].v == Scale(rayDir, RideSpring(p, velocity, hit.value, rayDir, delta))
    ensures hit.Some? ==> (|r| == 2 <==> hit.value.body.Some?)
    ensures |r| == 2 ==> r[1] == ForceAtPoint(hit.value.body.value.id, Neg(r[0].v), hit.value.point)
  {
    match hit
    case None => []
    case Some(h) =>
      var s := RideSpring(p, velocity, h, rayDir, delta);
      var own := Force(Scale(rayDir, s));
      match h.body
      case None => [own]
      case Some(b) => [own, ForceAtPoint(b.id, Neg(own.v), h.point)]
  }

  /** Hooke's law at rest: with no relative velocity along the ray the spring force is the
      displacement times the strength, whatever the tick length. */
  lemma RideSpringAtRest(p: Params, velocity: Vec3, hit: RideHit, rayDir: Vec3, delta: real)
    requires hit.body.None? ==> Dot(rayDir, velocity) == 0.0
    requires hit.body.Some? ==> Dot(rayDir, velocity) == Dot(rayDir, hit.body.value.velocity)
    ensures RideSpring(p, velocity, hit, rayDir, delta) == (hit.distance - p.rideHeight) * p.rideSpringStrength
  {
  }

  /** Only the damping term is scaled by the tick length: changing `delta` moves the force by
      the damping term alone. */
  lemma RideSpringDeltaScalesDampingOnly(p: Params, velocity: Vec3, hit: RideHit, rayDir: Vec3, d1: real, d2: real)
    ensures var otherVel := match hit.body case Some(b) => b.velocity case None => Zero;
            var relVel := Dot(rayDir, velocity) - Dot(rayDir, otherVel);
            RideSpring(p, velocity, hit, rayDir, d1) - RideSpring(p, velocity, hit, rayDir, d2)
              == (relVel * p.rideSpringDamper) * (d2 - d1)
  {
  }

  /** The weighting of two planar vectors of length at most one: 1 when aligned, 0 when
      opposed, 1/2 when perpendicular or when either is zero. */
  function Weight(a: Vec2, b: Vec2): real {
    (Dot2(a, b) + 1.0) / 2.0
  }

  lemma WeightInUnitInterval(a: Vec2, b: Vec2)
    requires Dot2(a, a) <= 1.0 && Dot2(b, b) <= 1.0
    ensures 0.0 <= Weight(a, b) <= 1.0
  {
    UnitDot2Bounded(a, b);
  }

  /** The movement weighting as intended: the planar velocity (vx, vz) against the move input
      (mx, my), both normalized. */
  function ForceTime(velocity: Vec3, moveInput: Vec2, f: FloatOps): real {
    Weight(f.normalize2(Vec2(velocity.x, velocity.z)), f.normalize2(moveInput))
  }

  /** Against a zero vector, in either place, the weighting is 1/2. */
  lemma WeightOfZero(b: Vec2)
    ensures Weight(Zero2, b) == 0.5
    ensures Weight(b, Zero2) == 0.5
  {
    assert Dot2(Zero2, b) == 0.0;
    assert Dot2(b, Zero2) == 0.0;
  }

  /** The intended weighting lies in [0, 1]. */
  lemma ForceTimeInUnitInterval(velocity: Vec3, moveInput: Vec2, f: FloatOps)
    requires Sound(f)
    ensures 0.0 <= ForceTime(velocity, moveInput, f) <= 1.0
  {
    var cur := f.normalize2(Vec2(velocity.x, velocity.z));
    var move := f.normalize2(moveInput);
    Normalize2Facts(f, Vec2(velocity.x, velocity.z));
    Normalize2Facts(f, moveInput);
    WeightInUnitInterval(cur, move);
  }

  /** The intended weighting is 1/2 when the body is not moving in the plane or there is no
      input. */
  lemma ForceTimeNeutral(velocity: Vec3, moveInput: Vec2, f: FloatOps)
    requires Sound(f)
    requires (velocity.x == 0.0 && velocity.z == 0.0) || moveInput == Zero2
    ensures ForceTime(velocity, moveInput, f) == 0.5
  {
    if velocity.x == 0.0 && velocity.z == 0.0 {
      assert Vec2(velocity.x, velocity.z) == Zero2;
      WeightOfZero(f.normalize2(moveInput));
    } else {
      WeightOfZero(f.normalize2(Vec2(velocity.x, velocity.z)));
    }
  }

  /** The weighting AS WRITTEN, of a planar vector widened to (x, y, 0) against a 3D vector. */
  function WeightAsWritten(a: Vec2, b: Vec3): real {
    (Dot(Widen(a), b) + 1.0) / 2.0
  }

  lemma WeightAsWrittenInUnitInterval(a: Vec2, b: Vec3)
    requires Dot2(a, a) <= 1.0 && SqrMagnitude(b) <= 1.0
    ensures 0.0 <= WeightAsWritten(a, b) <= 1.0
  {
    var c := Vec2(b.x, b.y);
    assert Dot(Widen(a), b) == Dot2(a, c);
    SquareNonneg(b.z);
    assert Dot2(c, c) <= SqrMagnitude(b);
    UnitDot2Bounded(a, c);
  }

  lemma WeightAsWrittenOfZero(a: Vec2, b: Vec3)
    requires a == Zero2 || b == Zero
    ensures WeightAsWritten(a, b) == 0.5
  {
    assert Dot(Widen(a), b) == 0.0;
  }

  /** The movement weighting AS WRITTEN: `Vector3.Dot(currentVelocity2D.normalized,
      moveDirection.normalized)` widens the Vector2 (vx, vz) to (vx, vz, 0) and dots it with
      (mx, 0, my), so only the x components meet. */
  function ForceTimeAsWritten(velocity: Vec3, moveInput: Vec2, f: FloatOps): real {
    WeightAsWritten(f.normalize2(Vec2(velocity.x, velocity.z)), f.normalize(Vec3(moveInput.x, 0.0, moveInput.y)))
  }

  /** The weighting as written also stays in [0, 1]. */
  lemma ForceTimeAsWrittenInUnitInterval(velocity: Vec3, moveInput: Vec2, f: FloatOps)
    requires Sound(f)
    ensures 0.0 <= ForceTimeAsWritten(velocity, moveInput, f) <= 1.0
  {
    var cur := f.normalize2(Vec2(velocity.x, velocity.z));
    var dir := Vec3(moveInput.x, 0.0, moveInput.y);
    var move := f.normalize(dir);
    Normalize2Facts(f, Vec2(velocity.x, velocity.z));
    NormalizeFacts(f, dir);
    WeightAsWrittenInUnitInterval(cur, move);
  }

  /** As written, too, the weighting is 1/2 when either vector is zero. */
  lemma ForceTimeAsWrittenNeutral(velocity: Vec3, moveInput: Vec2, f: FloatOps)
    requires Sound(f)
    requires (velocity.x == 0.0 && velocity.z == 0.0) || moveInput == Zero2
    ensures ForceTimeAsWritten(velocity, moveInput, f) == 0.5
  {
    var dir := Vec3(moveInput.x, 0.0, moveInput.y);
    if velocity.x == 0.0 && velocity.z == 0.0 {
      assert Vec2(velocity.x, velocity.z) == Zero2;
      WeightAsWrittenOfZero(Zero2, f.normalize(dir));
    } else {
      assert dir == Zero;
      WeightAsWrittenOfZero(f.normalize2(Vec2(velocity.x, velocity.z)), Zero);
    }
  }

  lemma ForwardWeight()
    ensures Weight(Vec2(0.0, 1.0), Vec2(0.0, 1.0)) == 1.0
  {
    assert Dot2(Vec2(0.0, 1.0), Vec2(0.0, 1.0)) == 1.0;
  }

  lemma ForwardWeightAsWritten()
    ensures WeightAsWritten(Vec2(0.0, 1.0), Vec3(0.0, 0.0, 1.0)) == 0.5
  {
    assert Dot(Widen(Vec2(0.0, 1.0)), Vec3(0.0, 0.0, 1.0)) == 0.0;
  }

  /** The input that shows the discrepancy: moving straight ahead (+z) with the stick pushed
      straight ahead. The intended weighting is 1 (fully aligned); as written it is 1/2, the
      value for perpendicular motion. */
  lemma ForceTimeIgnoresForwardAxis(f: FloatOps)
    requires Sound(f)
    ensures ForceTime(Vec3(0.0, 0.0, 1.0), Vec2(0.0, 1.0), f) == 1.0
    ensures ForceTimeAsWritten(Vec3(0.0, 0.0, 1.0), Vec2(0.0, 1.0), f) == 0.5
  {
    AheadIsUnit2(f);
    ForceTimeAligned(Vec3(0.0, 0.0, 1.0), Vec2(0.0, 1.0), f);
    AheadIsUnit(f);
    ForwardWeightAsWritten();
  }

  lemma AheadIsUnit2(f: FloatOps)
    requires Sound(f)
    ensures f.normalize2(Vec2(0.0, 1.0)) == Vec2(0.0, 1.0)
  {
    Normalize2Facts(f, Vec2(0.0, 1.0));
    assert Dot2(Vec2(0.0, 1.0), Vec2(0.0, 1.0)) == 1.0;
  }

  lemma AheadIsUnit(f: FloatOps)
    requires Sound(f)
    ensures f.normalize(Vec3(0.0, 0.0, 1.0)) == Vec3(0.0, 0.0, 1.0)
  {
    NormalizeFacts(f, Vec3(0.0, 0.0, 1.0));
    assert SqrMagnitude(Vec3(0.0, 0.0, 1.0)) == 1.0;
  }

  /** The intended weighting is 1 whenever the planar velocity and the input point the same way
      (their normalized forms agree and are not zero). */
  lemma ForceTimeAligned(velocity: Vec3, moveInput: Vec2, f: FloatOps)
    requires Sound(f)
    requires f.normalize2(Vec2(velocity.x, velocity.z)) == f.normalize2(moveInput) != Zero2
    ensures ForceTime(velocity, moveInput, f) == 1.0
  {
    Normalize2Facts(f, moveInput);
  }

  /** The size of the movement acceleration as the code computes it: `forceAxeleration *
      dampingCurve.Evaluate(forceTime) * delta`, with the weighting as written. */
  function MoveStrength(p: Params, velocity: Vec3, moveInput: Vec2, curve: real -> real,
                        f: FloatOps, delta: real): real {
    p.forceAcceleration * curve(ForceTimeAsWritten(velocity, moveInput, f)) * delta
  }

  /** The size of the movement acceleration with the intended weighting. */
  function MoveStrengthIntended(p: Params, velocity: Vec3, moveInput: Vec2, curve: real -> real,
                                f: FloatOps, delta: real): real {
    p.forceAcceleration * curve(ForceTime(velocity, moveInput, f)) * delta
  }

  /** A horizontal acceleration of size `k` along the normalized input direction (x, 0, y). */
  function MovementForce(moveInput: Vec2, k: real, f: FloatOps): (r: Request)
    requires Sound(f)
    ensures r.Acceleration? && r.v.y == 0.0
    ensures moveInput == Zero2 ==> r.v == Zero
    ensures SqrMagnitude(r.v) <= k * k
    ensures Dot2(moveInput, moveInput) > NormalizeEpsilon * NormalizeEpsilon ==> SqrMagnitude(r.v) == k * k
    ensures Dot2(moveInput, moveInput) <= NormalizeEpsilon * NormalizeEpsilon ==> r.v == Zero
  {
    var d := Vec3(moveInput.x, 0.0, moveInput.y);
    var dir := f.normalize(d);
    NormalizeFacts(f, d);
    MovementForceFacts(d, dir, k);
    assert SqrMagnitude(d) == Dot2(moveInput, moveInput);
    SqrMagnitudeScale(dir, k);
    Acceleration(Scale(dir, k))
  }

  /** AddMovementForce as the code computes it: a horizontal acceleration along the normalized
      input direction, none without input, whose size uses the weighting as written. */
  function AddMovementForce(p: Params, velocity: Vec3, moveInput: Vec2, curve: real -> real,
                            f: FloatOps, delta: real): (r: Request)
    requires Sound(f)
    ensures r.Acceleration? && r.v.y == 0.0
    ensures moveInput == Zero2 ==> r.v == Zero
    ensures Dot2(moveInput, moveInput) > NormalizeEpsilon * NormalizeEpsilon ==>
              var k := p.forceAcceleration * curve(ForceTimeAsWritten(velocity, moveInput, f)) * delta;
              SqrMagnitude(r.v) == k * k
  {
    MovementForce(moveInput, MoveStrength(p, velocity, moveInput, curve, f, delta), f)
  }

  /** The movement force with the intended weighting. */
  function AddMovementForceIntended(p: Params, velocity: Vec3, moveInput: Vec2, curve: real -> real,
                                    f: FloatOps, delta: real): (r: Request)
    requires Sound(f)
    ensures r.Acceleration? && r.v.y == 0.0
    ensures moveInput == Zero2 ==> r.v == Zero
    ensures Dot2(moveInput, moveInput) > NormalizeEpsilon * NormalizeEpsilon ==>
              var k := p.forceAcceleration * curve(ForceTime(velocity, moveInput, f)) * delta;
              SqrMagnitude(r.v) == k * k
  {
    MovementForce(moveInput, MoveStrengthIntended(p, velocity, moveInput, curve, f, delta), f)
  }

  /** The two versions of the movement force differ only through the weighting: where the
      weightings agree, so do the forces. */
  lemma MovementForceVersionsAgree(p: Params, velocity: Vec3, moveInput: Vec2, curve: real -> real,
                                   f: FloatOps, delta: real)
    requires Sound(f)
    requires ForceTime(velocity, moveInput, f) == ForceTimeAsWritten(velocity, moveInput, f)
    ensures AddMovementForce(p, velocity, moveInput, curve, f, delta)
              == AddMovementForceIntended(p, velocity, moveInput, curve, f, delta)
  {
  }

  /** The movement acceleration is never longer than its strength. */
  lemma MovementForceBounded(p: Params, velocity: Vec3, moveInput: Vec2, curve: real -> real,
                             f: FloatOps, delta: real)
    requires Sound(f)
    ensures var k := MoveStrength(p, velocity, moveInput, curve, f, delta);
            SqrMagnitude(AddMovementForce(p, velocity, moveInput, curve, f, delta).v) <= k * k
  {
  }

  lemma MovementForceFacts(d: Vec3, dir: Vec3, k: real)
    requires SqrMagnitude(dir) <= 1.0 && (d.y == 0.0 ==> dir.y == 0.0) && (d == Zero ==> dir == Zero)
    ensures Scale(dir, k).y == 0.0 || d.y != 0.0
    ensures SqrMagnitude(Scale(dir, k)) <= k * k
    ensures d == Zero ==> Scale(dir, k) == Zero
  {
    SqrMagnitudeScale(dir, k);
    SquareNonneg(k);
    MulMono(SqrMagnitude(dir), 1.0, k * k);
  }

  /** The forces of one tick on the (already damped) velocity: the ride spring, then the movement
      force last. */
  function TickForces(p: Params, v: Vec3, t: TickInput): (r: seq<Request>)
    requires Sound(t.f)
    ensures 1 <= |r| <= 3
    ensures forall i | 0 <= i < |r| :: !r[i].Ownership?
    ensures r[|r| - 1] == AddMovementForce(p, v, t.moveInput, t.dampingCurve, t.f, t.dt)
    ensures r[..|r| - 1] == AddRideForce(p, v, t.rideHit, t.rayDir, t.dt)
  {
    AddRideForce(p, v, t.rideHit, t.rayDir, t.dt) + [AddMovementForce(p, v, t.moveInput, t.dampingCurve, t.f, t.dt)]
  }

  /** FixedUpdate: nothing for a non-owner; otherwise the ownership sweep, then damping, then the
      ride spring (which sees the damped velocity), then the movement force. */
  function FixedUpdate(r: Rider, p: Params, isOwner: bool, t: TickInput): (out: (Rider, seq<Request>))
    requires Sound(t.f)
    ensures !isOwner ==> out == (r, [])
    ensures isOwner ==>
              && out.0.leases == Lease.Sweep(r.leases, t.now, OwnedTime).leases
              && out.0.velocity == DampVelocity(r.velocity, p.forceDamping, t.dt)
              && SqrMagnitude(out.0.velocity) <= SqrMagnitude(r.velocity)
    // revocations come first, then the spring, then the movement force last
    ensures isOwner ==>
              var n := |Lease.Sweep(r.leases, t.now, OwnedTime).requests|;
              && n < |out.1|
              && (forall i | 0 <= i < n :: out.1[i] == Ownership(Lease.Sweep(r.leases, t.now, OwnedTime).requests[i]))
              && (forall i | n <= i < |out.1| :: !out.1[i].Ownership?)
              && out.1[n..|out.1| - 1] == AddRideForce(p, out.0.velocity, t.rideHit, t.rayDir, t.dt)
              && out.1[|out.1| - 1] == AddMovementForce(p, out.0.velocity, t.moveInput, t.dampingCurve, t.f, t.dt)
  {
    if !isOwner then (r, [])
    else
      var swept := Lease.Sweep(r.leases, t.now, OwnedTime);
      var v := DampVelocity(r.velocity, p.forceDamping, t.dt);
      var revokes := seq(|swept.requests|, i requires 0 <= i < |swept.requests| => Ownership(swept.requests[i]));
      (Rider(v, swept.leases), revokes + TickForces(p, v, t))
  }
}

=== FILE: simple_character_motor.dfy ===
/** SimpleCharacterMotor: a kinematic capsule character of the Netcode prototype. On the owning
    client, each physics tick sets the velocity from the stick and gravity and moves the capsule
    by sweeping it along the displacement, sliding along what it hits and asking the server to
    push the rigidbodies it runs into. Each frame the yaw is smoothed toward a target driven by
    the look input. Casts, overlap checks, SmoothDampAngle and float maths are parameters. */
module SimpleCharacterMotor {
  import opened Wrappers
  import opened Num
  import opened Vec

  datatype MotorParams = MotorParams(
    height: real, radius: real,
    speed: real, gravity: real,
    angularSpeed: real, yawSmoothTime: real, maxYawSpeed: real,
    skinWidth: real, groundProbeDistance: real, maxSlides: int,
    pushPower: real, maxPushMass: real, minPushSpeed: real, pushAlongGround: bool)

  /** The pressing-down speed a grounded, falling body is reset to. */
  const GroundStick: real := -2.0

  /** The displacement below which the sweep stops (squared length). */
  const MinMoveSqr: real := 0.00000001

  /** The wish direction is normalized only above this squared length. */
  const MinWishSqr: real := 0.000001

  /** Below this squared length a push direction is degenerate. */
  const MinPushDirSqr: real := 0.000001

  /** The normal component above which a hit counts as floor. */
  const FloorNormalY: real := 0.5

  /** The step out of a hit surface after each slide. */
  const Unstick: real := 0.0005

  /** The motor's state: where it is, how it moves, what it was told, the yaw smoothing, and
      the yaw of its transform in degrees (pitch and roll are taken as zero). */
  datatype Character = Character(
    position: Vec3, velocity: Vec3, onGround: bool,
    moveInput: Vec2, lookInput: Vec2,
    yawTarget: real, yawCurrent: real, yawVel: real,
    facing: real)

  /** A rigidbody hit by a sweep. Unity keeps rigidbody masses positive. */
  datatype HitBody = HitBody(isKinematic: bool, mass: PosReal, net: Option<NetObj>)

  datatype NetObj = NetObj(id: nat, isSpawned: bool)

  datatype CastHit = CastHit(distance: real, normal: Vec3, point: Vec3, body: Option<HitBody>)

  /** TryPushRigidbodyServerRpc's arguments: the object, the unit push direction, the hit point
      and the impulse. */
  datatype Push = Push(obj: nat, dir: Vec3, point: Vec3, impulse: real)

  /** The engine as seen by one tick: the step, the sine and cosine of an angle in degrees, the
      capsule sweep (endpoints, radius, direction, distance), the capsule overlap check
      (endpoints, radius), and the float operations. */
  datatype Engine = Engine(
    dt: PosReal,
    sinCos: real -> (real, real),
    cast: (Vec3, Vec3, real, Vec3, real) -> Option<CastHit>,
    checkCapsule: (Vec3, Vec3, real) -> bool,
    f: FloatOps)

  // ---------------------------------------------------------------------------------------
  // Capsule geometry

  /** Capsule: the centres of the top (`p1`) and bottom (`p2`) spheres of a capsule standing on
      `position`, its height raised to at least one diameter. */
  function Capsule(p: MotorParams, position: Vec3): (r: (Vec3, Vec3))
    ensures var h := Max(p.height, p.radius * 2.0);
            && r.1 == Add(position, Scale(Up, p.radius))
            && r.0 == Add(position, Scale(Up, h - p.radius))
    ensures r.0.y >= r.1.y && r.0.x == r.1.x == position.x && r.0.z == r.1.z == position.z
  {
    var h := Max(p.height, p.radius * 2.0);
    var half := (h * 0.5) - p.radius;
    var center := Add(position, Scale(Up, p.radius + half));
    (Add(center, Scale(Up, half)), Sub(center, Scale(Up, half)))
  }

  /** The capsule's two sphere centres are exactly its height minus a diameter apart, when the
      height is at least a diameter. */
  lemma CapsuleSpan(p: MotorParams, position: Vec3)
    requires p.height >= 2.0 * p.radius
    ensures Capsule(p, position).0.y - Capsule(p, position).1.y == p.height - 2.0 * p.radius
  {
  }

  /** GroundCheck: the capsule lifted by 0.01 and lowered by the probe distance overlaps
      something, with the radius grown by the skin width. */
  function GroundCheck(p: MotorParams, position: Vec3, e: Engine): bool {
    var ends := Capsule(p, Add(position, Scale(Up, 0.01)));
    var down := Scale(Up, -p.groundProbeDistance);
    e.checkCapsule(Add(ends.0, down), Add(ends.1, down), p.radius + p.skinWidth)
  }

  /** The ground probe is the standing capsule moved down by the probe distance less 0.01 and
      widened by the skin width. */
  lemma GroundProbeBelowCapsule(p: MotorParams, position: Vec3, e: Engine)
    ensures var standing := Capsule(p, position);
            var shift := Scale(Up, 0.01 - p.groundProbeDistance);
            GroundCheck(p, position, e)
              == e.checkCapsule(Add(standing.0, shift), Add(standing.1, shift), p.radius + p.skinWidth)
  {
  }

  // ---------------------------------------------------------------------------------------
  // Velocity rule

  /** The transform's forward axis at yaw `yaw` (degrees, no pitch or roll): (sin, 0, cos). */
  function Forward(yaw: real, e: Engine): Vec3 {
    Vec3(e.sinCos(yaw).0, 0.0, e.sinCos(yaw).1)
  }

  /** The transform's right axis at yaw `yaw`: (cos, 0, -sin). */
  function Right(yaw: real, e: Engine): Vec3 {
    Vec3(e.sinCos(yaw).1, 0.0, -e.sinCos(yaw).0)
  }

  /** Whether the engine's sine and cosine of `yaw` square to one. */
  predicate TrigSound(yaw: real, e: Engine) {
    e.sinCos(yaw).0 * e.sinCos(yaw).0 + e.sinCos(yaw).1 * e.sinCos(yaw).1 == 1.0
  }

  /** With a sine and cosine that square to one, the two axes are perpendicular unit vectors. */
  lemma AxesOrthonormal(yaw: real, e: Engine)
    requires TrigSound(yaw, e)
    ensures SqrMagnitude(Forward(yaw, e)) == 1.0 && SqrMagnitude(Right(yaw, e)) == 1.0
    ensures Dot(Forward(yaw, e), Right(yaw, e)) == 0.0
  {
  }

  /** The stick in the frame of the transform at yaw `yaw`, before normalization. */
  function RawWish(input: Vec2, yaw: real, e: Engine): Vec3 {
    Add(Scale(Forward(yaw, e), input.y), Scale(Right(yaw, e), input.x))
  }

  /** The wish direction: the raw wish normalized unless nearly zero. It is horizontal and
      never longer than one; above the threshold it is the unit vector along the raw wish, and
      below it the raw wish itself. */
  function WishDir(input: Vec2, yaw: real, e: Engine): (r: Vec3)
    requires Sound(e.f)
    ensures r.y == 0.0
    ensures SqrMagnitude(r) <= 1.0
    ensures SqrMagnitude(RawWish(input, yaw, e)) > MinWishSqr ==>
              && SqrMagnitude(r) == 1.0
              && 0.0 < Dot(r, RawWish(input, yaw, e))
              && Scale(r, Dot(r, RawWish(input, yaw, e))) == RawWish(input, yaw, e)
    ensures SqrMagnitude(RawWish(input, yaw, e)) <= MinWishSqr ==> r == RawWish(input, yaw, e)
  {
    var wish := RawWish(input, yaw, e);
    if SqrMagnitude(wish) > MinWishSqr then
      NormalizeFacts(e.f, wish);
      e.f.normalize(wish)
    else
      wish
  }

  /** The raw wish is as long as the stick: turning the character changes where the stick
      points, not how far. */
  lemma {:induction false} RawWishLength(input: Vec2, yaw: real, e: Engine)
    requires TrigSound(yaw, e)
    ensures SqrMagnitude(RawWish(input, yaw, e)) == Dot2(input, input)
  {
    var sn := e.sinCos(yaw).0;
    var cs := e.sinCos(yaw).1;
    var a := input.y;
    var b := input.x;
    var w := RawWish(input, yaw, e);
    assert w == Vec3(sn * a + cs * b, 0.0, cs * a - sn * b);
    calc {
      SqrMagnitude(w);
      (sn * a + cs * b) * (sn * a + cs * b) + (cs * a - sn * b) * (cs * a - sn * b);
      (sn * sn + cs * cs) * (a * a) + (sn * sn + cs * cs) * (b * b);
      a * a + b * b;
    }
  }

  /** A unit stick gives a unit wish direction at every yaw: the raw wish is already of length
      one, and normalizing keeps it. */
  lemma WishDirOfUnitStick(input: Vec2, yaw: real, e: Engine)
    requires Sound(e.f) && TrigSound(yaw, e)
    requires Dot2(input, input) == 1.0
    ensures WishDir(input, yaw, e) == RawWish(input, yaw, e)
    ensures SqrMagnitude(WishDir(input, yaw, e)) == 1.0
  {
    RawWishLength(input, yaw, e);
    NormalizeFacts(e.f, RawWish(input, yaw, e));
  }

  /** The vertical rule: a grounded, falling body is reset to the stick speed, then gravity is
      added for one step. */
  function VerticalSpeed(vy: real, onGround: bool, p: MotorParams, dt: PosReal): (r: real)
    ensures onGround && vy < 0.0 ==> r == GroundStick + p.gravity * dt
    ensures !(onGround && vy < 0.0) ==> r - vy == p.gravity * dt
  {
    var v := if onGround && vy < 0.0 then GroundStick else vy;
    v + p.gravity * dt
  }

  /** The velocity of a tick: horizontal from the wish direction at full speed, vertical from
      the rule above. */
  function NextVelocity(c: Character, onGround: bool, p: MotorParams, e: Engine): (r: Vec3)
    requires Sound(e.f)
    ensures r.y == VerticalSpeed(c.velocity.y, onGround, p, e.dt)
    ensures Vec3(r.x, 0.0, r.z) == Scale(WishDir(c.moveInput, c.facing, e), p.speed)
  {
    var horiz := Scale(WishDir(c.moveInput, c.facing, e), p.speed);
    Vec3(horiz.x, VerticalSpeed(c.velocity.y, onGround, p, e.dt), horiz.z)
  }

  /** The previous horizontal velocity is forgotten: two characters that differ only in it get
      the same velocity. */
  lemma HorizontalVelocityForgotten(c: Character, vx: real, vz: real, onGround: bool, p: MotorParams, e: Engine)
    requires Sound(e.f)
    ensures NextVelocity(c.(velocity := c.velocity.(x := vx, z := vz)), onGround, p, e) == NextVelocity(c, onGround, p, e)
  {
  }

  /** On the ground, how fast the body was falling is forgotten too. */
  lemma GroundedFallForgotten(c: Character, vy: real, p: MotorParams, e: Engine)
    requires Sound(e.f)
    requires c.velocity.y < 0.0 && vy < 0.0
    ensures NextVelocity(c.(velocity := c.velocity.(y := vy)), true, p, e) == NextVelocity(c, true, p, e)
  {
  }

  // ---------------------------------------------------------------------------------------
  // Pushing rigidbodies

  /** The push direction before normalization: along the ground (the sweep direction flattened,
      any upward part dropped) or the sweep direction itself. */
  function RawPushDir(sweepDir: Vec3, p: MotorParams): (r: Vec3)
    ensures p.pushAlongGround ==> r.y <= 0.0
  {
    if p.pushAlongGround then
      var d := ProjectOnPlane(sweepDir, Up);
      if d.y > 0.0 then d.(y := 0.0) else d
    else sweepDir
  }

  /** `massScale`: one when no mass limit is set, otherwise the limit over the mass, clamped to
      [0, 1]. */
  function MassScale(p: MotorParams, mass: PosReal): (r: real)
    ensures 0.0 <= r <= 1.0
    ensures p.maxPushMass <= 0.0 ==> r == 1.0
    ensures 0.0 < p.maxPushMass && mass <= p.maxPushMass ==> r == 1.0
    ensures 0.0 < p.maxPushMass < mass ==> r == p.maxPushMass / mass && r < 1.0
  {
    if p.maxPushMass <= 0.0 then 1.0
    else if mass <= p.maxPushMass then
      DivAtLeastOne(p.maxPushMass, mass);
      Clamp01(p.maxPushMass / mass)
    else
      DivBelowOne(p.maxPushMass, mass);
      Clamp01(p.maxPushMass / mass)
  }

  lemma DivBelowOne(x: real, d: PosReal)
    requires 0.0 < x < d
    ensures 0.0 < x / d < 1.0
  {
    var q := x / d;
    assert q * d == x;
    if q >= 1.0 {
      MulMono(1.0, q, d);
    }
  }

  /** The speed of the character in the horizontal plane. */
  function HorizSpeed(velocity: Vec3, f: FloatOps): real {
    Magnitude(Vec3(velocity.x, 0.0, velocity.z), f)
  }

  /** All the gates of a push: a dynamic rigidbody, not a floor, a push direction that is not
      degenerate, enough horizontal speed, and a spawned NetworkObject. */
  predicate PushAllowed(hit: CastHit, sweepDir: Vec3, velocity: Vec3, p: MotorParams, f: FloatOps) {
    && hit.body.Some? && !hit.body.value.isKinematic
    && !(hit.normal.y > FloorNormalY)
    && !(SqrMagnitude(RawPushDir(sweepDir, p)) < MinPushDirSqr)
    && !(HorizSpeed(velocity, f) < p.minPushSpeed)
    && hit.body.value.net.Some? && hit.body.value.net.value.isSpawned
  }

  /** TryPushRigidbody: when every gate passes, a push request along the normalized push
      direction at the hit point, with impulse pushPower times the horizontal speed times the
      mass scale; otherwise nothing. */
  function TryPushRigidbody(hit: CastHit, sweepDir: Vec3, velocity: Vec3, p: MotorParams, f: FloatOps): (r: Option<Push>)
    requires Sound(f)
    ensures r.Some? <==> PushAllowed(hit, sweepDir, velocity, p, f)
    ensures r.Some? ==>
              && r.value.obj == hit.body.value.net.value.id
              && r.value.point == hit.point
              && SqrMagnitude(r.value.dir) == 1.0
              && 0.0 < Dot(r.value.dir, RawPushDir(sweepDir, p))
              && Scale(r.value.dir, Dot(r.value.dir, RawPushDir(sweepDir, p))) == RawPushDir(sweepDir, p)
              && r.value.impulse == p.pushPower * HorizSpeed(velocity, f) * MassScale(p, hit.body.value.mass)
              && (p.pushAlongGround ==> r.value.dir.y == 0.0)
  {
    if !PushAllowed(hit, sweepDir, velocity, p, f) then None
    else
      var raw := RawPushDir(sweepDir, p);
      var b := hit.body.value;
      var massScale := MassScale(p, b.mass);
      var impulse := p.pushPower * HorizSpeed(velocity, f) * massScale;
      NormalizeFacts(f, raw);
      ProjectOnUpPlane(sweepDir);
      Some(Push(b.net.value.id, f.normalize(raw), hit.point, impulse))
  }

  /** The mass scale only weakens a push: the impulse never exceeds pushPower times the
      horizontal speed. */
  lemma PushImpulseBounded(hit: CastHit, sweepDir: Vec3, velocity: Vec3, p: MotorParams, f: FloatOps)
    requires Sound(f) && 0.0 <= p.pushPower
    requires TryPushRigidbody(hit, sweepDir, velocity, p, f).Some?
    ensures TryPushRigidbody(hit, sweepDir, velocity, p, f).value.impulse <= p.pushPower * HorizSpeed(velocity, f)
  {
    var k := p.pushPower * HorizSpeed(velocity, f);
    var v := Vec3(velocity.x, 0.0, velocity.z);
    assert 0.0 <= SqrMagnitude(v) by {
      SquareNonneg(v.x);
      SquareNonneg(v.z);
    }
    assert 0.0 <= HorizSpeed(velocity, f) by {
      NonnegRoot(f, SqrMagnitude(v));
    }
    MulNonneg(p.pushPower, HorizSpeed(velocity, f));
    ScaleBetween(k, MassScale(p, hit.body.value.mass));
  }

  lemma NonnegRoot(f: FloatOps, x: real)
    requires Sound(f) && 0.0 <= x
    ensures 0.0 <= f.sqrt(x)
  {
    assert RootsNonneg(f.sqrt);
  }

  // ---------------------------------------------------------------------------------------
  // The sweep

  /** The part of the displacement left after travelling `travel` along `dir`, projected on the
      hit surface; on anything but a floor it may not climb. */
  function SlideVector(remaining: Vec3, dir: Vec3, travel: real, normal: Vec3): (r: Vec3)
    ensures !(normal.y > FloorNormalY) ==> r.y <= 0.0
    ensures normal.y > FloorNormalY ==> r == ProjectOnPlane(Sub(remaining, Scale(dir, travel)), normal)
  {
    var slide := ProjectOnPlane(Sub(remaining, Scale(dir, travel)), normal);
    if !(normal.y > FloorNormalY) then slide.(y := Min(slide.y, 0.0)) else slide
  }

  /** The distance moved toward a hit: up to the skin width short of it, never backwards. */
  function Travel(hitDistance: real, p: MotorParams): (r: real)
    ensures 0.0 <= r && r >= hitDistance - p.skinWidth
    ensures hitDistance - p.skinWidth >= 0.0 ==> r == hitDistance - p.skinWidth
  {
    Max(hitDistance - p.skinWidth, 0.0)
  }

  /** The result of a sweep: where the capsule ends, how many casts it made, and the push
      requests it sent. */
  datatype Sweep = Sweep(pos: Vec3, casts: nat, pushes: seq<Push>)

  /** One slide iteration after a hit: push, travel, compute the slide, step out. */
  datatype Slid = Slid(pos: Vec3, remaining: Vec3, push: Option<Push>)

  function SlideOnHit(p: MotorParams, velocity: Vec3, e: Engine, pos: Vec3, remaining: Vec3, dir: Vec3, hit: CastHit): (r: Slid)
    requires Sound(e.f)
    ensures !(hit.normal.y > FloorNormalY) ==> r.remaining.y <= 0.0
  {
    var push := TryPushRigidbody(hit, dir, velocity, p, e.f);
    var travel := Travel(hit.distance, p);
    var pos1 := Add(pos, Scale(dir, travel));
    var slide := SlideVector(remaining, dir, travel, hit.normal);
    Slid(Add(pos1, Scale(hit.normal, Unstick)), slide, push)
  }

  /** The cast of one iteration: from the capsule at `pos`, along the direction of the
      remaining displacement, over its length plus the skin width. */
  function CastFrom(p: MotorParams, e: Engine, pos: Vec3, remaining: Vec3): Option<CastHit> {
    var ends := Capsule(p, pos);
    e.cast(ends.0, ends.1, p.radius, e.f.normalize(remaining), Magnitude(remaining, e.f) + p.skinWidth)
  }

  /** The reference sweep with `left` iterations to go. */
  function Slides(p: MotorParams, velocity: Vec3, e: Engine, pos: Vec3, remaining: Vec3, left: nat): (r: Sweep)
    requires Sound(e.f)
    ensures r.casts <= left
    ensures left == 0 || SqrMagnitude(remaining) <= MinMoveSqr ==> r == Sweep(pos, 0, [])
    ensures |r.pushes| <= r.casts
    decreases left
  {
    if left == 0 || SqrMagnitude(remaining) <= MinMoveSqr then Sweep(pos, 0, [])
    else
      match CastFrom(p, e, pos, remaining)
      case None => Sweep(Add(pos, remaining), 1, [])
      case Some(hit) =>
        var s := SlideOnHit(p, velocity, e, pos, remaining, e.f.normalize(remaining), hit);
        var rest := Slides(p, velocity, e, s.pos, s.remaining, left - 1);
        Sweep(rest.pos, rest.casts + 1, PushList(s.push) + rest.pushes)
  }

  /** The iterations of the loop: `maxSlides + 1`, none when maxSlides is negative. */
  function Iterations(p: MotorParams): nat {
    if p.maxSlides < 0 then 0 else p.maxSlides + 1
  }

  function PushList(push: Option<Push>): seq<Push> {
    if push.Some? then [push.value] else []
  }

  /** The loop's accumulated sweep: what has been done so far plus the reference sweep of what
      is left. */
  function Pending(p: MotorParams, velocity: Vec3, e: Engine, pos: Vec3, remaining: Vec3, left: nat,
                   casts: nat, pushes: seq<Push>): Sweep
    requires Sound(e.f)
  {
    var rest := Slides(p, velocity, e, pos, remaining, left);
    Sweep(rest.pos, casts + rest.casts, pushes + rest.pushes)
  }

  lemma PendingStop(p: MotorParams, velocity: Vec3, e: Engine, pos: Vec3, remaining: Vec3, left: nat,
                    casts: nat, pushes: seq<Push>)
    requires Sound(e.f) && (left == 0 || SqrMagnitude(remaining) <= MinMoveSqr)
    ensures Pending(p, velocity, e, pos, remaining, left, casts, pushes) == Sweep(pos, casts, pushes)
  {
    assert pushes + [] == pushes;
  }

  lemma PendingFree(p: MotorParams, velocity: Vec3, e: Engine, pos: Vec3, remaining: Vec3, left: nat,
                    casts: nat, pushes: seq<Push>)
    requires Sound(e.f) && left > 0 && SqrMagnitude(remaining) > MinMoveSqr
    requires CastFrom(p, e, pos, remaining).None?
    ensures Pending(p, velocity, e, pos, remaining, left, casts, pushes) == Sweep(Add(pos, remaining), casts + 1, pushes)
  {
    assert pushes + [] == pushes;
  }

  lemma PendingHit(p: MotorParams, velocity: Vec3, e: Engine, pos: Vec3, remaining: Vec3, left: nat,
                   casts: nat, pushes: seq<Push>, hit: CastHit)
    requires Sound(e.f) && left > 0 && SqrMagnitude(remaining) > MinMoveSqr
    requires CastFrom(p, e, pos, remaining) == Some(hit)
    ensures var s := SlideOnHit(p, velocity, e, pos, remaining, e.f.normalize(remaining), hit);
            Pending(p, velocity, e, pos, remaining, left, casts, pushes)
              == Pending(p, velocity, e, s.pos, s.remaining, left - 1, casts + 1, pushes + PushList(s.push))
  {
    var s := SlideOnHit(p, velocity, e, pos, remaining, e.f.normalize(remaining), hit);
    var rest := Slides(p, velocity, e, s.pos, s.remaining, left - 1);
    assert pushes + (PushList(s.push) + rest.pushes) == (pushes + PushList(s.push)) + rest.pushes;
  }

  /** MoveWithCapsule: at most maxSlides + 1 sweeps, each moving freely when nothing is hit, or
      up to the hit and on along the surface otherwise. */
  method MoveWithCapsule(p: MotorParams, velocity: Vec3, e: Engine, start: Vec3, delta: Vec3) returns (r: Sweep)
    requires Sound(e.f)
    ensures r == Slides(p, velocity, e, start, delta, Iterations(p))
    ensures r.casts <= Iterations(p)
  {
    var pos := start;
    var remaining := delta;
    var casts: nat := 0;
    var pushes: seq<Push> := [];
    var i := 0;
    var n := Iterations(p);
    ghost var total := Slides(p, velocity, e, start, delta, n);
    assert [] + total.pushes == total.pushes;
    while i < n
      invariant 0 <= i <= n
      invariant total == Pending(p, velocity, e, pos, remaining, n - i, casts, pushes)
      decreases n - i
    {
      if SqrMagnitude(remaining) <= MinMoveSqr {
        PendingStop(p, velocity, e, pos, remaining, n - i, casts, pushes);
        break;
      }
      var hit := CastFrom(p, e, pos, remaining);
      if hit.None? {
        PendingFree(p, velocity, e, pos, remaining, n - i, casts, pushes);
        pos := Add(pos, remaining);
        casts := casts + 1;
        PendingStop(p, velocity, e, pos, remaining, 0, casts, pushes);
        i := n;
        break;
      }
      PendingHit(p, velocity, e, pos, remaining, n - i, casts, pushes, hit.value);
      var s := SlideOnHit(p, velocity, e, pos, remaining, e.f.normalize(remaining), hit.value);
      pushes := pushes + PushList(s.push);
      casts := casts + 1;
      pos := s.pos;
      remaining := s.remaining;
      i := i + 1;
    }
    PendingStop(p, velocity, e, pos, remaining, 0, casts, pushes);
    r := Sweep(pos, casts, pushes);
  }

  /** When the first cast hits nothing, the capsule moves by the whole displacement in one
      cast. */
  lemma FreeSweep(p: MotorParams, velocity: Vec3, e: Engine, start: Vec3, delta: Vec3)
    requires Sound(e.f) && 0 <= p.maxSlides
    requires SqrMagnitude(delta) > MinMoveSqr && CastFrom(p, e, start, delta).None?
    ensures Slides(p, velocity, e, start, delta, Iterations(p)) == Sweep(Add(start, delta), 1, [])
  {
  }

  // ---------------------------------------------------------------------------------------
  // Tick and frame

  /** FixedUpdate: nothing on a non-owner. On the owner: the ground check, the new velocity, and
      the sweep by velocity times the step. */
  method FixedUpdate(c: Character, p: MotorParams, isOwner: bool, e: Engine) returns (r: Character, pushes: seq<Push>)
    requires Sound(e.f)
    ensures !isOwner ==> r == c && pushes == []
    ensures isOwner ==>
              && r.onGround == GroundCheck(p, c.position, e)
              && r.velocity == NextVelocity(c, r.onGround, p, e)
              && var s := Slides(p, r.velocity, e, c.position, Scale(r.velocity, e.dt), Iterations(p));
                 r.position == s.pos && pushes == s.pushes
    ensures r.moveInput == c.moveInput && r.yawCurrent == c.yawCurrent && r.facing == c.facing
  {
    if !isOwner {
      return c, [];
    }
    var onGround := GroundCheck(p, c.position, e);
    var velocity := NextVelocity(c, onGround, p, e);
    var s := MoveWithCapsule(p, velocity, e, c.position, Scale(velocity, e.dt));
    r := c.(onGround := onGround, velocity := velocity, position := s.pos);
    pushes := s.pushes;
  }

  /** Mathf.SmoothDampAngle: (current, target, velocity, smoothTime, maxSpeed, deltaTime) to the
      new angle and velocity; no maximum speed is `None` (Mathf.Infinity). */
  type SmoothDampAngle = (real, real, real, real, Option<real>, real) -> (real, real)

  /** Update: nothing on a non-owner. On the owner the yaw target turns by the look input times
      the angular speed, the current yaw is smoothed toward it, without a speed limit when
      maxYawSpeed is not positive, and the transform is turned to the current yaw. */
  function Update(c: Character, p: MotorParams, isOwner: bool, smooth: SmoothDampAngle, deltaTime: real): (r: Character)
    ensures !isOwner ==> r == c
    ensures isOwner ==>
              && r.yawTarget == c.yawTarget + c.lookInput.x * p.angularSpeed
              && var limit := if p.maxYawSpeed <= 0.0 then None else Some(p.maxYawSpeed);
                 (r.yawCurrent, r.yawVel) == smooth(c.yawCurrent, r.yawTarget, c.yawVel, p.yawSmoothTime, limit, deltaTime)
    ensures isOwner ==> r.facing == r.yawCurrent
    ensures r.position == c.position && r.velocity == c.velocity
  {
    if !isOwner then c
    else
      var target := c.yawTarget + c.lookInput.x * p.angularSpeed;
      var limit := if p.maxYawSpeed <= 0.0 then None else Some(p.maxYawSpeed);
      var (yaw, vel) := smooth(c.yawCurrent, target, c.yawVel, p.yawSmoothTime, limit, deltaTime);
      c.(yawTarget := target, yawCurrent := yaw, yawVel := vel, facing := yaw)
  }

  /** The yaw target integrates the look input: two frames with the same input turn it twice
      as far as one. */
  lemma UpdateTargetAccumulates(c: Character, p: MotorParams, smooth: SmoothDampAngle, dt1: real, dt2: real)
    ensures Update(Update(c, p, true, smooth, dt1), p, true, smooth, dt2).yawTarget
              == c.yawTarget + 2.0 * c.lookInput.x * p.angularSpeed
  {
  }
}

=== FILE: vec.dfy ===
/** Vectors on reals with the definitions UnityEngine.Vector3 / Vector2 use. The float-specific
    operations (square root, exponential, normalization) are supplied from outside as a
    `FloatOps` record; `Sound` states what the model assumes of them, and `UnitySound` shows
    that Unity's own normalization, written over a square root, meets that statement. */
module Vec {
  import opened Num

  datatype Vec3 = Vec3(x: real, y: real, z: real)
  datatype Vec2 = Vec2(x: real, y: real)

  const Zero: Vec3 := Vec3(0.0, 0.0, 0.0)
  const Zero2: Vec2 := Vec2(0.0, 0.0)
  const Up: Vec3 := Vec3(0.0, 1.0, 0.0)

  /** Vector3.kEpsilon: below this magnitude `normalized` gives the zero vector. */
  const NormalizeEpsilon: real := 0.00001

  function Add(a: Vec3, b: Vec3): Vec3 {
    Vec3(a.x + b.x, a.y + b.y, a.z + b.z)
  }

  function Sub(a: Vec3, b: Vec3): Vec3 {
    Vec3(a.x - b.x, a.y - b.y, a.z - b.z)
  }

  function Scale(v: Vec3, k: real): Vec3 {
    Vec3(v.x * k, v.y * k, v.z * k)
  }

  function Neg(v: Vec3): Vec3 {
    Vec3(-v.x, -v.y, -v.z)
  }

  function Dot(a: Vec3, b: Vec3): real {
    a.x * b.x + a.y * b.y + a.z * b.z
  }

  function SqrMagnitude(v: Vec3): real {
    Dot(v, v)
  }

  function Dot2(a: Vec2, b: Vec2): real {
    a.x * b.x + a.y * b.y
  }

  /** The implicit Vector2 -> Vector3 conversion of C#: (x, y) becomes (x, y, 0). */
  function Widen(v: Vec2): Vec3 {
    Vec3(v.x, v.y, 0.0)
  }

  /** The engine's float-specific operations: Mathf.Sqrt, Mathf.Exp, Vector3.normalized and
      Vector2.normalized. */
  datatype FloatOps = FloatOps(
    sqrt: real -> real,
    exp: real -> real,
    normalize: Vec3 -> Vec3,
    normalize2: Vec2 -> Vec2)

  predicate UnitOrZero(v: Vec3) {
    v == Zero || SqrMagnitude(v) == 1.0
  }

  predicate UnitOrZero2(v: Vec2) {
    v == Zero2 || Dot2(v, v) == 1.0
  }

  lemma UnitOrZeroBounded(v: Vec3)
    requires UnitOrZero(v)
    ensures SqrMagnitude(v) <= 1.0
  {
  }

  lemma UnitOrZero2Bounded(v: Vec2)
    requires UnitOrZero2(v)
    ensures Dot2(v, v) <= 1.0
  {
  }

  /** `n` is an acceptable normalization of `v`: unit length or zero; zero exactly when `v` is
      no longer than NormalizeEpsilon; otherwise pointing the same way as `v`, so that `v` is
      `n` scaled by the positive length `Dot(n, v)`; a zero vertical component kept zero, and a
      vector already of unit length left as it is. */
  predicate NormalizeMeets(v: Vec3, n: Vec3) {
    && UnitOrZero(n)
    && (SqrMagnitude(v) > NormalizeEpsilon * NormalizeEpsilon <==> n != Zero)
    && (n != Zero ==> 0.0 < Dot(n, v) && Scale(n, Dot(n, v)) == v)
    && (v.y == 0.0 ==> n.y == 0.0)
    && (SqrMagnitude(v) == 1.0 ==> n == v)
  }

  /** The same for planar vectors. */
  predicate Normalize2Meets(v: Vec2, n: Vec2) {
    && UnitOrZero2(n)
    && (Dot2(v, v) > NormalizeEpsilon * NormalizeEpsilon <==> n != Zero2)
    && (n != Zero2 ==> 0.0 < Dot2(n, v) && Vec2(n.x * Dot2(n, v), n.y * Dot2(n, v)) == v)
    && (Dot2(v, v) == 1.0 ==> n == v)
  }

  /** What the model assumes of the float operations: the root of zero is zero and roots are not
      negative; normalization is acceptable in the sense of `NormalizeMeets` and maps zero to
      zero. */
  ghost predicate Sound(f: FloatOps) {
    && f.sqrt(0.0) == 0.0
    && RootsNonneg(f.sqrt)
    && f.normalize(Zero) == Zero
    && f.normalize2(Zero2) == Zero2
    && NormalizesAll(f.normalize)
    && NormalizesAll2(f.normalize2)
  }

  ghost predicate RootsNonneg(sqrt: real -> real) {
    forall x: real {:trigger sqrt(x)} :: 0.0 <= x ==> 0.0 <= sqrt(x)
  }

  /** The quantifiers below fire only where a proof names `NormalizeMeets` for a vector (see
      `NormalizeFacts`), which keeps the solver from instantiating them for every vector in
      sight. */
  ghost predicate NormalizesAll(normalize: Vec3 -> Vec3) {
    forall v: Vec3 {:trigger NormalizeMeets(v, normalize(v))} :: NormalizeMeets(v, normalize(v))
  }

  ghost predicate NormalizesAll2(normalize2: Vec2 -> Vec2) {
    forall v: Vec2 {:trigger Normalize2Meets(v, normalize2(v))} :: Normalize2Meets(v, normalize2(v))
  }

  lemma NormalizeFacts(f: FloatOps, v: Vec3)
    requires Sound(f)
    ensures NormalizeMeets(v, f.normalize(v))
    ensures SqrMagnitude(f.normalize(v)) <= 1.0
  {
    assert NormalizeMeets(v, f.normalize(v));
    UnitOrZeroBounded(f.normalize(v));
  }

  lemma Normalize2Facts(f: FloatOps, v: Vec2)
    requires Sound(f)
    ensures Normalize2Meets(v, f.normalize2(v))
    ensures Dot2(f.normalize2(v), f.normalize2(v)) <= 1.0
  {
    assert Normalize2Meets(v, f.normalize2(v));
    UnitOrZero2Bounded(f.normalize2(v));
  }

  function Magnitude(v: Vec3, f: FloatOps): real {
    f.sqrt(SqrMagnitude(v))
  }

  /** Vector3.ClampMagnitude, as `normalized * maxLength` above the limit. */
  function ClampMagnitude(v: Vec3, maxLength: real, f: FloatOps): Vec3 {
    if SqrMagnitude(v) > maxLength * maxLength then Scale(f.normalize(v), maxLength) else v
  }

  /** Vector2.ClampMagnitude. */
  function ClampMagnitude2(v: Vec2, maxLength: real, f: FloatOps): Vec2 {
    if Dot2(v, v) > maxLength * maxLength then
      var n := f.normalize2(v); Vec2(n.x * maxLength, n.y * maxLength)
    else v
  }

  /** Vector3.ProjectOnPlane: removes the component along `n`; a degenerate normal leaves `v`. */
  function ProjectOnPlane(v: Vec3, n: Vec3): Vec3 {
    var sq := Dot(n, n);
    if sq < Epsilon then v else Sub(v, Scale(n, Dot(v, n) / sq))
  }

  /** Projecting on the horizontal plane zeroes the vertical component and keeps the others. */
  lemma ProjectOnUpPlane(v: Vec3)
    ensures ProjectOnPlane(v, Up) == Vec3(v.x, 0.0, v.z)
  {
  }

  /** Projecting on a non-degenerate plane leaves nothing along its normal. */
  lemma ProjectOnPlaneOrthogonal(v: Vec3, n: Vec3)
    requires Epsilon <= Dot(n, n)
    ensures Dot(ProjectOnPlane(v, n), n) == 0.0
  {
    var sq := Dot(n, n);
    var k := Dot(v, n) / sq;
    assert k * sq == Dot(v, n);
    assert Dot(Scale(n, k), n) == k * sq;
    assert Dot(Sub(v, Scale(n, k)), n) == Dot(v, n) - Dot(Scale(n, k), n);
  }

  /** A non-negative multiple of `-p` points against `p`. */
  lemma OpposedScaleAgainst(p: Vec3, k: real)
    requires 0.0 <= k
    ensures Dot(Scale(Neg(p), k), p) <= 0.0
  {
    SquareNonneg(p.x);
    SquareNonneg(p.y);
    SquareNonneg(p.z);
    assert Dot(Scale(Neg(p), k), p) == -k * SqrMagnitude(p);
    MulNonneg(k, SqrMagnitude(p));
  }

  lemma SqrMagnitudeScale(v: Vec3, c: real)
    ensures SqrMagnitude(Scale(v, c)) == SqrMagnitude(v) * (c * c)
  {
    var k := c * c;
    assert (v.x * c) * (v.x * c) == (v.x * v.x) * k;
    assert (v.y * c) * (v.y * c) == (v.y * v.y) * k;
    assert (v.z * c) * (v.z * c) == (v.z * v.z) * k;
    assert (v.x * v.x + v.y * v.y + v.z * v.z) * k == (v.x * v.x) * k + (v.y * v.y) * k + (v.z * v.z) * k;
  }

  /** Scaling by a factor in [0, 1] never lengthens a vector. */
  lemma ShrinkNoLonger(v: Vec3, c: real)
    requires 0.0 <= c <= 1.0
    ensures SqrMagnitude(Scale(v, c)) <= SqrMagnitude(v)
  {
    SqrMagnitudeScale(v, c);
    ProductAtMostOne(c, c);
    SquareNonneg(v.x);
    SquareNonneg(v.y);
    SquareNonneg(v.z);
    MulMono(c * c, 1.0, SqrMagnitude(v));
  }

  /** ClampMagnitude never returns a vector longer than the limit. */
  lemma ClampMagnitudeBound(v: Vec3, maxLength: real, f: FloatOps)
    requires Sound(f) && 0.0 <= maxLength
    ensures SqrMagnitude(ClampMagnitude(v, maxLength, f)) <= maxLength * maxLength
  {
    if SqrMagnitude(v) > maxLength * maxLength {
      var n := f.normalize(v);
      NormalizeFacts(f, v);
      SqrMagnitudeScale(n, maxLength);
      MulNonneg(maxLength, maxLength);
    }
  }

  /** Above the limit (and above the normalization threshold), ClampMagnitude returns a vector
      of exactly the limit's length; for a positive limit it points the way of `v`: scaling it by
      its positive projection on `v` gives `v` scaled by the squared limit. */
  lemma ClampMagnitudeAbove(v: Vec3, maxLength: real, f: FloatOps)
    requires Sound(f)
    requires SqrMagnitude(v) > maxLength * maxLength
    requires SqrMagnitude(v) > NormalizeEpsilon * NormalizeEpsilon
    ensures var c := ClampMagnitude(v, maxLength, f);
            && SqrMagnitude(c) == maxLength * maxLength
            && (0.0 < maxLength ==>
                  0.0 < Dot(c, v) && Scale(c, Dot(c, v)) == Scale(v, maxLength * maxLength))
  {
    var n := f.normalize(v);
    NormalizeFacts(f, v);
    SqrMagnitudeScale(n, maxLength);
    var d := Dot(n, v);
    if 0.0 < maxLength {
      DotScaleLeft(n, maxLength, v);
      MulPos(maxLength, d);
      ScaleTwice(n, maxLength, d);
      assert n != Zero && Scale(n, d) == v;
      assert Dot(Scale(n, maxLength), v) == maxLength * d;
    }
  }

  lemma DotScaleLeft(n: Vec3, m: real, v: Vec3)
    ensures Dot(Scale(n, m), v) == m * Dot(n, v)
  {
  }

  /** Scaling by `m` and then by `m * d` is scaling by `d` and then by `m * m`. */
  lemma ScaleTwice(n: Vec3, m: real, d: real)
    ensures Scale(Scale(n, m), m * d) == Scale(Scale(n, d), m * m)
  {
    assert (n.x * m) * (m * d) == (n.x * d) * (m * m);
    assert (n.y * m) * (m * d) == (n.y * d) * (m * m);
    assert (n.z * m) * (m * d) == (n.z * d) * (m * m);
  }

  /** Lagrange's identity in the plane. */
  lemma Lagrange2(a: Vec2, b: Vec2)
    ensures Dot2(a, b) * Dot2(a, b) + (a.x * b.y - a.y * b.x) * (a.x * b.y - a.y * b.x) == Dot2(a, a) * Dot2(b, b)
  {
  }

  lemma SquareNonneg(e: real)
    ensures 0.0 <= e * e
  {
    MulNonneg(Abs(e), Abs(e));
    assert e * e == Abs(e) * Abs(e);
  }

  lemma Dot2SelfNonneg(a: Vec2)
    ensures 0.0 <= Dot2(a, a)
  {
    SquareNonneg(a.x);
    SquareNonneg(a.y);
  }

  /** Cauchy-Schwarz in the plane: two vectors of length at most one have a dot product in
      [-1, 1]. */
  lemma UnitDot2Bounded(a: Vec2, b: Vec2)
    requires Dot2(a, a) <= 1.0 && Dot2(b, b) <= 1.0
    ensures -1.0 <= Dot2(a, b) <= 1.0
  {
    var d := Dot2(a, b);
    var e := a.x * b.y - a.y * b.x;
    Lagrange2(a, b);
    SquareNonneg(e);
    Dot2SelfNonneg(a);
    Dot2SelfNonneg(b);
    ProductAtMostOne(Dot2(a, a), Dot2(b, b));
    assert d * d <= 1.0;
    SquareAtMostOne(d);
  }

  /** Vector3.normalized as Unity writes it over a square root. */
  function UnityNormalize(v: Vec3, sqrt: real -> real): Vec3 {
    var m := sqrt(SqrMagnitude(v));
    if m > NormalizeEpsilon then Scale(v, 1.0 / m) else Zero
  }

  /** Vector2.normalized as Unity writes it over a square root. */
  function UnityNormalize2(v: Vec2, sqrt: real -> real): Vec2 {
    var m := sqrt(Dot2(v, v));
    if m > NormalizeEpsilon then Vec2(v.x * (1.0 / m), v.y * (1.0 / m)) else Zero2
  }

  /** A square root that is exact: the non-negative root of every non-negative argument (the
      roots of 0 and 1 are spelled out). */
  ghost predicate ExactSqrt(sqrt: real -> real) {
    && sqrt(0.0) == 0.0
    && sqrt(1.0) == 1.0
    && forall x: real {:trigger Rooting(sqrt, x)} :: 0.0 <= x ==> 0.0 <= sqrt(x) && sqrt(x) * sqrt(x) == x
  }

  /** Marker by which a proof asks for the square-root assumption at one argument. */
  predicate Rooting(sqrt: real -> real, x: real) { true }

  lemma SqrtFacts(sqrt: real -> real, x: real)
    requires ExactSqrt(sqrt) && 0.0 <= x
    ensures 0.0 <= sqrt(x) && sqrt(x) * sqrt(x) == x
  {
    assert Rooting(sqrt, x);
  }

  lemma UnityNormalizeUnitOrZero(v: Vec3, sqrt: real -> real)
    requires ExactSqrt(sqrt)
    ensures NormalizeMeets(v, UnityNormalize(v, sqrt))
  {
    var s := SqrMagnitude(v);
    var m := sqrt(s);
    SquareNonneg(v.x);
    SquareNonneg(v.y);
    SquareNonneg(v.z);
    SqrtFacts(sqrt, s);
    RootAboveEpsilon(m, s);
    if m > NormalizeEpsilon {
      var k := 1.0 / m;
      var n := Scale(v, k);
      SqrMagnitudeScale(v, k);
      assert k * k * (m * m) == 1.0;
      assert Dot(n, v) == s * k;
      assert s * k == m;
      assert Scale(n, m) == v by {
        assert k * m == 1.0;
        assert n.x * m == v.x * (k * m);
        assert n.y * m == v.y * (k * m);
        assert n.z * m == v.z * (k * m);
      }
    }
  }

  /** For a root `m` of `s`, `m` exceeds NormalizeEpsilon exactly when `s` exceeds its square. */
  lemma RootAboveEpsilon(m: real, s: real)
    requires 0.0 <= m && m * m == s
    ensures m > NormalizeEpsilon <==> s > NormalizeEpsilon * NormalizeEpsilon
  {
    if m > NormalizeEpsilon {
      SquareMono(NormalizeEpsilon, m);
      assert NormalizeEpsilon * m < m * m;
      assert NormalizeEpsilon * NormalizeEpsilon < NormalizeEpsilon * m;
    } else {
      SquareMono(m, NormalizeEpsilon);
    }
  }

  lemma UnityNormalize2UnitOrZero(v: Vec2, sqrt: real -> real)
    requires ExactSqrt(sqrt)
    ensures Normalize2Meets(v, UnityNormalize2(v, sqrt))
  {
    var s := Dot2(v, v);
    var m := sqrt(s);
    Dot2SelfNonneg(v);
    SqrtFacts(sqrt, s);
    RootAboveEpsilon(m, s);
    if m > NormalizeEpsilon {
      var k := 1.0 / m;
      var n := UnityNormalize2(v, sqrt);
      assert Dot2(n, n) == (v.x * v.x) * (k * k) + (v.y * v.y) * (k * k);
      assert k * k * (m * m) == 1.0;
      assert Dot2(n, v) == s * k;
      assert s * k == m;
      assert k * m == 1.0;
      assert n.x * m == v.x * (k * m);
      assert n.y * m == v.y * (k * m);
    }
  }

  lemma UnityNormalizeZero(sqrt: real -> real)
    requires sqrt(0.0) == 0.0
    ensures UnityNormalize(Zero, sqrt) == Zero
  {
    assert SqrMagnitude(Zero) == 0.0;
  }

  lemma UnityNormalize2Zero(sqrt: real -> real)
    requires sqrt(0.0) == 0.0
    ensures UnityNormalize2(Zero2, sqrt) == Zero2
  {
    assert Dot2(Zero2, Zero2) == 0.0;
  }

  /** The float operations with Unity's own normalization over the given square root. */
  function UnityOps(sqrt: real -> real, exp: real -> real): FloatOps {
    FloatOps(sqrt, exp, v => UnityNormalize(v, sqrt), v => UnityNormalize2(v, sqrt))
  }

  lemma UnityNormalizeAll(sqrt: real -> real, exp: real -> real)
    requires ExactSqrt(sqrt)
    ensures NormalizesAll(UnityOps(sqrt, exp).normalize)
  {
    forall v: Vec3 ensures NormalizeMeets(v, UnityOps(sqrt, exp).normalize(v)) {
      assert UnityOps(sqrt, exp).normalize(v) == UnityNormalize(v, sqrt);
      UnityNormalizeUnitOrZero(v, sqrt);
    }
  }

  lemma UnityNormalize2All(sqrt: real -> real, exp: real -> real)
    requires ExactSqrt(sqrt)
    ensures NormalizesAll2(UnityOps(sqrt, exp).normalize2)
  {
    forall v: Vec2 ensures Normalize2Meets(v, UnityOps(sqrt, exp).normalize2(v)) {
      assert UnityOps(sqrt, exp).normalize2(v) == UnityNormalize2(v, sqrt);
      UnityNormalize2UnitOrZero(v, sqrt);
    }
  }

  lemma UnitySqrtNonneg(sqrt: real -> real)
    requires ExactSqrt(sqrt)
    ensures RootsNonneg(sqrt)
  {
    forall x: real | 0.0 <= x ensures 0.0 <= sqrt(x) {
      SqrtFacts(sqrt, x);
    }
  }

  /** Unity's normalization over an exact square root meets everything `Sound` assumes, so the
      assumptions are consistent. */
  lemma UnitySound(sqrt: real -> real, exp: real -> real)
    requires ExactSqrt(sqrt)
    ensures Sound(UnityOps(sqrt, exp))
  {
    var f := UnityOps(sqrt, exp);
    assert f.normalize(Zero) == UnityNormalize(Zero, sqrt);
    assert f.normalize2(Zero2) == UnityNormalize2(Zero2, sqrt);
    UnityNormalizeZero(sqrt);
    UnityNormalize2Zero(sqrt);
    UnitySqrtNonneg(sqrt);
    UnityNormalizeAll(sqrt, exp);
    UnityNormalize2All(sqrt, exp);
  }
}

=== FILE: wrappers.dfy ===
/** The optional value used wherever the C# code tests a reference or a query result against
    null / false: a physics hit, a rigidbody on a hit, a held body, a joint. */
module Wrappers {

  datatype Option<+T> = None | Some(value: T)
}
